=== FILE: README.md ===
# DocuQuery document pipeline, modelled in Dafny

This project models the document back end of DocuQuery, a retrieval-augmented
search service over uploaded PDFs, and proves properties of the model.

- **Upload** (`upload`): reads the raw multipart body and takes the boundary
  from the Content-Type header. It cuts the body at every `--boundary`, picks
  the first part whose headers say `name="file"`, and reads its filename. It
  accepts only names ending in `.pdf`, extracts the text and refuses a blank
  one. Then it writes the document row, chunks the text, embeds the chunks,
  inserts every chunk with its index and embedding, and finally records the
  chunk count.
- **PDF extraction** (`extractTextFromPDF`): checks the buffer and the `%PDF`
  header, then collapses whitespace runs to one space and trims the parser's
  text.
- **Chunking** (`chunkText`): splits the text into sentences at runs of `.`,
  `!` and `?`. It packs the sentences into chunks of about 500 estimated
  tokens, and each new chunk starts with the last words of the previous one.
- **Embeddings** (`generateEmbeddings`): a lazily created, cached model embeds
  the texts ten at a time, keeps their order, and fails as a whole.
- **Search** (`search`): validates the query, probes the database and embeds
  the query. Results then come from one of three tiers:
  - the native vector ranking;
  - an in-application cosine ranking (`cosineSimilarity`, then a stable sort
    by descending score);
  - a lexical match, used only when there is no query vector.

  Errors are classified into the messages the endpoint reports.
- **Answer synthesis** (`generateAnswer`) and the **generate** endpoint: a
  fixed prompt is cut at 1000 characters and given to a lazily created text
  generator. The answer is the trimmed text after the first `Answer:`, and a
  digest of the first three passages is the fallback.

One module per source unit: `TextChunker`, `Embeddings`, `LazyHandle`, `Llm`,
`PdfExtractor`, `Multipart`, `MultipartReassembly`, `Upload`, `Search`,
`Similarity`, `ScoreOrder` and `Generate`. The shared modules `Wrappers`,
`Sequences`, `Strings` and `Types` hold the JavaScript string and array
semantics the handlers rely on: `indexOf`, `split`, `join`, `slice`, `trim`
and `\s`.

**External services are inputs, not code.** Everything outside the handlers'
own logic is a parameter:
- the ML pipelines: embedding and generation, each creation and each call;
- `pdf-parse`;
- `JSON.parse` of a stored embedding;
- `Math.sqrt`;
- UTF-8 decoding of the filename bytes;
- the database, represented by the answer it gives to each query.

The upload handler is stated in two layers. `Upload.Handle` covers
everything after the file field is read. It takes that field and the
handler's collaborators as values: the extractor, the chunker, the embedder
and the store. `Upload.Upload` reads the field with `Multipart.ReadFileField`.
It then wires in the modelled `extractTextFromPDF`, `chunkText` (size 500,
overlap 50) and `generateEmbeddings`.

An outcome records what the handler returns and which store calls or writes
it made, in order. This makes "nothing is written before validation" and "the
count is written last" statable.

**Where the code and the documentation disagree, the model follows the
code:**
- The chunker drops the sentence punctuation: `split(/[.!?]+/)` removes it.
- The cosine tier has no chunk-index tie-break. Ties keep the order the
  store returned them in, because `Array.prototype.sort` is stable.
- When the generated text has no `Answer:`, the answer starts at offset 6
  (`-1 + 7`). There is no fallback for that case.
- A failure to create the embedding model is reported exactly like a failure
  to embed one text.
- A native vector query that succeeds with zero rows is the answer. The
  cosine tier is not tried.
- The lexical tier runs only when the query vector is empty, never because
  the other tiers found nothing.

## Model

| member | source | states |
|---|---|---|
| TextChunker.SplitOnTerminators | backend/documents/utils/text-chunker.ts:3 | `split(/[.!?]+/)` gives at least one piece, and no piece holds `.`, `!` or `?` |
| TextChunker.SplitRoundTrip | backend/documents/utils/text-chunker.ts:3 | the split loses nothing but the separators: there is one non-empty, all-terminator run between consecutive pieces, and weaving the pieces with those runs gives the text back |
| TextChunker.NonBlank | backend/documents/utils/text-chunker.ts:3 | the sentence filter keeps exactly the pieces whose trim is non-empty |
| TextChunker.NonBlankAppend | backend/documents/utils/text-chunker.ts:3 | the sentence filter distributes over concatenation, so the kept sentences keep their order and multiplicity |
| TextChunker.FiltersOnOnePiece | backend/documents/utils/text-chunker.ts:3 | each filter keeps a single piece exactly when it passes its test (non-blank, non-empty) |
| TextChunker.Sentences | backend/documents/utils/text-chunker.ts:3 | every sentence is non-blank and free of terminators |
| TextChunker.EstimateTokens | backend/documents/utils/text-chunker.ts:33-36 | the estimate is the ceiling of length/4: `|s| <= 4n < |s| + 4` |
| TextChunker.CeilQuarter | backend/documents/utils/text-chunker.ts:40 | `Math.ceil(x / 4)` for every integer, negative ones included: `x <= 4c < x + 4` |
| TextChunker.OverlapText | backend/documents/utils/text-chunker.ts:38-42 | the overlap is a suffix of the previous chunk |
| TextChunker.OverlapIsLastWords | backend/documents/utils/text-chunker.ts:38-42 | with a positive word budget, splitting the overlap at spaces gives exactly the last `min(#words, ceil(overlap/4))` words of the chunk |
| TextChunker.OverlapZeroCarriesWholeChunk | backend/documents/utils/text-chunker.ts:40-41 | when `ceil(overlap/4)` is 0, `slice(-0)` carries the whole previous chunk over |
| TextChunker.Step | backend/documents/utils/text-chunker.ts:9-22 | the trimmed running chunk is pushed exactly when the token budget would be exceeded and the chunk is non-empty. After a rollover the new chunk is the overlap, a space and the sentence, re-estimated. Otherwise the sentence is appended and its estimate added. The sentence always ends the new chunk |
| TextChunker.StepJoinsWithOneSpace | backend/documents/utils/text-chunker.ts:19-21 | without a rollover the running chunk grows by exactly one space and the sentence, or by the sentence alone when it was empty, and the space sits right after the old chunk |
| TextChunker.NonEmpty | backend/documents/utils/text-chunker.ts:30 | the final filter keeps exactly the non-empty chunks |
| TextChunker.NonEmptyAppend | backend/documents/utils/text-chunker.ts:30 | the final filter distributes over concatenation, so the kept chunks keep their order and multiplicity |
| TextChunker.ChunkText | backend/documents/utils/text-chunker.ts:1-31 | every chunk is non-empty, and a text with no non-blank sentence gives no chunk |
| TextChunker.FoldWellFormed | backend/documents/utils/text-chunker.ts:9-23 | the loop keeps pushed chunks trimmed and terminator-free |
| TextChunker.ChunksTrimmedWithoutTerminators | backend/documents/utils/text-chunker.ts:14-30 | every chunk returned is non-empty, its own trim, and free of `.`, `!` and `?` |
| TextChunker.FoldCovers | backend/documents/utils/text-chunker.ts:9-23 | after the loop, every sentence is held, trimmed, by a pushed chunk or by the running chunk |
| TextChunker.NoSentenceLost | backend/documents/utils/text-chunker.ts:9-30 | the trim of every sentence occurs in some returned chunk |
| TextChunker.FoldAllWithinBudget | backend/documents/utils/text-chunker.ts:13-21 | sentences whose estimates sum to at most the chunk size never roll over: the running chunk is their space-join |
| TextChunker.SingleChunkWithinBudget | backend/documents/utils/text-chunker.ts:9-30 | such a text gives exactly one chunk, the trimmed space-join of its sentences |
| Sequences.SplitOn | backend/documents/utils/text-chunker.ts:39 | `split(" ")` gives at least one word, and no word contains the separator |
| Sequences.JoinSplit | backend/documents/utils/text-chunker.ts:39-41 | joining the split pieces with the separator gives the text back |
| Sequences.SplitJoin | backend/documents/utils/text-chunker.ts:39-41 | splitting a join of separator-free pieces gives the pieces back |
| Sequences.SliceFrom | backend/documents/utils/text-chunker.ts:41 | `slice(start)` gives a suffix whose length follows the negative-index and clamping rules |
| Sequences.SliceTo | backend/documents/search.ts:121 | `slice(0, end)` gives a prefix whose length follows the negative-index and clamping rules |
| Sequences.IndexFrom | backend/documents/upload.ts:33 | `indexOf(pat, from)`: the first occurrence at or after `from`, or none at all |
| Strings.Trim | backend/documents/utils/pdf-extractor.ts:30 | the trim is empty exactly for a blank string, and otherwise starts and ends with non-whitespace |
| Strings.TrimWindow | backend/documents/utils/pdf-extractor.ts:30 | the trim of a non-blank string is exactly the span between its leading and its trailing whitespace |
| Strings.TrimIdempotent | backend/documents/utils/pdf-extractor.ts:30 | trimming twice is trimming once |
| LazyHandle.Acquire | backend/documents/utils/embeddings.ts:5-14 | a cached model is returned as it is; otherwise the outcome of creating one is returned and cached |
| LazyHandle.CreatedAtMostOnce | backend/documents/utils/embeddings.ts:5-14 | over any sequence of calls at most one model is created, and none once one is cached |
| LazyHandle.HandleReused | backend/documents/utils/llm.ts:5-16 | once a call has obtained a model, every later call gets that same model |
| Embeddings.EmbedEachMeaning | backend/documents/utils/embeddings.ts:27-32 | `Promise.all` over one batch fails exactly when one text fails; otherwise position `i` holds the embedding of text `i` |
| Embeddings.EmbedEachAppend | backend/documents/utils/embeddings.ts:34 | embedding a concatenation is embedding each half and appending, failing if either half fails |
| Embeddings.BatchesFrom | backend/documents/utils/embeddings.ts:23-25 | every batch range is non-empty, within the input, and at most 10 long |
| Embeddings.BatchesCoverInOrder | backend/documents/utils/embeddings.ts:23-25 | the batches cover every input index exactly once, in order |
| Embeddings.EmbedInBatches | backend/documents/utils/embeddings.ts:23-35 | the batched loop returns exactly what embedding every text on its own returns |
| Embeddings.GenerateEmbeddingsSpec | backend/documents/utils/embeddings.ts:16-42 | the model is obtained first. The call succeeds exactly when the model exists and every text embeds, and then holds one embedding per text, in order. Every failure is the one message "Failed to generate embeddings" |
| Embeddings.GenerateEmbeddings | backend/documents/utils/embeddings.ts:16-42 | the method agrees with `GenerateEmbeddingsSpec` and satisfies every clause above |
| Similarity.CosineSimilarity | backend/documents/search.ts:188-211 | throws exactly on a length mismatch; is 0 when either norm is 0; otherwise the score times the product of the norms is the dot product |
| Similarity.DotSymmetric | backend/documents/search.ts:197-201 | the dot product does not depend on the order of its arguments |
| Similarity.CosineSymmetric | backend/documents/search.ts:188-211 | the similarity, and its error, does not depend on the order of its arguments |
| Similarity.SelfSimilarityIsOne | backend/documents/search.ts:197-210 | a vector with a non-zero norm has similarity 1 with itself |
| Similarity.ZeroVectorScoresZero | backend/documents/search.ts:206-208 | the zero vector scores 0 against any vector of its length, on either side |
| ScoreOrder.SortIsStablePermutation | backend/documents/search.ts:119-120 | the sort returns a permutation of its input in non-increasing score order, and results with equal scores keep their input order |
| Search.SelectTier | backend/documents/search.ts:43-91 | the lexical tier is chosen exactly when there is no query vector, and the native tier exactly when there is one and its query succeeds |
| Search.SqlLimit | backend/documents/search.ts:63 | `LIMIT n` gives the first `min(n, rows)` rows, and a negative `n` is rejected |
| Search.QueryEmbedding | backend/documents/search.ts:29-39 | the query vector is the embedding of the query, or the empty vector when embedding fails; the failure is swallowed and the model cache still advances |
| Search.MapVectorRows | backend/documents/search.ts:150-156 | each native row becomes one result, in order, scored `1 - distance` |
| Search.VectorSearch | backend/documents/search.ts:44-65 | the native tier succeeds exactly when the store query does and the limit is non-negative. It then returns the first `limit` rows of the ranking, scored `1 - distance` |
| Search.ScoreCandidates | backend/documents/search.ts:93-116 | there are as many results as candidates whose stored embedding parses to a vector of the query's length |
| Search.ScoreCandidatesAppend | backend/documents/search.ts:93-116 | scoring goes candidate by candidate: the results for a concatenation are those for each half, in order |
| Search.ScoreOneCandidate | backend/documents/search.ts:93-116 | a single candidate gives exactly its scored form when it is usable, and nothing otherwise; with ScoreCandidatesAppend, the results are the usable candidates' scored forms, once each, in store order |
| Search.ScoredFromCandidates | backend/documents/search.ts:93-116 | every cosine result is a usable candidate's chunk, scored with that candidate's cosine similarity to the query |
| Search.CosineSearch | backend/documents/search.ts:118-121 | the cosine tier's results are sorted by descending score, number `min(limit, usable)` for a non-negative limit, and are a prefix of the stably sorted candidates |
| Search.MapTextRows | backend/documents/search.ts:143-146 | each lexical row becomes one result, in order, scored 0.5 |
| Search.TextSearch | backend/documents/search.ts:125-146 | the lexical tier returns the first `limit` matches in store order, each scored 0.5 |
| Search.ClassifyError | backend/documents/search.ts:165-184 | an `APIError` is passed through. Another `Error` becomes internal: the database message if it mentions "database" or "connection", else the model message if it mentions "embedding", else its own message. A non-`Error` gets the generic message |
| Search.Respond | backend/documents/search.ts:150-163 | the response carries the results and their count |
| Search.Search | backend/documents/search.ts:14-185 | a blank query is an invalid argument before any store call, and a successful response's total is its number of results |
| Search.LexicalOnlyWithoutEmbedding | backend/documents/search.ts:91-141 | the lexical query is issued only when the query vector is empty |
| Search.NoEmbeddingMeansLexical | backend/documents/search.ts:30-146 | without a query vector and with a working scan, the search issues the lexical query and answers with its results |
| Search.VectorTierAnswersAsIs | backend/documents/search.ts:44-65 | with a query vector and a native ranking, the answer is the ranking's first `limit` rows, even when there are none, and the cosine and lexical queries are never issued |
| Search.CosineTierOnVectorFailure | backend/documents/search.ts:69-121 | when the native query throws and a query vector exists, the answer is the cosine tier's, and the lexical query is never issued |
| Search.NegativeLimitDropsTail | backend/documents/search.ts:63-121 | a negative limit makes the native query fail, and the cosine tier's `slice(0, limit)` then drops the last `-limit` candidates instead of returning nothing |
| Search.EmbeddingFailureSwallowed | backend/documents/search.ts:35-39 | a failed query embedding does not fail the search: with a working store, the search succeeds with lexical results only |
| Search.DatabaseMentionWins | backend/documents/search.ts:174-177 | a message mentioning both "database" and "embedding" is classified as a database failure |
| Search.ResultsWithinLimit | backend/documents/search.ts:44-146 | with a non-negative limit, whichever tier answers returns at most `limit` results |
| Search.OmittedLimitGivesAtMostTen | backend/documents/search.ts:14 | a request without a limit uses 10 and so gets at most ten results |
| Llm.Prompt | backend/documents/utils/llm.ts:22-24 | the prompt is the fixed template: the instruction, the question, the closing quote and "Context:" line, the passages joined by blank lines and the `Answer:` marker, each at its offset, with nothing else in between |
| Llm.Truncate | backend/documents/utils/llm.ts:27-30 | a prompt of at most 1000 characters is kept as it is; a longer one becomes its first 1000 characters followed by `...` |
| Llm.AnswerStart | backend/documents/utils/llm.ts:42 | the offset is just past the first `Answer:`, or 6 when there is none |
| Llm.ExtractAnswer | backend/documents/utils/llm.ts:42-43 | the answer is its own trim, neither starts nor ends with whitespace, and is empty exactly when the text after the offset is blank |
| Llm.AnswerIsSurroundedByWhitespace | backend/documents/utils/llm.ts:42-43 | when the text after the offset is not blank, it is whitespace, then the answer, then whitespace: the answer sits right after the leading whitespace |
| Llm.Excerpt | backend/documents/utils/llm.ts:53 | an excerpt is the 1-based number, `. `, the passage's first 200 characters and `...`, each at its fixed offset, with nothing else (its length is the sum of the four) |
| Llm.Excerpts | backend/documents/utils/llm.ts:51-53 | there are excerpts of the first three passages only, in order |
| Llm.Digest | backend/documents/utils/llm.ts:51-56 | the digest starts with its fixed header and is never empty |
| Llm.DigestOfFewPassages | backend/documents/utils/llm.ts:50-56 | with no passage the digest is the bare header; with one it is the header and that excerpt; with two it is the header and the two excerpts separated by a blank line |
| Llm.DigestOfManyPassages | backend/documents/utils/llm.ts:50-56 | with three or more passages the digest is the header and the excerpts of the first three, separated by blank lines |
| Llm.GenerateAnswer | backend/documents/utils/llm.ts:18-58 | the answer is never empty. Without a model, or when generation fails, it is the digest. Otherwise it is the extracted answer, or the fixed "couldn't generate" sentence when that is empty. The model is obtained through the cache |
| Llm.DigestReadsFirstExcerpts | backend/documents/utils/llm.ts:51-54 | the digest depends only on the first 200 characters of the first three passages |
| Llm.OnlyClosingMarker | backend/documents/utils/llm.ts:24 | when neither the question nor the passages say `Answer:`, the prompt says it only at its very end |
| Llm.EchoedPromptYieldsContinuation | backend/documents/utils/llm.ts:24-43 | a model that echoes a prompt of at most 1000 characters and continues it yields the trimmed continuation |
| Llm.TruncatedPromptLosesMarker | backend/documents/utils/llm.ts:27-30 | a prompt cut at 1000 characters has lost its closing `Answer:`, whatever follows the ellipsis |
| Llm.EchoedHead | backend/documents/utils/llm.ts:42-43 | an echoed text without `Answer:` is read from offset 6, inside the instruction |
| Llm.LongPromptEchoesInstruction | backend/documents/utils/llm.ts:27-43 | for a prompt over 1000 characters with no `Answer:` in its parts, an echoing model's answer begins with the echoed instruction |
| Llm.EchoingModelAnswersWithContinuation | backend/documents/utils/llm.ts:18-45 | end to end: an echoing model with a short prompt answers with the trimmed continuation, or with the fixed sentence when that is blank |
| PdfExtractor.CollapseSpaces | backend/documents/utils/pdf-extractor.ts:28 | the result has only lone ASCII spaces as whitespace, is no longer than the input, is empty exactly when the input is, and starts with whitespace exactly when the input does |
| PdfExtractor.CollapseRun | backend/documents/utils/pdf-extractor.ts:28 | a whitespace run followed by a word, or by nothing, collapses to one space |
| PdfExtractor.CollapseCons | backend/documents/utils/pdf-extractor.ts:28 | a non-whitespace character is kept, and collapsing carries on after it |
| PdfExtractor.CollapseAppend | backend/documents/utils/pdf-extractor.ts:28 | collapsing works piece by piece when the second piece is empty or starts with a non-whitespace character, so the cut cannot split a whitespace run |
| PdfExtractor.CollapseTrailingRun | backend/documents/utils/pdf-extractor.ts:28 | a whitespace run at the end of the text becomes exactly one trailing space |
| PdfExtractor.CollapseRunBetween | backend/documents/utils/pdf-extractor.ts:28 | a whitespace run between two words, or at either end, becomes exactly one space and the two sides collapse independently |
| PdfExtractor.CollapseKeepsWords | backend/documents/utils/pdf-extractor.ts:28 | collapsing keeps every non-whitespace character, in order |
| PdfExtractor.CollapseFixesCollapsed | backend/documents/utils/pdf-extractor.ts:28 | an already collapsed text is left as it is |
| PdfExtractor.CollapseIdempotent | backend/documents/utils/pdf-extractor.ts:28 | collapsing twice is collapsing once |
| PdfExtractor.NoLineBreakAfterCollapse | backend/documents/utils/pdf-extractor.ts:28-29 | no line break survives collapsing, so the empty-line replacement has nothing to act on |
| PdfExtractor.BlankCollapse | backend/documents/utils/pdf-extractor.ts:28 | a text is blank exactly when its collapsed form is |
| PdfExtractor.CleanText | backend/documents/utils/pdf-extractor.ts:27-30 | the cleaned text is collapsed, has no surrounding whitespace, and is empty exactly when the parser's text is blank |
| PdfExtractor.CleanTextRunBetween | backend/documents/utils/pdf-extractor.ts:27-30 | a whitespace run between two words becomes exactly one space in the cleaned text, and the text on either side is cleaned independently |
| PdfExtractor.CleanTextIdempotent | backend/documents/utils/pdf-extractor.ts:27-30 | cleaning a cleaned text changes nothing |
| PdfExtractor.CleanTextKeepsWords | backend/documents/utils/pdf-extractor.ts:27-30 | cleaning keeps every non-whitespace character, in order |
| PdfExtractor.SolidOfTrim | backend/documents/utils/pdf-extractor.ts:30 | trimming removes whitespace only |
| PdfExtractor.ExtractText | backend/documents/utils/pdf-extractor.ts:3-37 | an empty buffer, then a missing `%PDF` header, are rejected with their own messages. Every error starts with "Failed to extract text from PDF: ". Success happens exactly when the header is present and the parser returns a non-empty text, and the result is that text cleaned |
| PdfExtractor.HeaderCheckedBeforeParsing | backend/documents/utils/pdf-extractor.ts:10-16 | a buffer without the header fails whatever the parser would do |
| PdfExtractor.ExtractedTextIsClean | backend/documents/utils/pdf-extractor.ts:22-32 | an extracted text is collapsed and trimmed, and is empty exactly when the parser's text was blank |
| Multipart.BoundaryParam | backend/documents/upload.ts:21 | `split('boundary=')[1]` exists exactly when the header contains `boundary=`; it is then the header's text from just after the first `boundary=` up to the next `boundary=` or the end, and never contains the key |
| Multipart.BoundaryAfterKey | backend/documents/upload.ts:21 | for any header `P boundary=B Q` whose first key follows `P`, the parameter is `B` when `Q` is empty and `B` key-free, or when `Q` starts the next key and none begins earlier |
| Multipart.Boundary | backend/documents/upload.ts:21-25 | a missing or empty boundary is the invalid argument "No multipart boundary found"; otherwise the boundary is that parameter |
| Multipart.StandardHeaderBoundary | backend/documents/upload.ts:21 | `multipart/form-data; boundary=B` yields `B` when `B` is non-empty and free of `boundary=` |
| Multipart.EncodeAscii | backend/documents/upload.ts:28 | an ASCII boundary encodes to one byte per character, each its code |
| Multipart.EncodeAppend | backend/documents/upload.ts:28 | encoding `--` and the boundary is encoding each and appending |
| Multipart.Segments | backend/documents/upload.ts:32-40 | no segment contains the delimiter, and the delimiter after each segment is the first one that starts inside or after it, even when occurrences overlap |
| Multipart.Rest | backend/documents/upload.ts:32-40 | the bytes after the last delimiter are a suffix of the body and hold no delimiter |
| Multipart.SplitParts | backend/documents/upload.ts:29-40 | a body without the delimiter has no parts; no part contains the delimiter, and each ends at the first delimiter after its start |
| MultipartReassembly.SegmentsReassemble | backend/documents/upload.ts:32-40 | each segment followed by the delimiter, then the bytes after the last delimiter, gives the scanned bytes back |
| MultipartReassembly.SegmentsUnique | backend/documents/upload.ts:32-40 | any cut of the scanned bytes into segments, each followed by the first delimiter after its start, and a delimiter-free rest, is the scan's own |
| MultipartReassembly.PartsReassemble | backend/documents/upload.ts:29-40 | the preamble, the parts and the trailing bytes joined with the delimiter give the body back: the scan loses only the delimiters |
| Multipart.ParsePart | backend/documents/upload.ts:46-50 | a part without a blank line is skipped; otherwise its headers are the bytes before the first blank line: the blank line follows them, and no blank line starts earlier in the part |
| Multipart.PartLayout | backend/documents/upload.ts:46-50 | the content is what lies between the blank line and the part's last two bytes, and is empty when nothing does |
| Multipart.SelectFrom | backend/documents/upload.ts:45-61 | the selected part is the first whose headers contain `name="file"` |
| Multipart.FilenameAt | backend/documents/upload.ts:56 | `filename="([^"]+)"` matches at a position exactly when the capture is the non-empty, quote-free run before the next quote |
| Multipart.FirstFilename | backend/documents/upload.ts:56-59 | the regular expression's match is the leftmost position where it matches |
| Multipart.FilenameFileMarksFilePart | backend/documents/upload.ts:52 | a part with `filename="file"` counts as the file field whatever its name, because `name="file"` occurs inside it |
| Multipart.ReadFileField | backend/documents/upload.ts:21-66 | a boundary failure is reported as it is. With a boundary, the read fails, with "No file provided", exactly when no part is a file part. Every failure is an invalid argument |
| Multipart.FirstFilePartWins | backend/documents/upload.ts:42-62 | the field is the content of the first file part, named by the leftmost `filename="..."` of its headers, or "unknown.pdf" |
| Upload.RowFor | backend/documents/upload.ts:98-114 | chunk `i` is stored under the document with index `i`, the `i`-th chunk and the `i`-th embedding |
| Upload.InsertChunks | backend/documents/upload.ts:98-118 | every stored row is chunk `i` with its own embedding. The inserts all succeed exactly when each chunk's vector insert or its plain fallback succeeds, and then row `k` is chunk `k` |
| Upload.Classify | backend/documents/upload.ts:134-140 | an `APIError` is reported as it is, and anything else as "Failed to process document" |
| Upload.StoreChunks | backend/documents/upload.ts:91-132 | an embedding failure writes no chunk and is rethrown. The stage succeeds exactly when the embedding, every chunk insert (vector or plain fallback) and the count update succeed. A success writes chunk `i` as write `i`, the count last, and reports the number of chunks. A count write is always the last write of a success |
| Upload.Admit | backend/documents/upload.ts:64-78 | the checks run in order: file field, then `.pdf` ending in any letter case, then extraction, then non-blank text. Success carries the field and its extracted text |
| Upload.Process | backend/documents/upload.ts:64-132 | a failed check writes nothing. A failing or empty document insert stops before any chunk. Otherwise the document row is written first, then the chunk writes |
| Upload.Handle | backend/documents/upload.ts:64-140 | the checks fail in order (file field, `.pdf` ending in any letter case, extraction, non-blank text), each before anything is written. An extraction failure is the internal processing failure. The writes are those of processing; an `APIError` is reported as it is and anything else as "Failed to process document" |
| Upload.RequestServicesValid | backend/documents/utils/embeddings.ts:16-37 | the embedding service answers every list of chunks with one vector per chunk whenever it succeeds, which the handler's `embeddings[index]` relies on |
| Upload.Upload | backend/documents/upload.ts:11-66 | a missing boundary and a missing file part are reported as their invalid arguments with nothing written; a file field that was read is handled with the request's extractor, chunker, embedder and store |
| Upload.DocumentThenChunks | backend/documents/upload.ts:81-125 | after the document row come chunk `i` as write `i + 1`, then the count |
| Upload.SuccessfulUploadWrites | backend/documents/upload.ts:80-132 | a successful upload wrote the document row, every chunk with its index, text and embedding in order, and last a count equal to the reported number of chunks |
| Upload.CountWrittenLast | backend/documents/upload.ts:118-125 | the count is written only by a successful upload, and only as its last write |
| Upload.EmptyFileIsInternalError | backend/documents/upload.ts:64-74 | an empty file part passes "No file provided", and the extractor's empty-buffer error surfaces as the internal processing failure with nothing written |
| Upload.EmbeddingFailureLeavesDocumentOnly | backend/documents/upload.ts:81-95 | an embedding failure leaves the document row as the only write, and is reported as the internal processing failure |
| Generate.Classify | backend/documents/generate.ts:31-37 | an `APIError` is reported as it is, and anything else as "Failed to generate answer" |
| Generate.GenerateEndpoint | backend/documents/generate.ts:13-38 | a blank question, then a missing or empty context, are invalid arguments. Otherwise the response is the synthesised answer (never empty) with the passages echoed as the sources |
| Generate.NoInternalError | backend/documents/generate.ts:24-36 | the endpoint only ever reports invalid arguments: answer synthesis never throws, so "Failed to generate answer" cannot occur |

## Left out

- Reading the request stream, `Buffer.concat`, logging, the HTTP framework and
  the database driver are not modelled. The body is one byte sequence. The
  store is represented by the answer it gives to each query (rows, or a
  thrown value).
- The SQL itself is not modelled: the vector operator `<=>`, `LOWER(...) LIKE`,
  `JOIN` and ordering. The store's answers are given already ranked or
  filtered, and only `LIMIT` is applied by the model.
- The ML models and `pdf-parse` are uninterpreted functions. Which embedding
  or text a model produces is not modelled, and neither is the sampling of
  the generator. One function models one run.
- Numbers are reals rather than IEEE doubles: rounding, NaN and infinities
  are not modelled. `Math.sqrt` is a parameter, and the lemmas that need a
  real square root state it as a precondition.
- The `JSON.stringify` and `[a,b,...]` serialisation of an embedding on
  insert, and `JSON.parse` in the cosine tier, are not modelled. A stored row
  carries the vector itself, and parsing is a parameter.
- `Promise.all` over the chunk inserts and over a batch is modelled
  sequentially. All chunk inserts are attempted, and the reported failure is
  the one with the lowest index. The interleaving of concurrent store writes
  is not modelled.
- Strings are sequences of Unicode code points, not UTF-16 code units, so
  lengths and 1000-character truncation count code points. The multipart
  delimiter is the UTF-8 encoding of `--boundary`. Decoding the filename
  bytes (`Buffer.toString()`) is a parameter.
- `toLowerCase` in the `.pdf` check is modelled on ASCII letters only. For
  the suffix `.pdf` this decides the same names as full Unicode lower-casing.
- The frontend and the list endpoint are outside this model.
- Upload.Handle: it requires an embedder that returns one vector per chunk,
  as `generateEmbeddings` does (Upload.RequestServicesValid). The
  `undefined` embedding the handler would meet with a shorter list is not
  modelled.
- LazyHandle.CreatedAtMostOnce: calls are modelled one after another. Two
  first calls that run concurrently, before either has cached its model,
  can each create a model (backend/documents/utils/embeddings.ts:5-14 and
  backend/documents/utils/llm.ts:5-16 cache only after the creation
  completes); the at-most-once promise covers sequential calls only.
- Sequences.SliceFrom: states the length and the suffix relation, not the
  full index arithmetic of JavaScript `slice`.
- Search.Search: its own contract states only the blank-query case and the
  total count. Each tier's behaviour is stated by the lemmas named above.
- Search.RequestedLimit: `limit` is modelled as an integer, while the
  request declares it `limit?: number` (backend/documents/search.ts:8). A
  fractional, infinite or NaN limit is not modelled: neither how `LIMIT`
  treats it in the native and lexical queries (search.ts:63, 140) nor the
  truncation `slice(0, limit)` applies to it in the cosine tier (search.ts:121).
- Search.ScoreCandidates: its own contract states the count. The results
  themselves, one per usable candidate and in store order, are stated by
  Search.ScoreCandidatesAppend and Search.ScoreOneCandidate, which keeps the
  recursive function's contract small for the proofs that unfold it.
- TextChunker.ChunkText: its contract states non-emptiness and the empty
  case. The rest is stated by the chunking lemmas above. The exact size
  bound of a chunk with overlap is not stated.

=== FILE: embeddings.dfy ===
/** Batched, order-preserving, all-or-nothing embedding of texts
    (backend/documents/utils/embeddings.ts). */
module Embeddings {
  import opened Wrappers
  import opened Types
  import opened LazyHandle

  const BatchSize: nat := 10
  const EmbedFailure: string := "Failed to generate embeddings"

  /** The feature-extraction pipeline applied to one text (mean pooling,
      normalised); `None` when that call rejects. */
  type Embedder = (ModelHandle, string) -> Option<Vector>

  /** Reference meaning: every text embedded on its own, in order, the
      first failure failing the whole list. */
  function EmbedEach(h: ModelHandle, texts: seq<string>, embed: Embedder): Option<seq<Vector>> {
    if |texts| == 0 then Some([])
    else
      var first := embed(h, texts[0]);
      var rest := EmbedEach(h, texts[1..], embed);
      if first.None? || rest.None? then None
      else Some([first.value] + rest.value)
  }

  /** The list fails exactly when one text fails; otherwise it holds the
      embedding of every text at that text's position. */
  lemma {:induction false} EmbedEachMeaning(h: ModelHandle, texts: seq<string>, embed: Embedder)
    ensures var r := EmbedEach(h, texts, embed);
            (r.Some? <==> forall i | 0 <= i < |texts| :: embed(h, texts[i]).Some?)
            && (r.Some? ==> |r.value| == |texts|
                            && forall i | 0 <= i < |texts| :: r.value[i] == embed(h, texts[i]).value)
  {
    if |texts| > 0 {
      var tail := texts[1..];
      EmbedEachMeaning(h, tail, embed);
      assert forall i | 1 <= i < |texts| :: texts[i] == tail[i - 1];
    }
  }

  /** What `generateEmbeddings(texts)` returns, and the cached handle after it:
      the handle is obtained first (its creation failing fails the call), then
      every text is embedded. Any failure yields the single message
      "Failed to generate embeddings" and no partial result. */
  function GenerateEmbeddingsSpec(texts: seq<string>, cached: Option<ModelHandle>, load: Option<ModelHandle>, embed: Embedder)
    : (r: (Result<seq<Vector>, string>, Option<ModelHandle>))
    ensures r.1 == Acquire(cached, load)
    ensures r.0.Failure? ==> r.0.error == EmbedFailure
    ensures r.0.Success? <==> r.1.Some? && forall i | 0 <= i < |texts| :: embed(r.1.value, texts[i]).Some?
    ensures r.0.Success? ==> |r.0.value| == |texts|
    ensures r.0.Success? ==> forall i | 0 <= i < |texts| :: r.0.value[i] == embed(r.1.value, texts[i]).value
  {
    var h := Acquire(cached, load);
    if h.None? then (Failure(EmbedFailure), h)
    else
      EmbedEachMeaning(h.value, texts, embed);
      match EmbedEach(h.value, texts, embed)
      case Some(vs) => (Success(vs), h)
      case None => (Failure(EmbedFailure), h)
  }

  /** The half-open batch ranges `[i, min(i + 10, n))` for `i = 0, 10, 20, ...`. */
  function BatchesFrom(i: nat, n: nat): (r: seq<(nat, nat)>)
    ensures forall k | 0 <= k < |r| :: r[k].0 < r[k].1 <= n && r[k].1 - r[k].0 <= BatchSize
    decreases n - i
  {
    if i >= n then []
    else
      var end := if i + BatchSize < n then i + BatchSize else n;
      [(i, end)] + BatchesFrom(i + BatchSize, n)
  }

  /** The indices a list of ranges covers, in order. */
  function Indices(bs: seq<(nat, nat)>): seq<nat> {
    if |bs| == 0 then [] else Range(bs[0].0, bs[0].1) + Indices(bs[1..])
  }

  function Range(lo: nat, hi: nat): (r: seq<nat>)
    ensures |r| == if lo <= hi then hi - lo else 0
    ensures forall k | 0 <= k < |r| :: r[k] == lo + k
    decreases hi - lo
  {
    if lo >= hi then [] else [lo] + Range(lo + 1, hi)
  }

  /** The batches cover every input index exactly once, in order. */
  lemma {:induction false} BatchesCoverInOrder(i: nat, n: nat)
    requires i <= n
    ensures Indices(BatchesFrom(i, n)) == Range(i, n)
    decreases n - i
  {
    if i < n {
      var end := if i + BatchSize < n then i + BatchSize else n;
      if end < n {
        BatchesCoverInOrder(end, n);
      } else {
        assert BatchesFrom(i + BatchSize, n) == [];
      }
      RangeSplit(i, end, n);
    }
  }

  lemma RangeSplit(lo: nat, mid: nat, hi: nat)
    requires lo <= mid <= hi
    ensures Range(lo, hi) == Range(lo, mid) + Range(mid, hi)
  {
    var a := Range(lo, hi);
    var b := Range(lo, mid) + Range(mid, hi);
    assert |a| == |b|;
    forall k | 0 <= k < |a| ensures a[k] == b[k] {
      if k < mid - lo {
        assert b[k] == Range(lo, mid)[k];
      } else {
        assert b[k] == Range(mid, hi)[k - (mid - lo)];
      }
    }
  }

  /** Embedding a concatenation embeds each half: it succeeds when both
      halves do, with the results appended. */
  lemma {:induction false} EmbedEachAppend(h: ModelHandle, a: seq<string>, b: seq<string>, embed: Embedder)
    ensures var ra := EmbedEach(h, a, embed);
            var rb := EmbedEach(h, b, embed);
            EmbedEach(h, a + b, embed) == if ra.Some? && rb.Some? then Some(ra.value + rb.value) else None
  {
    if |a| == 0 {
      assert a + b == b;
      var rb := EmbedEach(h, b, embed);
      if rb.Some? {
        assert [] + rb.value == rb.value;
      }
    } else {
      assert (a + b)[0] == a[0];
      assert (a + b)[1..] == a[1..] + b;
      EmbedEachAppend(h, a[1..], b, embed);
      var first := embed(h, a[0]);
      var ra := EmbedEach(h, a[1..], embed);
      var rb := EmbedEach(h, b, embed);
      if first.Some? && ra.Some? && rb.Some? {
        assert [first.value] + (ra.value + rb.value) == ([first.value] + ra.value) + rb.value;
      }
    }
  }

  /** The batching loop of `generateEmbeddings`: the texts are embedded ten
      at a time, each batch awaited as a whole, results appended in input
      order. Any failure abandons the partial list. The outcome is that of
      embedding every text on its own. */
  method EmbedInBatches(h: ModelHandle, texts: seq<string>, embed: Embedder) returns (r: Option<seq<Vector>>)
    ensures r == EmbedEach(h, texts, embed)
  {
    var embeddings: seq<Vector> := [];
    var i: nat := 0;
    while i < |texts|
      invariant i <= |texts|
      invariant EmbedEach(h, texts[..i], embed) == Some(embeddings)
      decreases |texts| - i
    {
      var end := if i + BatchSize < |texts| then i + BatchSize else |texts|;
      var batchEmbeddings := EmbedEach(h, texts[i..end], embed);
      EmbedEachAppend(h, texts[..i], texts[i..end], embed);
      assert texts[..i] + texts[i..end] == texts[..end];
      if batchEmbeddings.None? {
        EmbedEachAppend(h, texts[..end], texts[end..], embed);
        assert texts[..end] + texts[end..] == texts;
        return None;
      }
      embeddings := embeddings + batchEmbeddings.value;
      i := end;
    }
    assert texts[..i] == texts;
    return Some(embeddings);
  }

  /** `generateEmbeddings`: the pipeline is obtained once, then the texts are
      embedded in batches of ten. */
  method GenerateEmbeddings(texts: seq<string>, cached: Option<ModelHandle>, load: Option<ModelHandle>, embed: Embedder)
    returns (r: Result<seq<Vector>, string>, cache: Option<ModelHandle>)
    ensures (r, cache) == GenerateEmbeddingsSpec(texts, cached, load, embed)
    ensures cache == Acquire(cached, load)
    ensures r.Failure? ==> r.error == EmbedFailure
    ensures r.Success? <==> cache.Some? && forall i | 0 <= i < |texts| :: embed(cache.value, texts[i]).Some?
    ensures r.Success? ==> |r.value| == |texts|
    ensures r.Success? ==> forall i | 0 <= i < |texts| :: r.value[i] == embed(cache.value, texts[i]).value
  {
    cache := Acquire(cached, load);
    if cache.None? {
      return Failure(EmbedFailure), cache;
    }
    var embeddings := EmbedInBatches(cache.value, texts, embed);
    if embeddings.None? {
      return Failure(EmbedFailure), cache;
    }
    return Success(embeddings.value), cache;
  }
}

=== FILE: generate.dfy ===
/** The generate endpoint (`generate`): validate the question and the
    passages, then answer with `generateAnswer` and echo the passages as the
    sources. */
module Generate {
  import opened Wrappers
  import opened Strings
  import opened Types
  import opened LazyHandle
  import opened Llm

  const EmptyQuery := "Query cannot be empty"
  const EmptyContext := "Context cannot be empty"
  const GenerationFailed := "Failed to generate answer"

  /** The error the endpoint reports for a thrown value: an `APIError` as it
      is, anything else as the internal "Failed to generate answer". */
  function Classify(f: Fault): (e: ApiError)
    ensures f.Api? ==> e == f.err
    ensures !f.Api? ==> e == ApiError(Internal, GenerationFailed)
  {
    if f.Api? then f.err else ApiError(Internal, GenerationFailed)
  }

  /** `generate({query, context})`, with the generator handle cached
      afterwards. A missing `context` field is None. Answer synthesis never
      throws (its own failures become the digest), so nothing reaches the
      handler's catch-all except its own invalid-argument errors. */
  function GenerateEndpoint(query: string, context: Option<seq<string>>, cached: Option<ModelHandle>,
                            load: Option<ModelHandle>, generate: Generator)
    : (r: (Result<GenerateResponse, ApiError>, Option<ModelHandle>))
    ensures IsBlank(query) ==> r == (Failure(ApiError(InvalidArgument, EmptyQuery)), cached)
    ensures !IsBlank(query) && (context.None? || |context.value| == 0) ==>
              r == (Failure(ApiError(InvalidArgument, EmptyContext)), cached)
    ensures r.0.Success? <==> !IsBlank(query) && context.Some? && |context.value| > 0
    ensures r.0.Success? ==> r.0.value.sources == context.value && |r.0.value.answer| > 0
    ensures r.0.Success? ==> r.1 == Acquire(cached, load)
    ensures r.0.Success? ==> r.0.value.answer == GenerateAnswer(query, context.value, cached, load, generate).0
  {
    var checked: Result<seq<string>, Fault> :=
      if IsBlank(query) then Failure(Api(ApiError(InvalidArgument, EmptyQuery)))
      else if context.None? || |context.value| == 0 then Failure(Api(ApiError(InvalidArgument, EmptyContext)))
      else Success(context.value);
    match checked
    case Failure(f) => (Failure(Classify(f)), cached)
    case Success(passages) =>
      var (answer, handle) := GenerateAnswer(query, passages, cached, load, generate);
      (Success(GenerateResponse(answer, passages)), handle)
  }

  /** Every error the endpoint reports is an invalid argument: the internal
      "Failed to generate answer" cannot occur. */
  lemma NoInternalError(query: string, context: Option<seq<string>>, cached: Option<ModelHandle>,
                        load: Option<ModelHandle>, generate: Generator)
    ensures var r := GenerateEndpoint(query, context, cached, load, generate).0;
            r.Failure? ==> r.error.code == InvalidArgument && r.error.message != GenerationFailed
  {
  }
}

=== FILE: lazy_handle.dfy ===
/** The lazily created, process-wide model handles of `getEmbeddingPipeline`
    (backend/documents/utils/embeddings.ts) and `getGenerationPipeline`
    (backend/documents/utils/llm.ts): created only while the cached handle is
    null, reused afterwards. */
module LazyHandle {
  import opened Wrappers
  import opened Types

  /** One call of the getter. `cached` is the module-level variable, `load`
      what creating the pipeline would yield now (`None` when it throws). The
      result is both the handle the caller gets (`None`: the call throws) and
      the new value of the cached variable. */
  function Acquire(cached: Option<ModelHandle>, load: Option<ModelHandle>): (r: Option<ModelHandle>)
    ensures cached.Some? ==> r == cached
    ensures cached.None? ==> r == load
  {
    if cached.Some? then cached else load
  }

  /** Handles returned by successive calls, call `i` seeing creation outcome `loads[i]`. */
  function AcquireAll(cached: Option<ModelHandle>, loads: seq<Option<ModelHandle>>): (r: seq<Option<ModelHandle>>)
    ensures |r| == |loads|
    decreases |loads|
  {
    if |loads| == 0 then []
    else
      var h := Acquire(cached, loads[0]);
      [h] + AcquireAll(h, loads[1..])
  }

  /** Number of calls that actually created a pipeline. */
  function Creations(cached: Option<ModelHandle>, loads: seq<Option<ModelHandle>>): nat
    decreases |loads|
  {
    if |loads| == 0 then 0
    else
      var h := Acquire(cached, loads[0]);
      (if cached.None? && h.Some? then 1 else 0) + Creations(h, loads[1..])
  }

  /** At most one pipeline is ever created, and none once one is cached. */
  lemma {:induction false} CreatedAtMostOnce(cached: Option<ModelHandle>, loads: seq<Option<ModelHandle>>)
    ensures Creations(cached, loads) <= 1
    ensures cached.Some? ==> Creations(cached, loads) == 0
    decreases |loads|
  {
    if |loads| > 0 {
      var h := Acquire(cached, loads[0]);
      CreatedAtMostOnce(h, loads[1..]);
    }
  }

  /** Once a call has obtained a handle, every later call gets that same handle. */
  lemma {:induction false} HandleReused(cached: Option<ModelHandle>, loads: seq<Option<ModelHandle>>, i: nat, j: nat)
    requires i <= j < |loads|
    requires AcquireAll(cached, loads)[i].Some?
    ensures AcquireAll(cached, loads)[j] == AcquireAll(cached, loads)[i]
    decreases |loads|
  {
    var h := Acquire(cached, loads[0]);
    if i > 0 {
      HandleReused(h, loads[1..], i - 1, j - 1);
    } else if j > 0 {
      AlwaysCached(h, loads[1..], j - 1);
    }
  }

  lemma {:induction false} AlwaysCached(cached: Option<ModelHandle>, loads: seq<Option<ModelHandle>>, j: nat)
    requires cached.Some? && j < |loads|
    ensures AcquireAll(cached, loads)[j] == cached
    decreases |loads|
  {
    if j > 0 {
      AlwaysCached(cached, loads[1..], j - 1);
    }
  }
}

=== FILE: llm.dfy ===
/** Answer synthesis (`generateAnswer`). The question and the retrieved
    passages are laid out in a fixed prompt, cut to 1000 characters, and
    completed by a lazily created text-generation model; the answer is the
    trimmed text after the first "Answer:" of the generated text. Whenever the
    model cannot be created or fails, the answer is a digest of the first
    three passages instead. */
module Llm {
  import opened Wrappers
  import opened Sequences
  import opened Strings
  import opened Types
  import opened LazyHandle

  const MaxPromptLength := 1000
  const Ellipsis := "..."
  const Marker := "Answer:"
  /** `Based on the following context, answer the question: "`, written in
      pieces so that its characters can be inspected piece by piece. */
  const PromptHead := "Based on the " + "following " + "context, " + "answer the " + "question: \""
  const PromptMid := "\"\n\nContext:\n"
  const PromptTail := "\n\nAnswer:"
  const PassageSeparator := "\n\n"
  const NoAnswer := "I couldn't generate a specific answer based on the provided context."
  const DigestHeader := "Based on the retrieved documents, here are the most relevant excerpts:\n\n"
  const ExcerptLength := 200
  const MaxExcerpts := 3

  /** The text-generation model: the `generated_text` of its first result for
      a prompt, or None when the call throws or the reply carries no text.
      Sampling makes it non-deterministic; one function models one run. */
  type Generator = (ModelHandle, string) -> Option<string>

  /** The prompt: the question in quotes, then the passages separated by
      blank lines, then the closing marker. */
  function Prompt(query: string, context: seq<string>): (r: string)
    ensures PromptHead <= r
    ensures OccursAt(r, query, |PromptHead|)
    ensures OccursAt(r, PromptMid, |PromptHead| + |query|)
    ensures OccursAt(r, Join(context, PassageSeparator), |PromptHead| + |query| + |PromptMid|)
    ensures IsSuffix(PromptTail, r)
    ensures |r| == |PromptHead| + |query| + |PromptMid| + |Join(context, PassageSeparator)| + |PromptTail|
  {
    var r := PromptHead + query + PromptMid + Join(context, PassageSeparator) + PromptTail;
    assert r[..|PromptHead|] == PromptHead;
    assert r[|PromptHead|..|PromptHead| + |query|] == query;
    assert r[|PromptHead| + |query|..|PromptHead| + |query| + |PromptMid|] == PromptMid;
    r
  }

  /** A prompt longer than 1000 characters keeps its first 1000 followed by "...". */
  function Truncate(prompt: string): (r: string)
    ensures Prefix(prompt, MaxPromptLength) <= r
    ensures |prompt| <= MaxPromptLength ==> r == prompt
    ensures |prompt| > MaxPromptLength ==> |r| == MaxPromptLength + |Ellipsis| && IsSuffix(Ellipsis, r)
  {
    if |prompt| > MaxPromptLength then prompt[..MaxPromptLength] + Ellipsis else prompt
  }

  /** `indexOf("Answer:") + 7`: just past the first marker, and 6 when there
      is none (the -1 of a failed search plus 7). */
  function AnswerStart(generated: string): (n: nat)
    ensures IsInfix(Marker, generated) ==>
              n >= |Marker| && OccursAt(generated, Marker, n - |Marker|)
              && forall j | 0 <= j < n - |Marker| :: !OccursAt(generated, Marker, j)
    ensures !IsInfix(Marker, generated) ==> n == |Marker| - 1
  {
    InfixIffIndexFound(generated, Marker);
    match IndexFrom(generated, Marker, 0)
    case Some(i) => i + |Marker|
    case None => |Marker| - 1
  }

  /** The trimmed generated text from `AnswerStart` on. */
  function ExtractAnswer(generated: string): (r: string)
    ensures Trim(r) == r
    ensures |r| > 0 ==> !IsSpace(r[0]) && !IsSpace(r[|r| - 1])
    ensures r == [] <==> IsBlank(DropFrom(generated, AnswerStart(generated)))
  {
    var tail := DropFrom(generated, AnswerStart(generated));
    TrimmedTail(tail);
    Trim(tail)
  }

  /** The three facts `ExtractAnswer` promises of a trimmed tail. */
  lemma TrimmedTail(tail: string)
    ensures Trim(Trim(tail)) == Trim(tail)
    ensures |Trim(tail)| > 0 ==> !IsSpace(Trim(tail)[0]) && !IsSpace(Trim(tail)[|Trim(tail)| - 1])
    ensures Trim(tail) == [] <==> IsBlank(tail)
  {
    TrimIdempotent(tail);
  }

  /** The text after the offset is whitespace, then the answer, then
      whitespace; with the answer neither starting nor ending with whitespace
      this pins the answer down. */
  lemma AnswerIsSurroundedByWhitespace(generated: string, tail: string)
    requires tail == DropFrom(generated, AnswerStart(generated))
    requires !IsBlank(tail)
    ensures LeadingSpaces(tail) + |ExtractAnswer(generated)| <= |tail|
    ensures tail[LeadingSpaces(tail)..LeadingSpaces(tail) + |ExtractAnswer(generated)|] == ExtractAnswer(generated)
    ensures IsBlank(tail[..LeadingSpaces(tail)])
    ensures IsBlank(tail[LeadingSpaces(tail) + |ExtractAnswer(generated)|..])
  {
    var a := LeadingSpaces(tail);
    var r := ExtractAnswer(generated);
    assert r == Trim(tail);
    TrimWindow(tail);
    assert a + |r| == |tail| - TrailingSpaces(tail);
  }

  /** One line of the digest: the 1-based position, then the first 200
      characters of the passage, then "...". */
  function Excerpt(i: nat, passage: string): (r: string)
    ensures Numeral(i + 1) <= r
    ensures OccursAt(r, Prefix(passage, ExcerptLength), |Numeral(i + 1)| + 2)
    ensures r[|Numeral(i + 1)|..|Numeral(i + 1)| + 2] == ". "
    ensures IsSuffix(Ellipsis, r)
    ensures |r| == |Numeral(i + 1)| + 2 + |Prefix(passage, ExcerptLength)| + |Ellipsis|
    ensures |r| <= |Numeral(i + 1)| + 2 + ExcerptLength + |Ellipsis|
  {
    var n := Numeral(i + 1);
    var r := n + ". " + Prefix(passage, ExcerptLength) + Ellipsis;
    assert r[..|n|] == n;
    assert r[|n|..|n| + 2] == ". ";
    assert r[|n| + 2..|n| + 2 + |Prefix(passage, ExcerptLength)|] == Prefix(passage, ExcerptLength);
    r
  }

  /** The excerpts of the first three passages, in retrieval order. */
  function Excerpts(context: seq<string>): (r: seq<string>)
    ensures |r| == if |context| < MaxExcerpts then |context| else MaxExcerpts
    ensures forall i | 0 <= i < |r| :: r[i] == Excerpt(i, context[i])
  {
    var firsts := if |context| < MaxExcerpts then context else context[..MaxExcerpts];
    seq(|firsts|, i requires 0 <= i < |firsts| => Excerpt(i, firsts[i]))
  }

  /** The fallback answer. */
  function Digest(context: seq<string>): (r: string)
    ensures DigestHeader <= r
    ensures |r| > 0
  {
    DigestHeader + Join(Excerpts(context), PassageSeparator)
  }

  /** The digest of at most two passages: the header, then their excerpts,
      a blank line between them. */
  lemma DigestOfFewPassages(context: seq<string>)
    ensures |context| == 0 ==> Digest(context) == DigestHeader
    ensures |context| == 1 ==> Digest(context) == DigestHeader + Excerpt(0, context[0])
    ensures |context| == 2 ==>
      Digest(context) == DigestHeader + Excerpt(0, context[0]) + PassageSeparator + Excerpt(1, context[1])
  {
    var es := Excerpts(context);
    if |context| == 2 {
      var e0, e1 := Excerpt(0, context[0]), Excerpt(1, context[1]);
      assert es[1..] == [e1];
      assert Join(es, PassageSeparator) == e0 + PassageSeparator + e1;
      assert DigestHeader + (e0 + PassageSeparator + e1) == DigestHeader + e0 + PassageSeparator + e1;
    }
  }

  /** The digest of three or more passages: the header, then the excerpts of
      the first three, a blank line between consecutive excerpts; the other
      passages do not appear. */
  lemma DigestOfManyPassages(context: seq<string>)
    requires |context| >= MaxExcerpts
    ensures Digest(context) == DigestHeader + Excerpt(0, context[0]) + PassageSeparator
                               + Excerpt(1, context[1]) + PassageSeparator + Excerpt(2, context[2])
  {
    var es := Excerpts(context);
    var sep := PassageSeparator;
    JoinOfThree(es, sep);
    var e0, e1, e2 := es[0], es[1], es[2];
    assert DigestHeader + (e0 + sep + e1 + sep + e2) == DigestHeader + e0 + sep + e1 + sep + e2;
  }

  /** `generateAnswer(query, context)` together with the generator handle
      cached afterwards. `cached` is the handle of earlier calls and `load`
      the outcome of creating one now. */
  function GenerateAnswer(query: string, context: seq<string>, cached: Option<ModelHandle>,
                          load: Option<ModelHandle>, generate: Generator): (r: (string, Option<ModelHandle>))
    ensures |r.0| > 0
    ensures r.1 == Acquire(cached, load)
    ensures r.1.None? ==> r.0 == Digest(context)
    ensures r.1.Some? && generate(r.1.value, Truncate(Prompt(query, context))).None? ==> r.0 == Digest(context)
    ensures r.1.Some? && generate(r.1.value, Truncate(Prompt(query, context))).Some? ==>
              var answer := ExtractAnswer(generate(r.1.value, Truncate(Prompt(query, context))).value);
              (|answer| > 0 ==> r.0 == answer) && (answer == [] ==> r.0 == NoAnswer)
  {
    var prompt := Truncate(Prompt(query, context));
    var h := Acquire(cached, load);
    if h.None? then (Digest(context), h)
    else
      match generate(h.value, prompt)
      case None => (Digest(context), h)
      case Some(text) =>
        var answer := ExtractAnswer(text);
        (if |answer| > 0 then answer else NoAnswer, h)
  }

  /** The digest reads only the first three passages, and only their first
      200 characters. */
  lemma DigestReadsFirstExcerpts(c1: seq<string>, c2: seq<string>)
    requires (|c1| < MaxExcerpts || |c2| < MaxExcerpts) ==> |c1| == |c2|
    requires forall i | 0 <= i < |c1| && i < |c2| && i < MaxExcerpts ::
               Prefix(c1[i], ExcerptLength) == Prefix(c2[i], ExcerptLength)
    ensures Digest(c1) == Digest(c2)
  {
    assert Excerpts(c1) == Excerpts(c2);
  }

  /** In `a + q + b + c + d`, where only `q` and `c` may hold the pattern's
      first element and neither holds the pattern, and the elements right
      after them are not in the pattern, no occurrence starts before the last
      `|pat|` positions. */
  lemma OnlyLateOccurrences<T>(a: seq<T>, q: seq<T>, b: seq<T>, c: seq<T>, d: seq<T>, pat: seq<T>)
    requires |pat| > 0 && |b| > 0 && |pat| <= |d|
    requires pat[0] !in a && pat[0] !in b && b[0] !in pat && d[0] !in pat
    requires forall i | 0 <= i < |d| - |pat| :: d[i] != pat[0]
    requires !IsInfix(pat, q) && !IsInfix(pat, c)
    ensures forall k | 0 <= k < |a + q + b + c + d| - |pat| :: !OccursAt(a + q + b + c + d, pat, k)
  {
    var r2 := c + d;
    var r1 := b + r2;
    var r0 := q + r1;
    var p := a + r0;
    assert a + q + b + c + d == p;
    forall k | 0 <= k < |p| - |pat| && OccursAt(p, pat, k)
      ensures false
    {
      OccurrenceHead(p, pat, k);
      var k0 := k - |a|;
      var k1 := k0 - |q|;
      var k2 := k1 - |b|;
      if k < |a| {
      } else if k0 < |q| {
        OccurrenceShift(a, r0, pat, k);
        OccurrenceConfined(q, r1, pat, k0);
      } else if k1 < |b| {
        OccurrenceShift(a, r0, pat, k);
        OccurrenceShift(q, r1, pat, k0);
        OccurrenceHead(r1, pat, k1);
      } else if k2 < |c| {
        OccurrenceShift(a, r0, pat, k);
        OccurrenceShift(q, r1, pat, k0);
        OccurrenceShift(b, r2, pat, k1);
        OccurrenceConfined(c, d, pat, k2);
      } else {
        OccurrenceShift(a, r0, pat, k);
        OccurrenceShift(q, r1, pat, k0);
        OccurrenceShift(b, r2, pat, k1);
        OccurrenceShift(c, d, pat, k2);
        OccurrenceHead(d, pat, k2 - |c|);
      }
    }
  }

  /** When the question and the passages never say "Answer:", the closing
      marker is the only one in the prompt. */
  lemma OnlyClosingMarker(query: string, context: seq<string>)
    requires !IsInfix(Marker, query)
    requires !IsInfix(Marker, Join(context, PassageSeparator))
    ensures forall k | 0 <= k < |Prompt(query, context)| - |Marker| :: !OccursAt(Prompt(query, context), Marker, k)
  {
    assert 'A' !in PromptHead by {
      assert 'A' !in "Based on the " && 'A' !in "following " && 'A' !in "context, ";
      assert 'A' !in "answer the " && 'A' !in "question: \"";
    }
    assert 'A' !in PromptMid && '"' !in Marker && '\n' !in Marker;
    assert forall i | 0 <= i < |PromptTail| - |Marker| :: PromptTail[i] != 'A';
    OnlyLateOccurrences(PromptHead, query, PromptMid, Join(context, PassageSeparator), PromptTail, Marker);
  }

  /** The intended round trip: a prompt that fits, echoed by the model and
      followed by its continuation, yields the trimmed continuation. */
  lemma EchoedPromptYieldsContinuation(query: string, context: seq<string>, continuation: string)
    requires !IsInfix(Marker, query)
    requires !IsInfix(Marker, Join(context, PassageSeparator))
    requires |Prompt(query, context)| <= MaxPromptLength
    ensures ExtractAnswer(Truncate(Prompt(query, context)) + continuation) == Trim(continuation)
  {
    var p := Prompt(query, context);
    var s := p + continuation;
    OnlyClosingMarker(query, context);
    var m := |p| - |Marker|;
    assert p[m..] == Marker;
    assert OccursAt(p, Marker, m);
    OccurrenceExtend(p, continuation, Marker, m);
    forall k | 0 <= k < m && OccursAt(s, Marker, k)
      ensures false
    {
      OccurrenceInPrefix(p, continuation, Marker, k);
    }
    assert AnswerStart(s) == |p|;
    assert DropFrom(s, |p|) == continuation;
  }

  /** A prompt longer than 1000 characters loses its closing marker, so when
      neither the question, the passages nor the continuation say "Answer:",
      the answer is the echoed prompt from its seventh character on: it
      starts with the echoed instruction. */
  lemma LongPromptEchoesInstruction(query: string, context: seq<string>, continuation: string)
    requires !IsInfix(Marker, query)
    requires !IsInfix(Marker, Join(context, PassageSeparator))
    requires !IsInfix(Marker, continuation)
    requires |Prompt(query, context)| > MaxPromptLength
    ensures var s := Truncate(Prompt(query, context)) + continuation;
            AnswerStart(s) == |Marker| - 1 && PromptHead[|Marker| - 1..] <= ExtractAnswer(s)
  {
    var p := Prompt(query, context);
    var s := Truncate(p) + continuation;
    TruncatedPromptLosesMarker(query, context, continuation);
    assert s[..|PromptHead|] == PromptHead by {
      assert s[..|PromptHead|] == p[..|PromptHead|];
    }
    EchoedHead(s);
  }

  /** Cut at 1000 characters, a prompt whose parts do not say "Answer:" says
      it nowhere, whatever follows the ellipsis. */
  lemma TruncatedPromptLosesMarker(query: string, context: seq<string>, continuation: string)
    requires !IsInfix(Marker, query)
    requires !IsInfix(Marker, Join(context, PassageSeparator))
    requires !IsInfix(Marker, continuation)
    requires |Prompt(query, context)| > MaxPromptLength
    ensures !IsInfix(Marker, Truncate(Prompt(query, context)) + continuation)
  {
    var p := Prompt(query, context);
    var t := p[..MaxPromptLength];
    var rest := Ellipsis + continuation;
    var s := t + rest;
    assert Truncate(p) + continuation == s;
    OnlyClosingMarker(query, context);
    assert '.' !in Marker;
    forall k | OccursAt(s, Marker, k)
      ensures false
    {
      if k < |t| {
        OccurrenceConfined(t, rest, Marker, k);
        assert p == t + p[MaxPromptLength..];
        OccurrenceExtend(t, p[MaxPromptLength..], Marker, k);
      } else if k < |t| + |Ellipsis| {
        OccurrenceShift(t, rest, Marker, k);
        OccurrenceHead(rest, Marker, k - |t|);
      } else {
        OccurrenceShift(t, rest, Marker, k);
        OccurrenceShift(Ellipsis, continuation, Marker, k - |t|);
      }
    }
  }

  /** A generated text that opens with the instruction and never says
      "Answer:" is answered from its seventh character on, which begins with
      the rest of the instruction. */
  lemma EchoedHead(s: string)
    requires !IsInfix(Marker, s)
    requires |s| >= |PromptHead| && s[..|PromptHead|] == PromptHead
    ensures AnswerStart(s) == |Marker| - 1 && PromptHead[|Marker| - 1..] <= ExtractAnswer(s)
  {
    var six := |Marker| - 1;
    var x := s[six..];
    assert DropFrom(s, six) == x;
    var h := PromptHead[six..];
    assert h <= x;
    assert h[0] == 'o' && h[|h| - 1] == '"';
    TrimKeepsSolidPrefix(x, h);
  }

  /** End to end: with a cached or freshly created model that echoes a prompt
      that fits and continues it, the answer is the trimmed continuation, or
      the stock sentence when the continuation is blank. */
  lemma EchoingModelAnswersWithContinuation(query: string, context: seq<string>, cached: Option<ModelHandle>,
                                            load: Option<ModelHandle>, generate: Generator, continuation: string)
    requires !IsInfix(Marker, query)
    requires !IsInfix(Marker, Join(context, PassageSeparator))
    requires |Prompt(query, context)| <= MaxPromptLength
    requires Acquire(cached, load).Some?
    requires generate(Acquire(cached, load).value, Prompt(query, context)) == Some(Prompt(query, context) + continuation)
    ensures GenerateAnswer(query, context, cached, load, generate).0
            == if IsBlank(continuation) then NoAnswer else Trim(continuation)
  {
    EchoedPromptYieldsContinuation(query, context, continuation);
  }
}

=== FILE: multipart.dfy ===
/** The hand-written multipart/form-data reader of the upload handler: the
    boundary taken from the Content-Type header, the body cut at every
    `--boundary`, each part split into headers and content at the first
    blank line, the first part naming the field `file` selected, and its
    filename read from `filename="..."`. */
module Multipart {
  import opened Wrappers
  import opened Sequences
  import opened Types

  const BoundaryKey := "boundary="
  const NoBoundary := "No multipart boundary found"
  const NoFile := "No file provided"
  const DefaultFilename := "unknown.pdf"

  /** UTF-8 encoding of one Unicode scalar value. */
  function EncodeChar(c: char): (r: seq<byte>)
    ensures 1 <= |r| <= 4
    ensures c as int < 128 ==> r == [c as int as byte]
    ensures c as int >= 128 ==> forall i | 0 <= i < |r| :: r[i] >= 128
  {
    var n := c as int;
    if n < 0x80 then [n as byte]
    else if n < 0x800 then [(0xC0 + n / 0x40) as byte, (0x80 + n % 0x40) as byte]
    else if n < 0x1_0000 then
      [(0xE0 + n / 0x1000) as byte, (0x80 + n / 0x40 % 0x40) as byte, (0x80 + n % 0x40) as byte]
    else
      [(0xF0 + n / 0x4_0000) as byte, (0x80 + n / 0x1000 % 0x40) as byte,
       (0x80 + n / 0x40 % 0x40) as byte, (0x80 + n % 0x40) as byte]
  }

  /** `Buffer.from(s)`: the UTF-8 bytes of a string. */
  function Utf8Encode(s: string): (r: seq<byte>)
    ensures |s| <= |r| <= 4 * |s|
  {
    if |s| == 0 then [] else EncodeChar(s[0]) + Utf8Encode(s[1..])
  }

  /** Encoding distributes over concatenation. */
  lemma {:induction false} EncodeAppend(a: string, b: string)
    ensures Utf8Encode(a + b) == Utf8Encode(a) + Utf8Encode(b)
  {
    if |a| == 0 {
      assert a + b == b;
    } else {
      assert (a + b)[1..] == a[1..] + b;
      EncodeAppend(a[1..], b);
    }
  }

  /** An ASCII string encodes to one byte per character, each its code. */
  lemma {:induction false} EncodeAscii(s: string)
    requires forall i | 0 <= i < |s| :: s[i] as int < 128
    ensures |Utf8Encode(s)| == |s|
    ensures forall i | 0 <= i < |s| :: Utf8Encode(s)[i] as int == s[i] as int
  {
    if |s| > 0 {
      EncodeAscii(s[1..]);
    }
  }

  /** `contentType?.split('boundary=')[1]`: the text after the first
      `boundary=` up to the next one or the end, absent when the header or
      the key is. */
  function BoundaryParam(contentType: Option<string>): (r: Option<string>)
    ensures r.Some? <==> contentType.Some? && IsInfix(BoundaryKey, contentType.value)
    ensures r.Some? ==> !IsInfix(BoundaryKey, r.value)
    ensures r.Some? ==>
      contentType.Some? && IndexFrom(contentType.value, BoundaryKey, 0).Some?
      && ValueAfterKey(contentType.value, IndexFrom(contentType.value, BoundaryKey, 0).value + |BoundaryKey|, r.value)
  {
    if contentType.None? then None
    else
      var ct := contentType.value;
      InfixIffIndexFound(ct, BoundaryKey);
      match IndexFrom(ct, BoundaryKey, 0)
      case None => None
      case Some(i) =>
        var v := BeforeKey(ct[i + |BoundaryKey|..]);
        PieceInHeader(ct, i + |BoundaryKey|, v);
        Some(v)
  }

  /** `v` is the header's text from `s` up to the next `boundary=` or the
      end: it sits at `s`, no key starts inside it, and a key or the end of
      the header follows it. */
  predicate ValueAfterKey(ct: string, s: nat, v: string) {
    s + |v| <= |ct| && ct[s..s + |v|] == v
    && (s + |v| == |ct| || OccursAt(ct, BoundaryKey, s + |v|))
    && forall j | s <= j < s + |v| :: !OccursAt(ct, BoundaryKey, j)
  }

  /** A piece cut from the header's tail at `s`, up to the next key or the
      end, sits in the header at `s`, up to that key or the end. */
  lemma PieceInHeader(ct: string, s: nat, v: string)
    requires s <= |ct| && v <= ct[s..]
    requires |v| == |ct| - s || OccursAt(ct[s..], BoundaryKey, |v|)
    requires forall j | 0 <= j < |v| :: !OccursAt(ct[s..], BoundaryKey, j)
    ensures ValueAfterKey(ct, s, v)
  {
    assert ct[s..s + |v|] == ct[s..][..|v|];
    assert ct[s..|ct|] == ct[s..];
    if s + |v| < |ct| {
      OccurrenceInSlice(ct, s, |ct|, BoundaryKey, |v|);
    }
    forall j | s <= j < s + |v| && OccursAt(ct, BoundaryKey, j)
      ensures false
    {
      OccurrenceInWindow(ct, s, |ct|, BoundaryKey, j);
    }
  }

  /** The text of `x` before its first `boundary=`, or all of `x` when it
      has none: the piece `split('boundary=')` yields there. */
  function BeforeKey(x: string): (r: string)
    ensures r <= x && !IsInfix(BoundaryKey, r)
    ensures |r| == |x| || OccursAt(x, BoundaryKey, |r|)
    ensures forall j | 0 <= j < |r| :: !OccursAt(x, BoundaryKey, j)
  {
    InfixIffIndexFound(x, BoundaryKey);
    match IndexFrom(x, BoundaryKey, 0)
    case None => x
    case Some(j) =>
      NoOccurrenceBefore(x, BoundaryKey, 0, j);
      assert x[0..j] == x[..j];
      x[..j]
  }

  /** The boundary, or the invalid-argument error for a missing or empty one. */
  function Boundary(contentType: Option<string>): (r: Result<string, ApiError>)
    ensures r.Failure? <==> BoundaryParam(contentType).None? || BoundaryParam(contentType).value == []
    ensures r.Failure? ==> r.error == ApiError(InvalidArgument, NoBoundary)
    ensures r.Success? ==> r.value == BoundaryParam(contentType).value && |r.value| > 0
  {
    match BoundaryParam(contentType)
    case None => Failure(ApiError(InvalidArgument, NoBoundary))
    case Some(b) => if |b| == 0 then Failure(ApiError(InvalidArgument, NoBoundary)) else Success(b)
  }

  /** The part delimiter `--boundary`, as bytes. */
  function Delimiter(boundary: string): (d: seq<byte>)
    ensures |d| >= 2
  {
    Utf8Encode("--" + boundary)
  }

  /** The segments of `buffer` from `start`, each ending at the next
      delimiter; the bytes after the last delimiter are not a segment. */
  function Segments(buffer: seq<byte>, delim: seq<byte>, start: nat): (r: seq<seq<byte>>)
    requires |delim| > 0 && start <= |buffer|
    ensures forall k | 0 <= k < |r| :: !IsInfix(delim, r[k])
    ensures forall k | 0 <= k < |r| :: FirstOccurrenceAtEnd(r[k], delim)
    decreases |buffer| - start
  {
    match IndexFrom(buffer, delim, start)
    case None => []
    case Some(i) =>
      NoOccurrenceBefore(buffer, delim, start, i);
      FirstOccurrenceSlice(buffer, delim, start, i);
      [buffer[start..i]] + Segments(buffer, delim, i + |delim|)
  }

  /** The bytes after the last delimiter at or after `start`. */
  function Rest(buffer: seq<byte>, delim: seq<byte>, start: nat): (r: seq<byte>)
    requires |delim| > 0 && start <= |buffer|
    ensures IsSuffix(r, buffer)
    ensures !IsInfix(delim, r)
    decreases |buffer| - start
  {
    match IndexFrom(buffer, delim, start)
    case None =>
      NoOccurrenceBefore(buffer, delim, start, |buffer|);
      assert buffer[start..|buffer|] == buffer[start..];
      buffer[start..]
    case Some(i) => Rest(buffer, delim, i + |delim|)
  }

  /** The delimiter scan: the segments between consecutive delimiters. The
      preamble before the first delimiter is skipped because the scan pushes
      a segment only once it has moved past a delimiter. */
  function SplitParts(buffer: seq<byte>, delim: seq<byte>): (r: seq<seq<byte>>)
    requires |delim| > 0
    ensures !IsInfix(delim, buffer) ==> r == []
    ensures forall k | 0 <= k < |r| :: !IsInfix(delim, r[k])
    ensures forall k | 0 <= k < |r| :: FirstOccurrenceAtEnd(r[k], delim)
  {
    InfixIffIndexFound(buffer, delim);
    match IndexFrom(buffer, delim, 0)
    case None => []
    case Some(i) => Segments(buffer, delim, i + |delim|)
  }

  /** The bytes before the first delimiter. */
  function Preamble(buffer: seq<byte>, delim: seq<byte>): (r: seq<byte>)
    ensures r <= buffer
  {
    match IndexFrom(buffer, delim, 0)
    case None => buffer
    case Some(i) => buffer[..i]
  }

  /** The blank line ending a part's headers. */
  const HeaderEnd: seq<byte> := [13, 10, 13, 10]

  datatype Part = Part(headers: seq<byte>, content: seq<byte>)

  /** A part's headers (up to the first blank line) and content (after it,
      less the part's last two bytes, the line break before the next
      delimiter); None for a part without a blank line. When the part is too
      short for both, the content is empty, as `slice` with an end before its
      start. */
  function ParsePart(part: seq<byte>): (r: Option<Part>)
    ensures r.None? <==> !IsInfix(HeaderEnd, part)
    ensures r.Some? ==> !IsInfix(HeaderEnd, r.value.headers) && r.value.headers + HeaderEnd <= part
    ensures r.Some? ==> forall j | 0 <= j < |r.value.headers| :: !OccursAt(part, HeaderEnd, j)
  {
    InfixIffIndexFound(part, HeaderEnd);
    match IndexFrom(part, HeaderEnd, 0)
    case None => None
    case Some(h) =>
      NoOccurrenceBefore(part, HeaderEnd, 0, h);
      var bodyStart := h + |HeaderEnd|;
      assert part[..h] + HeaderEnd == part[..bodyStart];
      Some(Part(part[..h], if bodyStart <= |part| - 2 then part[bodyStart..|part| - 2] else []))
  }

  /** The content is what lies between the headers' blank line and the
      part's last two bytes, and is empty when nothing does. */
  lemma PartLayout(part: seq<byte>)
    requires ParsePart(part).Some?
    ensures var p := ParsePart(part).value;
            (|part| >= |p.headers| + |HeaderEnd| + 2 ==> part == p.headers + HeaderEnd + p.content + part[|part| - 2..])
            && (|part| < |p.headers| + |HeaderEnd| + 2 ==> p.content == [])
  {
    var p := ParsePart(part).value;
    var bodyStart := |p.headers| + |HeaderEnd|;
    if bodyStart <= |part| - 2 {
      assert part[..bodyStart] == p.headers + HeaderEnd;
      assert part == part[..bodyStart] + part[bodyStart..|part| - 2] + part[|part| - 2..];
    }
  }

  /** `name="file"`, the header text that marks the file field. */
  const NameField: seq<byte> := [110, 97, 109, 101, 61, 34, 102, 105, 108, 101, 34]

  /** A part carrying the file field: it has a blank line and its headers
      contain `name="file"`. */
  predicate IsFilePart(part: seq<byte>) {
    ParsePart(part).Some? && IsInfix(NameField, ParsePart(part).value.headers)
  }

  /** The index of the first file part at or after `k`. */
  function SelectFrom(parts: seq<seq<byte>>, k: nat): (r: Option<nat>)
    requires k <= |parts|
    ensures r.Some? ==> k <= r.value < |parts| && IsFilePart(parts[r.value])
    ensures r.Some? ==> forall j | k <= j < r.value :: !IsFilePart(parts[j])
    ensures r.None? ==> forall j | k <= j < |parts| :: !IsFilePart(parts[j])
    decreases |parts| - k
  {
    if k == |parts| then None
    else if IsFilePart(parts[k]) then Some(k)
    else SelectFrom(parts, k + 1)
  }

  /** `filename="`, the opening of the filename parameter. */
  const FilenameOpen: seq<byte> := [102, 105, 108, 101, 110, 97, 109, 101, 61, 34]
  /** `"` */
  const Quote: byte := 34

  /** Number of bytes from `q` on before the next quote or the end. */
  function QuoteFreeRun(h: seq<byte>, q: nat): (n: nat)
    requires q <= |h|
    ensures q + n <= |h|
    ensures forall i | q <= i < q + n :: h[i] != Quote
    ensures q + n < |h| ==> h[q + n] == Quote
    decreases |h| - q
  {
    if q == |h| || h[q] == Quote then 0 else 1 + QuoteFreeRun(h, q + 1)
  }

  /** `filename="v"` matches at `p` with a non-empty, quote-free `v`: the
      regular expression `filename="([^"]+)"` matching at `p` and capturing `v`. */
  predicate MatchesAt(h: seq<byte>, p: int, v: seq<byte>) {
    |v| > 0 && Quote !in v && OccursAt(h, FilenameOpen + v + [Quote], p)
  }

  /** The capture of the regular expression when it matches at `p`. */
  function FilenameAt(h: seq<byte>, p: nat): (r: Option<seq<byte>>)
    ensures r.Some? ==> MatchesAt(h, p, r.value)
    ensures forall v :: MatchesAt(h, p, v) ==> r == Some(v)
  {
    if OccursAt(h, FilenameOpen, p) then
      var q := p + |FilenameOpen|;
      var n := QuoteFreeRun(h, q);
      if n > 0 && q + n < |h| then
        var v := h[q..q + n];
        assert h[p..q + n + 1] == FilenameOpen + v + [Quote] by {
          assert h[p..q + n + 1] == h[p..q] + h[q..q + n] + [h[q + n]];
        }
        forall w | MatchesAt(h, p, w) ensures w == v {
          CaptureUnique(h, p, w, n);
        }
        Some(v)
      else
        forall w | MatchesAt(h, p, w) ensures false {
          CaptureUnique(h, p, w, n);
        }
        None
    else
      forall w | MatchesAt(h, p, w) ensures false {
        OccurrenceOfPrefix(h, FilenameOpen, w + [Quote], p);
      }
      None
  }

  /** A match at `p` captures exactly the quote-free run after `filename="`. */
  lemma CaptureUnique(h: seq<byte>, p: nat, w: seq<byte>, n: nat)
    requires MatchesAt(h, p, w)
    requires OccursAt(h, FilenameOpen, p) && n == QuoteFreeRun(h, p + |FilenameOpen|)
    ensures n == |w| && p + |FilenameOpen| + n < |h| && h[p + |FilenameOpen|..p + |FilenameOpen| + n] == w
  {
    var q := p + |FilenameOpen|;
    var m := FilenameOpen + w + [Quote];
    OccursElements(h, m, p);
    assert forall i | 0 <= i < |w| :: h[q + i] == w[i] by {
      forall i | 0 <= i < |w| ensures h[q + i] == w[i] {
        assert m[|FilenameOpen| + i] == w[i];
      }
    }
    assert h[q + |w|] == Quote by {
      assert m[|FilenameOpen| + |w|] == Quote;
    }
    RunLength(h, q, w);
  }

  lemma {:induction false} RunLength(h: seq<byte>, q: nat, w: seq<byte>)
    requires q + |w| < |h|
    requires forall i | 0 <= i < |w| :: h[q + i] == w[i] && w[i] != Quote
    requires h[q + |w|] == Quote
    ensures QuoteFreeRun(h, q) == |w|
    ensures h[q..q + |w|] == w
    decreases |w|
  {
    if |w| > 0 {
      assert forall i | 0 <= i < |w[1..]| :: h[q + 1 + i] == w[1..][i] && w[1..][i] != Quote by {
        forall i | 0 <= i < |w[1..]| ensures h[q + 1 + i] == w[1..][i] && w[1..][i] != Quote {
          assert h[q + (i + 1)] == w[i + 1];
        }
      }
      RunLength(h, q + 1, w[1..]);
      assert h[q] == w[0] && h[q] != Quote;
      assert h[q..q + |w|] == [h[q]] + h[q + 1..q + 1 + |w[1..]|];
    }
  }

  /** The leftmost position at or after `from` where the filename pattern matches. */
  function FirstFilename(h: seq<byte>, from: nat): (r: Option<nat>)
    ensures r.Some? ==> from <= r.value && FilenameAt(h, r.value).Some?
    ensures r.Some? ==> forall p | from <= p < r.value :: FilenameAt(h, p).None?
    ensures r.None? ==> forall p | from <= p :: FilenameAt(h, p).None?
    decreases |h| - from
  {
    if from > |h| then None
    else if FilenameAt(h, from).Some? then Some(from)
    else FirstFilename(h, from + 1)
  }

  /** The file field of a request: its content bytes and its filename. */
  datatype FileField = FileField(content: seq<byte>, filename: string)

  /** Reading the request: the boundary check, the delimiter scan, the
      selection of the first file part and its filename (`decode` turns the
      captured bytes into text, as `Buffer.toString()`), defaulting to
      "unknown.pdf". */
  function ReadFileField(contentType: Option<string>, body: seq<byte>, decode: seq<byte> -> string)
    : (r: Result<FileField, ApiError>)
    ensures Boundary(contentType).Failure? ==> r == Failure(Boundary(contentType).error)
    ensures Boundary(contentType).Success? ==>
              var parts := SplitParts(body, Delimiter(Boundary(contentType).value));
              (r.Failure? <==> forall k | 0 <= k < |parts| :: !IsFilePart(parts[k]))
    ensures r.Failure? ==> r.error.code == InvalidArgument
    ensures r.Failure? && Boundary(contentType).Success? ==> r.error.message == NoFile
  {
    var boundary :- Boundary(contentType);
    var parts := SplitParts(body, Delimiter(boundary));
    match SelectFrom(parts, 0)
    case None => Failure(ApiError(InvalidArgument, NoFile))
    case Some(k) =>
      var part := ParsePart(parts[k]).value;
      var filename :=
        match FirstFilename(part.headers, 0)
        case None => DefaultFilename
        case Some(p) => decode(FilenameAt(part.headers, p).value);
      Success(FileField(part.content, filename))
  }

  /** The file field comes from the first file part, later parts are ignored,
      and the filename is the leftmost `filename="..."` capture of that part,
      or "unknown.pdf". */
  lemma FirstFilePartWins(contentType: Option<string>, body: seq<byte>, decode: seq<byte> -> string)
    requires Boundary(contentType).Success?
    requires ReadFileField(contentType, body, decode).Success?
    ensures var parts := SplitParts(body, Delimiter(Boundary(contentType).value));
            var f := ReadFileField(contentType, body, decode).value;
            exists k | 0 <= k < |parts| ::
              IsFilePart(parts[k])
              && (forall j | 0 <= j < k :: !IsFilePart(parts[j]))
              && f.content == ParsePart(parts[k]).value.content
              && var h := ParsePart(parts[k]).value.headers;
                 (FirstFilename(h, 0).None? ==> f.filename == DefaultFilename)
                 && (FirstFilename(h, 0).Some? ==> f.filename == decode(FilenameAt(h, FirstFilename(h, 0).value).value))
  {
    var parts := SplitParts(body, Delimiter(Boundary(contentType).value));
    var k := SelectFrom(parts, 0).value;
    assert IsFilePart(parts[k]);
  }

  /** `filename="file"` */
  const FilenameFileParam: seq<byte> := FilenameOpen + [102, 105, 108, 101, Quote]

  /** A part whose headers carry `filename="file"` counts as the file field
      even when its own name is different, because `name="file"` occurs
      inside `filename="file"`. */
  lemma FilenameFileMarksFilePart(part: seq<byte>)
    requires ParsePart(part).Some?
    requires IsInfix(FilenameFileParam, ParsePart(part).value.headers)
    ensures IsFilePart(part)
  {
    assert FilenameFileParam[4..4 + |NameField|] == NameField;
    assert OccursAt(FilenameFileParam, NameField, 4);
    InfixTransitive(NameField, FilenameFileParam, ParsePart(part).value.headers);
  }

  /** The usual header `multipart/form-data; boundary=B` yields `B` when `B`
      is non-empty and does not itself contain `boundary=`. */
  lemma StandardHeaderBoundary(b: string)
    requires |b| > 0 && !IsInfix(BoundaryKey, b)
    ensures Boundary(Some("multipart/form-data; boundary=" + b)) == Success(b)
  {
    var pre := "multipart/form-data; ";
    var ct := pre + BoundaryKey + b;
    assert "multipart/form-data; boundary=" + b == ct;
    assert 'b' !in pre by {
      assert 'b' !in "multipart/" && 'b' !in "form-data; ";
      assert pre == "multipart/" + "form-data; ";
    }
    assert OccursAt(ct, BoundaryKey, |pre|) by {
      assert ct[|pre|..|pre| + |BoundaryKey|] == BoundaryKey;
    }
    forall j | 0 <= j < |pre| && OccursAt(ct, BoundaryKey, j)
      ensures false
    {
      OccurrenceHead(ct, BoundaryKey, j);
    }
    InfixIffIndexFound(ct, BoundaryKey);
    assert IndexFrom(ct, BoundaryKey, 0) == Some(|pre|);
    var rest := ct[|pre| + |BoundaryKey|..];
    assert rest == b;
    InfixIffIndexFound(b, BoundaryKey);
  }

  /** Any header `P boundary=B Q` in which `boundary=` first occurs right
      after `P` yields `B`, when `Q` is empty and `B` is free of the key, or
      `Q` starts the next `boundary=` and none begins earlier inside `B`:
      `split('boundary=')[1]` is the text between the first two keys. */
  lemma BoundaryAfterKey(pre: string, b: string, post: string)
    requires FirstOccurrenceAtEnd(pre, BoundaryKey)
    requires (post == [] && !IsInfix(BoundaryKey, b))
             || (BoundaryKey <= post && FirstOccurrenceAtEnd(b, BoundaryKey))
    ensures BoundaryParam(Some(pre + BoundaryKey + b + post)) == Some(b)
  {
    var ct := pre + BoundaryKey + b + post;
    FirstKeyAt(pre, b + post);
    assert ct == pre + BoundaryKey + (b + post);
    var v := BoundaryParam(Some(ct)).value;
    PieceIsValue(ct, |pre| + |BoundaryKey|, v, b, post);
  }

  /** In `P boundary=R`, with no key starting inside `P`, the first key is
      right after `P`. */
  lemma FirstKeyAt(pre: string, rest: string)
    requires FirstOccurrenceAtEnd(pre, BoundaryKey)
    ensures IndexFrom(pre + BoundaryKey + rest, BoundaryKey, 0) == Some(|pre|)
  {
    var ct := pre + BoundaryKey + rest;
    assert ct == (pre + BoundaryKey) + rest;
    assert OccursAt(ct, BoundaryKey, |pre|) by {
      assert ct[|pre|..|pre| + |BoundaryKey|] == BoundaryKey;
    }
    forall j | 0 <= j < |pre| && OccursAt(ct, BoundaryKey, j)
      ensures false
    {
      OccurrenceInPrefix(pre + BoundaryKey, rest, BoundaryKey, j);
    }
    IndexFromFirst(ct, BoundaryKey, 0, |pre|);
  }

  /** A piece at `s` that runs up to the next key or the end, with no key
      starting inside it, is the text `B` of a tail `B Q` as in
      `BoundaryAfterKey`. */
  lemma PieceIsValue(ct: string, s: nat, v: string, b: string, post: string)
    requires s <= |ct| && ct[s..] == b + post
    requires ValueAfterKey(ct, s, v)
    requires (post == [] && !IsInfix(BoundaryKey, b))
             || (BoundaryKey <= post && FirstOccurrenceAtEnd(b, BoundaryKey))
    ensures v == b
  {
    assert ct[s..s + |b|] == ct[s..][..|b|];
    if post == [] {
      KeyFreeTail(ct, s, b);
    } else {
      KeyAfterTail(ct, s, b, post);
    }
    assert |v| == |b|;
  }

  /** A key-free tail holds no key. */
  lemma KeyFreeTail(ct: string, s: nat, b: string)
    requires s <= |ct| && ct[s..] == b && !IsInfix(BoundaryKey, b)
    ensures forall j | s <= j < |ct| :: !OccursAt(ct, BoundaryKey, j)
  {
    assert ct[s..|ct|] == b;
    forall j | s <= j < |ct| && OccursAt(ct, BoundaryKey, j)
      ensures false
    {
      OccurrenceInWindow(ct, s, |ct|, BoundaryKey, j);
    }
  }

  /** In a tail `B Q`, with `Q` starting with the key and no key starting
      earlier inside `B`, the first key of the tail is right after `B`. */
  lemma KeyAfterTail(ct: string, s: nat, b: string, post: string)
    requires s <= |ct| && ct[s..] == b + post
    requires BoundaryKey <= post && FirstOccurrenceAtEnd(b, BoundaryKey)
    ensures OccursAt(ct, BoundaryKey, s + |b|)
    ensures forall j | s <= j < s + |b| :: !OccursAt(ct, BoundaryKey, j)
  {
    var k := |BoundaryKey|;
    assert ct[s..s + |b| + k] == b + BoundaryKey by {
      assert ct[s..s + |b| + k] == ct[s..][..|b| + k];
      assert (b + post)[..|b| + k] == b + post[..k];
    }
    assert ct[s + |b|..s + |b| + k] == ct[s..s + |b| + k][|b|..];
    forall j | s <= j < s + |b| && OccursAt(ct, BoundaryKey, j)
      ensures false
    {
      OccurrenceInWindow(ct, s, s + |b| + k, BoundaryKey, j);
    }
  }
}

=== FILE: multipart_reassembly.dfy ===
/** The multipart split loses nothing: the preamble, the parts found by the
    delimiter scan of `parseMultipartFormData` and the bytes after the last
    delimiter, joined by the delimiter, are the whole body. */
module MultipartReassembly {
  import opened Wrappers
  import opened Sequences
  import opened Types
  import opened Multipart

  /** Nothing is lost between the segments: the segments, each followed by
      the delimiter, and then the rest give back the buffer from `start`. */
  lemma {:induction false} SegmentsReassemble(buffer: seq<byte>, delim: seq<byte>, start: nat)
    requires |delim| > 0 && start <= |buffer|
    ensures Interleave(Segments(buffer, delim, start), Rest(buffer, delim, start), delim) == buffer[start..]
    decreases |buffer| - start
  {
    match IndexFrom(buffer, delim, start)
    case None =>
    case Some(i) =>
      var next := i + |delim|;
      SegmentsReassemble(buffer, delim, next);
      var segs := Segments(buffer, delim, start);
      assert segs == [buffer[start..i]] + Segments(buffer, delim, next);
      assert segs[1..] == Segments(buffer, delim, next);
      SplitAtDelimiter(buffer, delim, start, i);
  }

  /** The two steps of the delimiter scan, for scans `S` (segments) and `R`
      (rest) indexed by the start position: from a start with no delimiter
      ahead there is no segment and the rest is everything; a piece followed
      by the first delimiter after its start is the first segment, and the
      scan carries on after that delimiter. */
  ghost predicate ScanLaws(buffer: seq<byte>, delim: seq<byte>, S: nat -> seq<seq<byte>>, R: nat -> seq<byte>) {
    (forall start: nat {:trigger S(start)} | start <= |buffer| && !IsInfix(delim, buffer[start..]) ::
       S(start) == [] && R(start) == buffer[start..])
    && (forall start: nat, x: seq<byte> {:trigger S(start), FirstOccurrenceAtEnd(x, delim)} |
          start + |x| + |delim| <= |buffer| && buffer[start..start + |x| + |delim|] == x + delim
          && FirstOccurrenceAtEnd(x, delim) ::
          S(start) == [x] + S(start + |x| + |delim|) && R(start) == R(start + |x| + |delim|))
  }

  /** Any scan obeying the laws is the only way to cut the bytes from
      `start` into segments, each followed by the first delimiter after its
      start, and a delimiter-free rest. */
  lemma {:induction false} UniqueScan(buffer: seq<byte>, delim: seq<byte>, S: nat -> seq<seq<byte>>,
                                      R: nat -> seq<byte>, start: nat, segs: seq<seq<byte>>, rest: seq<byte>)
    requires ScanLaws(buffer, delim, S, R)
    requires start <= |buffer|
    requires Interleave(segs, rest, delim) == buffer[start..]
    requires forall k | 0 <= k < |segs| :: FirstOccurrenceAtEnd(segs[k], delim)
    requires !IsInfix(delim, rest)
    ensures segs == S(start) && rest == R(start)
    decreases |segs|
  {
    if |segs| == 0 {
      assert rest == buffer[start..];
    } else {
      var s0 := segs[0];
      var next := start + |s0| + |delim|;
      var tail := Interleave(segs[1..], rest, delim);
      assert buffer[start..] == (s0 + delim) + tail;
      CutAfter(buffer, start, s0 + delim, tail);
      assert FirstOccurrenceAtEnd(s0, delim);
      TailKeepsFirstOccurrences(segs, delim);
      UniqueScan(buffer, delim, S, R, next, segs[1..], rest);
      assert segs == [s0] + segs[1..];
    }
  }

  /** A tail of the buffer made of two pieces splits at the first piece's end. */
  lemma CutAfter(buffer: seq<byte>, start: nat, x: seq<byte>, y: seq<byte>)
    requires start <= |buffer| && buffer[start..] == x + y
    ensures start + |x| <= |buffer|
    ensures buffer[start..start + |x|] == x && buffer[start + |x|..] == y
  {
    assert buffer[start..start + |x|] == buffer[start..][..|x|];
    assert buffer[start + |x|..] == buffer[start..][|x|..];
  }

  /** The delimiter scan from every start, as functions of the start. */
  ghost function ScanSegments(buffer: seq<byte>, delim: seq<byte>): nat -> seq<seq<byte>>
    requires |delim| > 0
  {
    (start: nat) => if start <= |buffer| then Segments(buffer, delim, start) else []
  }

  ghost function ScanRest(buffer: seq<byte>, delim: seq<byte>): nat -> seq<byte>
    requires |delim| > 0
  {
    (start: nat) => if start <= |buffer| then Rest(buffer, delim, start) else []
  }

  /** `Segments` and `Rest` obey the scan laws. */
  lemma ScanObeysLaws(buffer: seq<byte>, delim: seq<byte>)
    requires |delim| > 0
    ensures ScanLaws(buffer, delim, ScanSegments(buffer, delim), ScanRest(buffer, delim))
  {
    var S, R := ScanSegments(buffer, delim), ScanRest(buffer, delim);
    ScanStopsWithoutDelimiter(buffer, delim);
    ScanStepsAtFirstDelimiter(buffer, delim);
    forall start: nat | start <= |buffer|
      ensures S(start) == Segments(buffer, delim, start) && R(start) == Rest(buffer, delim, start)
    {
    }
  }

  /** From a start with no delimiter ahead the scan finds no segment. */
  lemma ScanStopsWithoutDelimiter(buffer: seq<byte>, delim: seq<byte>)
    requires |delim| > 0
    ensures forall start: nat | start <= |buffer| && !IsInfix(delim, buffer[start..]) ::
      Segments(buffer, delim, start) == [] && Rest(buffer, delim, start) == buffer[start..]
  {
    forall start: nat | start <= |buffer| && !IsInfix(delim, buffer[start..])
      ensures Segments(buffer, delim, start) == [] && Rest(buffer, delim, start) == buffer[start..]
    {
      IndexFromNone(buffer, delim, start);
    }
  }

  /** A piece followed by the first delimiter after its start is the scan's
      first segment. */
  lemma ScanStepsAtFirstDelimiter(buffer: seq<byte>, delim: seq<byte>)
    requires |delim| > 0
    ensures forall start: nat, x: seq<byte> {:trigger Segments(buffer, delim, start), FirstOccurrenceAtEnd(x, delim)} |
              start + |x| + |delim| <= |buffer| && buffer[start..start + |x| + |delim|] == x + delim
              && FirstOccurrenceAtEnd(x, delim) ::
              Segments(buffer, delim, start) == [x] + Segments(buffer, delim, start + |x| + |delim|)
              && Rest(buffer, delim, start) == Rest(buffer, delim, start + |x| + |delim|)
  {
    forall start: nat, x: seq<byte> | start + |x| + |delim| <= |buffer|
        && buffer[start..start + |x| + |delim|] == x + delim && FirstOccurrenceAtEnd(x, delim)
      ensures Segments(buffer, delim, start) == [x] + Segments(buffer, delim, start + |x| + |delim|)
      ensures Rest(buffer, delim, start) == Rest(buffer, delim, start + |x| + |delim|)
    {
      FoundFirst(buffer, delim, start, x);
    }
  }

  /** The scan's step at a piece that ends at the first delimiter after its start. */
  lemma FoundFirst(buffer: seq<byte>, delim: seq<byte>, start: nat, x: seq<byte>)
    requires |delim| > 0
    requires start + |x| + |delim| <= |buffer| && buffer[start..start + |x| + |delim|] == x + delim
    requires FirstOccurrenceAtEnd(x, delim)
    ensures Segments(buffer, delim, start) == [x] + Segments(buffer, delim, start + |x| + |delim|)
    ensures Rest(buffer, delim, start) == Rest(buffer, delim, start + |x| + |delim|)
  {
    FirstIndex(buffer, delim, start, x);
    ScanStep(buffer, delim, start, start + |x|);
  }

  /** The scan's search from `start` stops at the delimiter right after a
      piece that ends at the first delimiter after its start. */
  lemma FirstIndex(buffer: seq<byte>, delim: seq<byte>, start: nat, x: seq<byte>)
    requires start + |x| + |delim| <= |buffer| && buffer[start..start + |x| + |delim|] == x + delim
    requires FirstOccurrenceAtEnd(x, delim)
    ensures IndexFrom(buffer, delim, start) == Some(start + |x|)
    ensures buffer[start..start + |x|] == x
  {
    var next := start + |x| + |delim|;
    assert buffer[start..] == x + delim + buffer[next..] by {
      assert buffer[start..] == buffer[start..next] + buffer[next..];
    }
    FirstSegment(buffer, delim, start, x, buffer[next..]);
  }

  /** The delimiter scan is the only way to cut the buffer from `start`
      into segments, each followed by the delimiter, and a rest, when the
      delimiter after each segment is the first one after that segment's
      start and the rest holds no delimiter. */
  lemma SegmentsUnique(buffer: seq<byte>, delim: seq<byte>, start: nat,
                       segs: seq<seq<byte>>, rest: seq<byte>)
    requires |delim| > 0 && start <= |buffer|
    requires Interleave(segs, rest, delim) == buffer[start..]
    requires forall k | 0 <= k < |segs| :: FirstOccurrenceAtEnd(segs[k], delim)
    requires !IsInfix(delim, rest)
    ensures segs == Segments(buffer, delim, start) && rest == Rest(buffer, delim, start)
  {
    ScanObeysLaws(buffer, delim);
    UniqueScan(buffer, delim, ScanSegments(buffer, delim), ScanRest(buffer, delim), start, segs, rest);
  }

  /** One step of the scan: a delimiter found at `i` closes the segment
      before it, and the scan carries on after it. */
  lemma {:induction false} ScanStep(buffer: seq<byte>, delim: seq<byte>, start: nat, i: nat)
    requires |delim| > 0 && start <= i <= |buffer|
    requires IndexFrom(buffer, delim, start) == Some(i)
    ensures Segments(buffer, delim, start) == [buffer[start..i]] + Segments(buffer, delim, i + |delim|)
    ensures Rest(buffer, delim, start) == Rest(buffer, delim, i + |delim|)
  {
  }

  /** A buffer tail that starts with a piece and then a delimiter that is the
      first after the piece's start: the scan finds that delimiter. */
  lemma {:induction false} FirstSegment(buffer: seq<byte>, delim: seq<byte>, start: nat, s0: seq<byte>, tail: seq<byte>)
    requires start <= |buffer| && buffer[start..] == s0 + delim + tail
    requires FirstOccurrenceAtEnd(s0, delim)
    ensures IndexFrom(buffer, delim, start) == Some(start + |s0|)
    ensures buffer[start..start + |s0|] == s0
    ensures buffer[start + |s0| + |delim|..] == tail
  {
    var i := start + |s0|;
    var next := i + |delim|;
    assert buffer[start..next] == s0 + delim by {
      assert buffer[start..next] == buffer[start..][..|s0| + |delim|];
    }
    assert buffer[start..i] == buffer[start..][..|s0|];
    assert buffer[next..] == buffer[start..][|s0| + |delim|..];
    assert OccursAt(buffer, delim, i) by {
      assert buffer[i..next] == buffer[start..next][|s0|..];
    }
    forall j | start <= j < i
      ensures !OccursAt(buffer, delim, j)
    {
      SliceOfSlice(buffer, start, next, j - start, j - start + |delim|);
      assert !OccursAt(s0 + delim, delim, j - start);
    }
    IndexFromFirst(buffer, delim, start, i);
  }

  lemma {:induction false} TailKeepsFirstOccurrences(segs: seq<seq<byte>>, delim: seq<byte>)
    requires |segs| > 0
    requires forall k | 0 <= k < |segs| :: FirstOccurrenceAtEnd(segs[k], delim)
    ensures forall k | 0 <= k < |segs| - 1 :: FirstOccurrenceAtEnd(segs[1..][k], delim)
  {
    forall k | 0 <= k < |segs| - 1
      ensures FirstOccurrenceAtEnd(segs[1..][k], delim)
    {
      assert segs[1..][k] == segs[k + 1];
    }
  }

  lemma {:induction false} SplitAtDelimiter(buffer: seq<byte>, delim: seq<byte>, start: nat, i: nat)
    requires start <= i && OccursAt(buffer, delim, i)
    ensures buffer[start..] == buffer[start..i] + delim + buffer[i + |delim|..]
  {
    assert buffer[start..] == buffer[start..i] + buffer[i..i + |delim|] + buffer[i + |delim|..];
  }

  /** The parts are exactly the segments between consecutive delimiters:
      with the first delimiter at `i`, the bytes before it, the parts and the
      bytes after the last delimiter, joined by the delimiter, are the whole
      body. */
  lemma {:induction false} PartsReassemble(buffer: seq<byte>, delim: seq<byte>, i: nat)
    requires |delim| > 0 && IndexFrom(buffer, delim, 0) == Some(i)
    ensures buffer == Join([buffer[..i]] + SplitParts(buffer, delim) + [Rest(buffer, delim, i + |delim|)], delim)
  {
    PartsAt(buffer, delim, i);
    ReassembleAt(buffer, delim, i, SplitParts(buffer, delim));
  }

  /** `PartsReassemble` for the segments after a delimiter at `i`. */
  lemma {:induction false} ReassembleAt(buffer: seq<byte>, delim: seq<byte>, i: nat, parts: seq<seq<byte>>)
    requires |delim| > 0 && OccursAt(buffer, delim, i)
    requires parts == Segments(buffer, delim, i + |delim|)
    ensures buffer == Join([buffer[..i]] + parts + [Rest(buffer, delim, i + |delim|)], delim)
  {
    var first := i + |delim|;
    var rest := Rest(buffer, delim, first);
    var all := [buffer[..i]] + parts;
    calc {
      Join(all + [rest], delim);
    == { JoinAsInterleave(all, rest, delim); }
      Interleave(all, rest, delim);
    == { assert all[1..] == parts; }
      buffer[..i] + delim + Interleave(parts, rest, delim);
    == { SegmentsReassemble(buffer, delim, first); }
      buffer[..i] + delim + buffer[first..];
    == { SplitAtDelimiter(buffer, delim, 0, i); assert buffer[0..] == buffer && buffer[0..i] == buffer[..i]; }
      buffer;
    }
  }

  /** With the first delimiter at `i`, the parts are the segments after it. */
  lemma {:induction false} PartsAt(buffer: seq<byte>, delim: seq<byte>, i: nat)
    requires |delim| > 0 && IndexFrom(buffer, delim, 0) == Some(i)
    ensures SplitParts(buffer, delim) == Segments(buffer, delim, i + |delim|)
  {
  }
}

=== FILE: pdf_extractor.dfy ===
/** PDF text extraction (`extractTextFromPDF`): reject an empty buffer and
    one without the `%PDF` header, hand the rest to the PDF parser, reject an
    empty text, and clean the text by collapsing whitespace runs to one
    space and trimming. Every failure surfaces as one error whose message
    starts with "Failed to extract text from PDF: ". */
module PdfExtractor {
  import opened Wrappers
  import opened Sequences
  import opened Strings
  import opened Types

  const EmptyBuffer := "Empty or invalid buffer provided"
  const MissingHeader := "Invalid PDF file: missing PDF header"
  const NoText := "No text content found in PDF"
  const FailurePrefix := "Failed to extract text from PDF: "
  const UnknownError := "Unknown error"

  /** The bytes of `%PDF`. */
  const PdfMagic: seq<byte> := [0x25, 0x50, 0x44, 0x46]

  /** The PDF parser: the `text` of its result (None when the result has no
      text at all), or the value it throws. */
  type PdfParser = seq<byte> -> Result<Option<string>, Fault>

  /** `buffer.slice(0, 4).toString() === '%PDF'`: the UTF-8 decoding of the
      first four bytes is those four ASCII characters exactly when the bytes
      are theirs. */
  predicate HasPdfHeader(buffer: seq<byte>) {
    |buffer| >= 4 && buffer[..4] == PdfMagic
  }

  /** Whitespace occurs only as lone ASCII spaces. */
  predicate IsCollapsed(s: string) {
    (forall i | 0 <= i < |s| :: IsSpace(s[i]) ==> s[i] == ' ')
    && forall i | 0 <= i < |s| - 1 :: !(IsSpace(s[i]) && IsSpace(s[i + 1]))
  }

  /** `s.replace(/\s+/g, ' ')`: every maximal run of whitespace becomes one space. */
  function CollapseSpaces(s: string): (r: string)
    ensures |r| <= |s|
    ensures IsCollapsed(r)
    ensures |r| > 0 <==> |s| > 0
    ensures |r| > 0 ==> (IsSpace(r[0]) <==> IsSpace(s[0]))
    decreases |s|
  {
    if |s| == 0 then []
    else if IsSpace(s[0]) then
      var rest := CollapseSpaces(s[LeadingSpaces(s)..]);
      [' '] + rest
    else
      var rest := CollapseSpaces(s[1..]);
      assert forall i | 1 <= i < |rest| + 1 :: ([s[0]] + rest)[i] == rest[i - 1];
      [s[0]] + rest
  }

  /** The non-whitespace characters of `s`, in order. */
  function Solid(s: string): (r: string)
    ensures |r| <= |s|
    ensures forall i | 0 <= i < |r| :: !IsSpace(r[i])
  {
    if |s| == 0 then []
    else if IsSpace(s[0]) then Solid(s[1..])
    else [s[0]] + Solid(s[1..])
  }

  /** A run of whitespace contributes nothing to `Solid`. */
  lemma {:induction false} SolidSkipsSpaces(s: string, n: nat)
    requires n <= |s|
    requires forall i | 0 <= i < n :: IsSpace(s[i])
    ensures Solid(s) == Solid(s[n..])
  {
    if n > 0 {
      assert s[1..][n - 1..] == s[n..];
      SolidSkipsSpaces(s[1..], n - 1);
    }
  }

  /** Collapsing changes whitespace only: the words survive unchanged and in order. */
  lemma {:induction false} CollapseKeepsWords(s: string)
    ensures Solid(CollapseSpaces(s)) == Solid(s)
    decreases |s|
  {
    if |s| > 0 {
      if IsSpace(s[0]) {
        var n := LeadingSpaces(s);
        SolidSkipsSpaces(s, n);
        CollapseKeepsWords(s[n..]);
        assert ([' '] + CollapseSpaces(s[n..]))[1..] == CollapseSpaces(s[n..]);
      } else {
        CollapseKeepsWords(s[1..]);
        assert ([s[0]] + CollapseSpaces(s[1..]))[1..] == CollapseSpaces(s[1..]);
      }
    }
  }

  /** A whitespace run followed by a word (or by nothing) collapses to one space. */
  lemma CollapseRun(w: string, b: string)
    requires |w| > 0 && IsBlank(w)
    requires b == [] || !IsSpace(b[0])
    ensures CollapseSpaces(w + b) == [' '] + CollapseSpaces(b)
  {
    var s := w + b;
    assert s[0] == w[0];
    assert |b| > 0 ==> s[|w|] == b[0];
    assert LeadingSpaces(s) == |w|;
    assert s[|w|..] == b;
  }

  /** A word character is kept as it is. */
  lemma CollapseCons(c: char, t: string)
    requires !IsSpace(c)
    ensures CollapseSpaces([c] + t) == [c] + CollapseSpaces(t)
  {
    assert ([c] + t)[1..] == t;
  }

  /** The two rewriting steps of `/\s+/g` to `' '`: a word character is kept,
      and a whitespace run that is not followed by more whitespace becomes
      one space. The append laws below are proved for any function with
      these steps, then applied to `CollapseSpaces`. */
  ghost predicate CollapseSteps(f: string -> string) {
    f([]) == []
    && (forall c: char, t: string {:trigger f([c] + t)} :: !IsSpace(c) ==> f([c] + t) == [c] + f(t))
    && (forall u: string, t: string {:trigger f(u + t)} ::
          |u| > 0 && IsBlank(u) && (t == [] || !IsSpace(t[0])) ==> f(u + t) == [' '] + f(t))
  }

  lemma CollapseSpacesSteps()
    ensures CollapseSteps(CollapseSpaces)
  {
    forall c: char, t: string | !IsSpace(c)
      ensures CollapseSpaces([c] + t) == [c] + CollapseSpaces(t)
    {
      CollapseCons(c, t);
    }
    forall u: string, t: string | |u| > 0 && IsBlank(u) && (t == [] || !IsSpace(t[0]))
      ensures CollapseSpaces(u + t) == [' '] + CollapseSpaces(t)
    {
      CollapseRun(u, t);
    }
  }

  /** The append law for any function with the collapsing steps. */
  lemma {:induction false} StepsAppend(f: string -> string, a: string, b: string)
    requires CollapseSteps(f)
    requires b == [] || !IsSpace(b[0])
    ensures f(a + b) == f(a) + f(b)
    decreases |a|
  {
    if |a| == 0 {
      assert a + b == b;
    } else if !IsSpace(a[0]) {
      StepsAppend(f, a[1..], b);
      StepsAppendWord(f, a, b);
    } else if IsBlank(a) {
      assert a + [] == a;
      assert f(a + []) == [' '] + f([]);
    } else {
      var n := LeadingSpaces(a);
      StepsAppend(f, a[n..], b);
      StepsAppendRun(f, a, n, b);
    }
  }

  /** The inductive step of `StepsAppend` past a word character. */
  lemma StepsAppendWord(f: string -> string, a: string, b: string)
    requires CollapseSteps(f)
    requires |a| > 0 && !IsSpace(a[0])
    requires f(a[1..] + b) == f(a[1..]) + f(b)
    ensures f(a + b) == f(a) + f(b)
  {
    var t := a[1..];
    assert a == [a[0]] + t;
    assert a + b == [a[0]] + (t + b);
    assert f(a + b) == [a[0]] + (f(t) + f(b));
  }

  /** The inductive step of `StepsAppend` past a whitespace run that ends inside `a`. */
  lemma StepsAppendRun(f: string -> string, a: string, n: nat, b: string)
    requires CollapseSteps(f)
    requires 0 < n < |a| && IsBlank(a[..n]) && !IsSpace(a[n])
    requires f(a[n..] + b) == f(a[n..]) + f(b)
    ensures f(a + b) == f(a) + f(b)
  {
    var u, t := a[..n], a[n..];
    assert a == u + t;
    assert a + b == u + (t + b);
    assert (t + b)[0] == t[0];
    assert f(a + b) == [' '] + (f(t) + f(b));
  }

  /** The trailing-run law for any function with the collapsing steps. */
  lemma {:induction false} StepsTrailingRun(f: string -> string, a: string, w: string)
    requires CollapseSteps(f)
    requires |w| > 0 && IsBlank(w)
    requires a == [] || !IsSpace(a[|a| - 1])
    ensures f(a + w) == f(a) + [' ']
    decreases |a|
  {
    assert f(w) == [' '] by {
      assert w + [] == w;
      assert f(w + []) == [' '] + f([]);
    }
    if |a| == 0 {
      assert a + w == w;
    } else if !IsSpace(a[0]) {
      StepsTrailingRun(f, a[1..], w);
      StepsAppendWord(f, a, w);
    } else {
      var n := LeadingSpaces(a);
      LeadingSpacesBound(a, |a| - 1);
      StepsTrailingRun(f, a[n..], w);
      StepsAppendRun(f, a, n, w);
    }
  }

  /** Collapsing works piecewise when the second piece starts with a word
      character, so that the cut does not split a whitespace run. */
  lemma CollapseAppend(a: string, b: string)
    requires b == [] || !IsSpace(b[0])
    ensures CollapseSpaces(a + b) == CollapseSpaces(a) + CollapseSpaces(b)
  {
    CollapseSpacesSteps();
    StepsAppend(CollapseSpaces, a, b);
  }

  /** A whitespace run at the end, after a word character, collapses to one space. */
  lemma CollapseTrailingRun(a: string, w: string)
    requires |w| > 0 && IsBlank(w)
    requires a == [] || !IsSpace(a[|a| - 1])
    ensures CollapseSpaces(a + w) == CollapseSpaces(a) + [' ']
  {
    CollapseSpacesSteps();
    StepsTrailingRun(CollapseSpaces, a, w);
  }

  /** `/\s+/g` to `' '`: a whitespace run between two words (or at an end)
      becomes exactly one space and the two sides collapse independently. */
  lemma CollapseRunBetween(a: string, w: string, b: string)
    requires |w| > 0 && IsBlank(w)
    requires a == [] || !IsSpace(a[|a| - 1])
    requires b == [] || !IsSpace(b[0])
    ensures CollapseSpaces(a + w + b) == CollapseSpaces(a) + [' '] + CollapseSpaces(b)
  {
    CollapseAppend(a + w, b);
    CollapseTrailingRun(a, w);
  }

  /** Collapsing leaves an already collapsed string as it is. */
  lemma {:induction false} CollapseFixesCollapsed(s: string)
    requires IsCollapsed(s)
    ensures CollapseSpaces(s) == s
    decreases |s|
  {
    if |s| > 0 {
      if IsSpace(s[0]) {
        assert |s| > 1 ==> !IsSpace(s[1]);
        assert LeadingSpaces(s) == 1;
        CollapseFixesCollapsed(s[1..]);
      } else {
        CollapseFixesCollapsed(s[1..]);
      }
    }
  }

  /** Every piece of a collapsed string is collapsed. */
  lemma CollapsedSlice(s: string, a: nat, b: nat)
    requires IsCollapsed(s) && a <= b <= |s|
    ensures IsCollapsed(s[a..b])
  {
    var t := s[a..b];
    assert forall i | 0 <= i < |t| :: t[i] == s[a + i];
  }

  /** Collapsing is idempotent. */
  lemma CollapseIdempotent(s: string)
    ensures CollapseSpaces(CollapseSpaces(s)) == CollapseSpaces(s)
  {
    CollapseFixesCollapsed(CollapseSpaces(s));
  }

  /** The text returned: collapsed whitespace, then trimmed. The second
      replacement of the source, `/\n\s*\n/g` to a line break, finds no line
      break to match once whitespace is collapsed (`NoLineBreakAfterCollapse`)
      and is therefore the identity here. */
  function CleanText(text: string): (r: string)
    ensures IsCollapsed(r)
    ensures |r| > 0 ==> !IsSpace(r[0]) && !IsSpace(r[|r| - 1])
    ensures r == [] <==> IsBlank(text)
  {
    var c := CollapseSpaces(text);
    BlankCollapse(text);
    TrimKeepsCollapsed(c);
    Trim(c)
  }

  /** A text ending in a word collapses to a text ending in that word. */
  lemma CollapseKeepsLastWord(a: string)
    requires |a| > 0 && !IsSpace(a[|a| - 1])
    ensures |CollapseSpaces(a)| > 0 && CollapseSpaces(a)[|CollapseSpaces(a)| - 1] == a[|a| - 1]
  {
    var c := a[|a| - 1];
    assert a == a[..|a| - 1] + [c];
    CollapseAppend(a[..|a| - 1], [c]);
    assert [c][1..] == [];
  }

  /** Cleaning turns a whitespace run between two words into exactly one
      space, and cleans the two sides independently. */
  lemma CleanTextRunBetween(a: string, w: string, b: string)
    requires |w| > 0 && IsBlank(w)
    requires |a| > 0 && !IsSpace(a[|a| - 1])
    requires |b| > 0 && !IsSpace(b[0])
    ensures CleanText(a + w + b) == CleanText(a) + [' '] + CleanText(b)
  {
    CollapseRunBetween(a, w, b);
    CollapseKeepsLastWord(a);
    TrimAroundSpace(CollapseSpaces(a), CollapseSpaces(b));
  }

  /** Trimming a collapsed string leaves it collapsed. */
  lemma TrimKeepsCollapsed(c: string)
    requires IsCollapsed(c)
    ensures IsCollapsed(Trim(c))
  {
    if !IsBlank(c) {
      TrimWindow(c);
      CollapsedSlice(c, LeadingSpaces(c), |c| - TrailingSpaces(c));
    }
  }

  /** A string is blank exactly when its collapsed form is. */
  lemma BlankCollapse(s: string)
    ensures IsBlank(CollapseSpaces(s)) <==> IsBlank(s)
  {
    CollapseKeepsWords(s);
    SolidEmptyIffBlank(s);
    SolidEmptyIffBlank(CollapseSpaces(s));
  }

  /** `Solid(s)` is empty exactly when `s` is blank. */
  lemma {:induction false} SolidEmptyIffBlank(s: string)
    ensures Solid(s) == [] <==> IsBlank(s)
  {
    if |s| > 0 {
      SolidEmptyIffBlank(s[1..]);
      assert IsBlank(s) <==> IsSpace(s[0]) && IsBlank(s[1..]) by {
        assert forall i | 1 <= i < |s| :: s[1..][i - 1] == s[i];
      }
    }
  }

  /** Collapsing leaves no line break behind, so the empty-line replacement
      has nothing to act on. */
  lemma NoLineBreakAfterCollapse(s: string)
    ensures '\n' !in CollapseSpaces(s)
  {
    var r := CollapseSpaces(s);
    assert IsSpace('\n');
    assert forall i | 0 <= i < |r| :: r[i] != '\n';
  }

  /** Cleaning is idempotent: cleaned text is its own clean form. */
  lemma CleanTextIdempotent(text: string)
    ensures CleanText(CleanText(text)) == CleanText(text)
  {
    var r := CleanText(text);
    CollapseFixesCollapsed(r);
    TrimIdempotent(r);
  }

  /** Cleaning keeps every word of the text, in order. */
  lemma CleanTextKeepsWords(text: string)
    ensures Solid(CleanText(text)) == Solid(text)
  {
    CollapseKeepsWords(text);
    SolidOfTrim(CollapseSpaces(text));
  }

  /** Trimming removes whitespace only. */
  lemma SolidOfTrim(c: string)
    ensures Solid(Trim(c)) == Solid(c)
  {
    if IsBlank(c) {
      SolidEmptyIffBlank(c);
    } else {
      var a := LeadingSpaces(c);
      var b := |c| - TrailingSpaces(c);
      TrimWindow(c);
      ThreeWay(c, a, b);
      SolidAppend(c[..a] + c[a..b], c[b..]);
      SolidAppend(c[..a], c[a..b]);
      SolidOfBlank(c[..a]);
      SolidOfBlank(c[b..]);
    }
  }

  lemma {:induction false} SolidAppend(x: string, y: string)
    ensures Solid(x + y) == Solid(x) + Solid(y)
  {
    if |x| > 0 {
      assert (x + y)[1..] == x[1..] + y;
      SolidAppend(x[1..], y);
    } else {
      assert x + y == y;
    }
  }

  lemma SolidOfBlank(x: string)
    requires IsBlank(x)
    ensures Solid(x) == []
  {
    SolidEmptyIffBlank(x);
  }

  /** The message carried by a thrown value: an error's message, and
      "Unknown error" for anything thrown that is not an error. */
  function FaultMessage(f: Fault): string {
    match f
    case Api(e) => e.message
    case Error(message) => message
    case NonError => UnknownError
  }

  /** `extractTextFromPDF(buffer)`: the cleaned text, or the message of the
      single error it throws. */
  function ExtractText(buffer: seq<byte>, parse: PdfParser): (r: Result<string, string>)
    ensures |buffer| == 0 ==> r == Failure(FailurePrefix + EmptyBuffer)
    ensures |buffer| > 0 && !HasPdfHeader(buffer) ==> r == Failure(FailurePrefix + MissingHeader)
    ensures r.Failure? ==> FailurePrefix <= r.error
    ensures r.Success? <==> HasPdfHeader(buffer) && parse(buffer).Success?
                            && parse(buffer).value.Some? && |parse(buffer).value.value| > 0
    ensures r.Success? ==> r.value == CleanText(parse(buffer).value.value)
  {
    var checked: Result<string, Fault> :=
      if |buffer| == 0 then Failure(Error(EmptyBuffer))
      else if !HasPdfHeader(buffer) then Failure(Error(MissingHeader))
      else match parse(buffer)
        case Failure(f) => Failure(f)
        case Success(text) =>
          if text.None? || |text.value| == 0 then Failure(Error(NoText))
          else Success(CleanText(text.value));
    match checked
    case Success(t) => Success(t)
    case Failure(f) => Failure(FailurePrefix + FaultMessage(f))
  }

  /** A buffer without the header is refused before the parser sees it: the
      outcome does not depend on the parser. */
  lemma HeaderCheckedBeforeParsing(buffer: seq<byte>, p1: PdfParser, p2: PdfParser)
    requires !HasPdfHeader(buffer)
    ensures ExtractText(buffer, p1) == ExtractText(buffer, p2)
    ensures ExtractText(buffer, p1).Failure?
  {
  }

  /** A successful extraction has no surrounding whitespace, only lone
      spaces inside, and is empty only for a text of whitespace alone, which
      the extractor still returns as a success. */
  lemma ExtractedTextIsClean(buffer: seq<byte>, parse: PdfParser)
    requires ExtractText(buffer, parse).Success?
    ensures var t := ExtractText(buffer, parse).value;
            IsCollapsed(t) && Trim(t) == t
            && (t == [] <==> IsBlank(parse(buffer).value.value))
  {
    var t := ExtractText(buffer, parse).value;
    TrimIdempotent(t);
    CleanTextIdempotent(parse(buffer).value.value);
    CollapseFixesCollapsed(t);
  }
}

=== FILE: score_order.dfy ===
/** The stable descending sort `results.sort((a, b) => b.score - a.score)` of
    the cosine tier (backend/documents/search.ts). `Array.prototype.sort` is
    stable, so results with equal scores keep the order the store returned
    them in. */
module ScoreOrder {
  import opened Types

  predicate SortedDesc(s: seq<SearchResult>) {
    forall i, j | 0 <= i < j < |s| :: s[i].score >= s[j].score
  }

  /** The results with score exactly `c`, in order. */
  function WithScore(s: seq<SearchResult>, c: real): seq<SearchResult> {
    if |s| == 0 then []
    else (if s[0].score == c then [s[0]] else []) + WithScore(s[1..], c)
  }

  /** Inserts `x` before the first result with a score no greater than its own. */
  function Insert(x: SearchResult, s: seq<SearchResult>): seq<SearchResult> {
    if |s| == 0 || x.score >= s[0].score then [x] + s
    else [s[0]] + Insert(x, s[1..])
  }

  function SortByScore(s: seq<SearchResult>): seq<SearchResult> {
    if |s| == 0 then [] else Insert(s[0], SortByScore(s[1..]))
  }

  lemma {:induction false} InsertPermutes(x: SearchResult, s: seq<SearchResult>)
    ensures multiset(Insert(x, s)) == multiset{x} + multiset(s)
    ensures |Insert(x, s)| == |s| + 1
  {
    if !(|s| == 0 || x.score >= s[0].score) {
      InsertPermutes(x, s[1..]);
      assert s == [s[0]] + s[1..];
    }
  }

  lemma {:induction false} InsertSorted(x: SearchResult, s: seq<SearchResult>)
    requires SortedDesc(s)
    ensures SortedDesc(Insert(x, s))
  {
    if !(|s| == 0 || x.score >= s[0].score) {
      InsertSorted(x, s[1..]);
      InsertPermutes(x, s[1..]);
      var t := Insert(x, s[1..]);
      assert Insert(x, s) == [s[0]] + t;
      forall j | 0 <= j < |t| ensures s[0].score >= t[j].score {
        assert t[j] in multiset(t);
        if t[j] != x {
          assert t[j] in multiset(s[1..]);
          var k :| 0 <= k < |s[1..]| && s[1..][k] == t[j];
          assert s[1..][k] == s[k + 1];
        }
      }
    }
  }

  lemma {:induction false} InsertKeepsTies(x: SearchResult, s: seq<SearchResult>, c: real)
    requires SortedDesc(s)
    ensures WithScore(Insert(x, s), c) == (if x.score == c then [x] else []) + WithScore(s, c)
  {
    if |s| == 0 || x.score >= s[0].score {
      assert Insert(x, s)[1..] == s;
    } else {
      InsertKeepsTies(x, s[1..], c);
      assert Insert(x, s)[1..] == Insert(x, s[1..]);
      // the skipped head scores above x, so it cannot carry score c when x does
      assert s[0].score > x.score;
    }
  }

  lemma {:induction false} SortFacts(s: seq<SearchResult>, c: real)
    ensures SortedDesc(SortByScore(s))
    ensures multiset(SortByScore(s)) == multiset(s)
    ensures |SortByScore(s)| == |s|
    ensures WithScore(SortByScore(s), c) == WithScore(s, c)
  {
    if |s| > 0 {
      SortFacts(s[1..], c);
      InsertPermutes(s[0], SortByScore(s[1..]));
      InsertSorted(s[0], SortByScore(s[1..]));
      InsertKeepsTies(s[0], SortByScore(s[1..]), c);
      assert s == [s[0]] + s[1..];
    }
  }

  lemma SortedPrefix(s: seq<SearchResult>, p: seq<SearchResult>)
    requires SortedDesc(s) && p <= s
    ensures SortedDesc(p)
  {
    forall i, j | 0 <= i < j < |p| ensures p[i].score >= p[j].score {
      assert p[i] == s[i] && p[j] == s[j];
    }
  }

  /** The sort returns a permutation of its input in non-increasing score
      order, and results with equal scores stay in input order. */
  lemma SortIsStablePermutation(s: seq<SearchResult>)
    ensures SortedDesc(SortByScore(s))
    ensures multiset(SortByScore(s)) == multiset(s)
    ensures forall c: real :: WithScore(SortByScore(s), c) == WithScore(s, c)
  {
    forall c: real ensures WithScore(SortByScore(s), c) == WithScore(s, c) {
      SortFacts(s, c);
    }
    SortFacts(s, 0.0);
  }
}

=== FILE: search.dfy ===
/** The `search` endpoint of backend/documents/search.ts: query validation,
    the database probe, the query embedding, and the three-tier fallback
    (native vector ranking, in-application cosine ranking, lexical match).
    The store is modelled by the answers it gives to each of the handler's
    queries; the embedding pipeline, `JSON.parse` and `Math.sqrt` are
    parameters. */
module Search {
  import opened Wrappers
  import opened Types
  import opened Sequences
  import opened Strings
  import opened Similarity
  import opened ScoreOrder
  import opened Embeddings

  /** The `limit` used when the request gives none. */
  const DefaultLimit: int := 10
  /** Score given to every lexical-tier result. */
  const LexicalScore: real := 0.5

  const EmptyQuery: string := "Query cannot be empty"
  const ProbeFailed: string := "Database connection failed. Please ensure PostgreSQL is running and accessible."
  const NoQueryEmbedding: string := "No query embedding available"
  const DatabaseMessage: string := "Database connection failed. Please ensure PostgreSQL is running."
  const ModelMessage: string := "AI model loading failed. Search may be limited to text-based results."
  const GenericMessage: string := "Failed to search documents"
  /** The store's rejection of a negative `LIMIT`. */
  const NegativeLimit: string := "LIMIT must not be negative"

  /** A row of the native vector query: `distance` is `embedding_vector <=> query`. */
  datatype VectorRow = VectorRow(content: string, distance: real, documentId: string, filename: string, chunkId: string)

  /** A row of the cosine tier's scan: the chunk's embedding as stored JSON text. */
  datatype StoredChunk = StoredChunk(content: string, embedding: string, documentId: string, filename: string, chunkId: string)

  /** A row of the lexical query. */
  datatype TextRow = TextRow(content: string, documentId: string, filename: string, chunkId: string)

  /** What the store answers to each query the handler can issue, before any
      `LIMIT`. `vectorRanking` lists the chunks with a vector column by
      ascending distance to the query vector, or fails when the vector column
      or operator is unavailable; `textMatches` lists the chunks whose content
      contains the query case-insensitively, by ascending chunk index. */
  datatype Store = Store(
    probe: Option<Fault>,
    vectorRanking: Result<seq<VectorRow>, Fault>,
    embeddedChunks: Result<seq<StoredChunk>, Fault>,
    textMatches: Result<seq<TextRow>, Fault>)

  datatype Env = Env(
    store: Store,
    cachedEmbedder: Option<ModelHandle>,
    loadEmbedder: Option<ModelHandle>,
    embed: Embedder,
    parseEmbedding: string -> Option<Vector>,
    sqrt: real -> real)

  /** The external calls a search makes, in order. */
  datatype Call = ProbeCall | EmbedCall | VectorQuery | ChunkScan | TextQuery

  datatype Outcome = Outcome(result: Result<SearchResponse, ApiError>, calls: seq<Call>, embedder: Option<ModelHandle>)

  /** The tier that produces the results. */
  datatype Tier = VectorTier | CosineTier | LexicalTier

  /** Tier selection over the abstract outcomes: the native tier when there is
      a query vector and its query succeeds (with any number of rows), the
      cosine tier when there is a vector but that query throws, and the
      lexical tier only when there is no query vector at all. */
  function SelectTier(hasEmbedding: bool, vectorQuerySucceeded: bool): (t: Tier)
    ensures t == LexicalTier <==> !hasEmbedding
    ensures t == VectorTier <==> hasEmbedding && vectorQuerySucceeded
  {
    if !hasEmbedding then LexicalTier
    else if vectorQuerySucceeded then VectorTier
    else CosineTier
  }

  /** SQL `LIMIT n`: at most `n` rows; a negative `n` is rejected by the store. */
  function SqlLimit<T>(rows: seq<T>, limit: int): (r: Result<seq<T>, Fault>)
    ensures r.Failure? <==> limit < 0
    ensures r.Success? ==> r.value <= rows && |r.value| == if limit < |rows| then limit else |rows|
  {
    if limit < 0 then Failure(Error(NegativeLimit))
    else Success(if limit < |rows| then rows[..limit] else rows)
  }

  /** `const queryEmbeddings = await generateEmbeddings([query]); queryEmbedding = queryEmbeddings[0]`,
      with a failure swallowed and leaving the empty vector. */
  function QueryEmbedding(query: string, env: Env): (r: (Vector, Option<ModelHandle>))
    ensures r.1 == GenerateEmbeddingsSpec([query], env.cachedEmbedder, env.loadEmbedder, env.embed).1
    ensures r.1.Some? && env.embed(r.1.value, query).Some? ==> r.0 == env.embed(r.1.value, query).value
    ensures !(r.1.Some? && env.embed(r.1.value, query).Some?) ==> r.0 == []
  {
    var (res, h) := GenerateEmbeddingsSpec([query], env.cachedEmbedder, env.loadEmbedder, env.embed);
    if res.Success? then (res.value[0], h) else ([], h)
  }

  // ----- Tier 1: native vector ranking -----

  function VectorResult(row: VectorRow): SearchResult {
    SearchResult(row.content, 1.0 - row.distance, row.documentId, row.filename, row.chunkId)
  }

  function MapVectorRows(rows: seq<VectorRow>): (r: seq<SearchResult>)
    ensures |r| == |rows|
    ensures forall i | 0 <= i < |rows| :: r[i] == VectorResult(rows[i])
  {
    if |rows| == 0 then [] else [VectorResult(rows[0])] + MapVectorRows(rows[1..])
  }

  /** The native tier: the first `limit` rows of the ranking, each scored
      `1 - distance`; it throws only when the store query does. */
  function VectorSearch(ranking: Result<seq<VectorRow>, Fault>, limit: int): (r: Result<seq<SearchResult>, Fault>)
    ensures r.Success? <==> ranking.Success? && limit >= 0
    ensures r.Success? ==> |r.value| == (if limit < |ranking.value| then limit else |ranking.value|)
    ensures r.Success? ==> forall i | 0 <= i < |r.value| ::
      r.value[i].score == 1.0 - ranking.value[i].distance && r.value[i].chunkId == ranking.value[i].chunkId
  {
    if ranking.Failure? then Failure(ranking.error)
    else
      match SqlLimit(ranking.value, limit)
      case Failure(e) => Failure(e)
      case Success(rows) => Success(MapVectorRows(rows))
  }

  // ----- Tier 2: cosine ranking in the application -----

  /** A candidate is usable when its stored embedding parses and has the
      query's length. */
  predicate Usable(q: Vector, c: StoredChunk, parse: string -> Option<Vector>) {
    parse(c.embedding).Some? && |parse(c.embedding).value| == |q|
  }

  function CountUsable(q: Vector, cs: seq<StoredChunk>, parse: string -> Option<Vector>): nat {
    if |cs| == 0 then 0 else (if Usable(q, cs[0], parse) then 1 else 0) + CountUsable(q, cs[1..], parse)
  }

  /** The `map`/`filter` over the scanned chunks: a chunk whose embedding does
      not parse, or whose similarity throws, becomes `null` and is dropped;
      the others keep their order, scored by cosine similarity. */
  function ScoreCandidates(q: Vector, cs: seq<StoredChunk>, parse: string -> Option<Vector>, sqrt: real -> real)
    : (r: seq<SearchResult>)
    ensures |r| == CountUsable(q, cs, parse)
  {
    if |cs| == 0 then []
    else
      var rest := ScoreCandidates(q, cs[1..], parse, sqrt);
      var c := cs[0];
      match parse(c.embedding)
      case None => rest
      case Some(v) =>
        match CosineSimilarity(q, v, sqrt)
        case Failure(_) => rest
        case Success(score) =>
          [SearchResult(c.content, score, c.documentId, c.filename, c.chunkId)] + rest
  }

  /** `x` is the scored form of candidate `c`: same chunk, and the cosine
      similarity of the query with the candidate's parsed embedding. */
  predicate ScoredFrom(q: Vector, x: SearchResult, c: StoredChunk, parse: string -> Option<Vector>, sqrt: real -> real) {
    Usable(q, c, parse) && x.chunkId == c.chunkId && x.content == c.content
    && x.documentId == c.documentId && x.filename == c.filename
    && CosineSimilarity(q, parse(c.embedding).value, sqrt) == Success(x.score)
  }

  /** Every scored result comes from a usable candidate and carries that
      candidate's cosine similarity to the query. */
  lemma {:induction false} ScoredFromCandidates(q: Vector, cs: seq<StoredChunk>, parse: string -> Option<Vector>,
                                               sqrt: real -> real)
    ensures forall x | x in ScoreCandidates(q, cs, parse, sqrt) :: exists k | 0 <= k < |cs| :: ScoredFrom(q, x, cs[k], parse, sqrt)
  {
    if |cs| > 0 {
      ScoredFromCandidates(q, cs[1..], parse, sqrt);
      var r := ScoreCandidates(q, cs, parse, sqrt);
      var rest := ScoreCandidates(q, cs[1..], parse, sqrt);
      var tail := cs[1..];
      forall x | x in r
        ensures exists k | 0 <= k < |cs| :: ScoredFrom(q, x, cs[k], parse, sqrt)
      {
        if x in rest {
          var k :| 0 <= k < |tail| && ScoredFrom(q, x, tail[k], parse, sqrt);
          assert tail[k] == cs[k + 1];
        } else {
          assert ScoredFrom(q, x, cs[0], parse, sqrt);
        }
      }
    }
  }

  /** Scoring works candidate by candidate: the results for a concatenation
      are those for each half, in order. */
  lemma {:induction false} ScoreCandidatesAppend(q: Vector, a: seq<StoredChunk>, b: seq<StoredChunk>,
                                                parse: string -> Option<Vector>, sqrt: real -> real)
    ensures ScoreCandidates(q, a + b, parse, sqrt)
            == ScoreCandidates(q, a, parse, sqrt) + ScoreCandidates(q, b, parse, sqrt)
    decreases |a|
  {
    if |a| == 0 {
      assert a + b == b;
    } else {
      assert (a + b)[0] == a[0];
      assert (a + b)[1..] == a[1..] + b;
      ScoreCandidatesAppend(q, a[1..], b, parse, sqrt);
      var x := ScoreCandidates(q, a[1..], parse, sqrt);
      var y := ScoreCandidates(q, b, parse, sqrt);
      forall h: seq<SearchResult> ensures h + (x + y) == (h + x) + y { }
    }
  }

  /** One candidate gives one result, its scored form, when it is usable,
      and none otherwise. */
  lemma ScoreOneCandidate(q: Vector, c: StoredChunk, parse: string -> Option<Vector>, sqrt: real -> real)
    ensures |ScoreCandidates(q, [c], parse, sqrt)| == if Usable(q, c, parse) then 1 else 0
    ensures Usable(q, c, parse) ==> ScoredFrom(q, ScoreCandidates(q, [c], parse, sqrt)[0], c, parse, sqrt)
  {
    assert [c][1..] == [];
  }

  /** The cosine tier: usable candidates sorted by descending score (ties in
      store order), then `slice(0, limit)`. */
  function CosineSearch(q: Vector, cs: seq<StoredChunk>, limit: int, parse: string -> Option<Vector>, sqrt: real -> real)
    : (r: seq<SearchResult>)
    ensures SortedDesc(r)
    ensures limit >= 0 ==> |r| == if limit < CountUsable(q, cs, parse) then limit else CountUsable(q, cs, parse)
    ensures r <= SortByScore(ScoreCandidates(q, cs, parse, sqrt))
  {
    var scored := ScoreCandidates(q, cs, parse, sqrt);
    var sorted := SortByScore(scored);
    SortFacts(scored, 0.0);
    var r := SliceTo(sorted, limit);
    SortedPrefix(sorted, r);
    r
  }

  // ----- Tier 3: lexical match -----

  function TextResult(row: TextRow): SearchResult {
    SearchResult(row.content, LexicalScore, row.documentId, row.filename, row.chunkId)
  }

  function MapTextRows(rows: seq<TextRow>): (r: seq<SearchResult>)
    ensures |r| == |rows|
    ensures forall i | 0 <= i < |rows| :: r[i] == TextResult(rows[i])
  {
    if |rows| == 0 then [] else [TextResult(rows[0])] + MapTextRows(rows[1..])
  }

  /** The lexical tier: the first `limit` matches in chunk-index order, every
      one scored 0.5. */
  function TextSearch(matches: Result<seq<TextRow>, Fault>, limit: int): (r: Result<seq<SearchResult>, Fault>)
    ensures r.Success? <==> matches.Success? && limit >= 0
    ensures r.Success? ==> |r.value| == (if limit < |matches.value| then limit else |matches.value|)
    ensures r.Success? ==> forall i | 0 <= i < |r.value| ::
      r.value[i].score == LexicalScore && r.value[i].chunkId == matches.value[i].chunkId
      && r.value[i].content == matches.value[i].content
  {
    if matches.Failure? then Failure(matches.error)
    else
      match SqlLimit(matches.value, limit)
      case Failure(e) => Failure(e)
      case Success(rows) => Success(MapTextRows(rows))
  }

  // ----- Error classification -----

  /** The outer `catch`: an `APIError` is rethrown unchanged; any other
      `Error` becomes an internal error whose message is chosen by what the
      original message mentions, "database" or "connection" before
      "embedding", the original message otherwise; a non-`Error` value gets
      the generic message. */
  function ClassifyError(f: Fault): (e: ApiError)
    ensures f.Api? ==> e == f.err
    ensures !f.Api? ==> e.code == Internal
    ensures f.Error? && (IsInfix("database", f.message) || IsInfix("connection", f.message)) ==>
      e.message == DatabaseMessage
    ensures (f.Error? && !IsInfix("database", f.message) && !IsInfix("connection", f.message)
             && IsInfix("embedding", f.message)) ==> e.message == ModelMessage
    ensures (f.Error? && !IsInfix("database", f.message) && !IsInfix("connection", f.message)
             && !IsInfix("embedding", f.message)) ==> e.message == f.message
    ensures f.NonError? ==> e.message == GenericMessage
  {
    match f
    case Api(err) => err
    case NonError => ApiError(Internal, GenericMessage)
    case Error(m) =>
      if IsInfix("database", m) || IsInfix("connection", m) then ApiError(Internal, DatabaseMessage)
      else if IsInfix("embedding", m) then ApiError(Internal, ModelMessage)
      else ApiError(Internal, m)
  }

  // ----- The handler -----

  function Respond(results: seq<SearchResult>): (r: Result<SearchResponse, ApiError>)
    ensures r.Success? && r.value.results == results && r.value.totalResults == |results|
  {
    Success(SearchResponse(results, |results|))
  }

  /** `search({query, limit})`. */
  function Search(query: string, limit: int, env: Env): (o: Outcome)
    ensures IsBlank(query) ==> o.result == Failure(ApiError(InvalidArgument, EmptyQuery)) && o.calls == []
    ensures o.result.Success? ==> o.result.value.totalResults == |o.result.value.results|
  {
    if IsBlank(query) then Outcome(Failure(ApiError(InvalidArgument, EmptyQuery)), [], env.cachedEmbedder)
    else if env.store.probe.Some? then
      Outcome(Failure(ApiError(Internal, ProbeFailed)), [ProbeCall], env.cachedEmbedder)
    else
      var (q, h) := QueryEmbedding(query, env);
      var vector := if |q| > 0 then VectorSearch(env.store.vectorRanking, limit) else Failure(Error(NoQueryEmbedding));
      var calls := [ProbeCall, EmbedCall] + (if |q| > 0 then [VectorQuery] else []);
      match SelectTier(|q| > 0, vector.Success?)
      case VectorTier => Outcome(Respond(vector.value), calls, h)
      case CosineTier =>
        (match env.store.embeddedChunks
         case Failure(f) => Outcome(Failure(ClassifyError(f)), calls + [ChunkScan], h)
         case Success(cs) =>
           Outcome(Respond(CosineSearch(q, cs, limit, env.parseEmbedding, env.sqrt)), calls + [ChunkScan], h))
      case LexicalTier =>
        (match env.store.embeddedChunks
         case Failure(f) => Outcome(Failure(ClassifyError(f)), calls + [ChunkScan], h)
         case Success(_) =>
           match TextSearch(env.store.textMatches, limit)
           case Failure(f) => Outcome(Failure(ClassifyError(f)), calls + [ChunkScan, TextQuery], h)
           case Success(rs) => Outcome(Respond(rs), calls + [ChunkScan, TextQuery], h))
  }

  /** The request's `limit`, defaulting to 10 when omitted. */
  function RequestedLimit(limit: Option<int>): int {
    match limit
    case None => DefaultLimit
    case Some(n) => n
  }

  /** Whatever tier answers, a non-negative limit bounds the number of results. */
  lemma ResultsWithinLimit(query: string, limit: int, env: Env)
    requires limit >= 0
    ensures Search(query, limit, env).result.Success? ==> |Search(query, limit, env).result.value.results| <= limit
  {
    if Admitted(query, env) {
      var (q, h) := QueryEmbedding(query, env);
      if |q| > 0 && env.store.embeddedChunks.Success? {
        var cs := env.store.embeddedChunks.value;
        assert |CosineSearch(q, cs, limit, env.parseEmbedding, env.sqrt)| <= limit;
      }
    }
  }

  /** A request without a limit gets at most ten results. */
  lemma OmittedLimitGivesAtMostTen(query: string, env: Env)
    ensures Search(query, RequestedLimit(None), env).result.Success? ==>
              |Search(query, RequestedLimit(None), env).result.value.results| <= 10
  {
    ResultsWithinLimit(query, DefaultLimit, env);
  }

  // ----- Properties of the tier cascade -----

  /** Whether the query reached the search proper: a non-blank query and a
      reachable database. */
  predicate Admitted(query: string, env: Env) {
    !IsBlank(query) && env.store.probe.None?
  }

  /** The lexical query is issued only when no query vector was obtained; a
      non-empty vector never reaches it, even when its tiers find nothing. */
  lemma LexicalOnlyWithoutEmbedding(query: string, limit: int, env: Env)
    ensures TextQuery in Search(query, limit, env).calls ==> QueryEmbedding(query, env).0 == []
  {
  }

  /** Without a query vector (the embedding failed, was swallowed, and left
      the vector empty) and with a working chunk scan, the results are the
      lexical ones. */
  lemma NoEmbeddingMeansLexical(query: string, limit: int, env: Env)
    requires Admitted(query, env)
    requires QueryEmbedding(query, env).0 == []
    requires env.store.embeddedChunks.Success?
    ensures TextQuery in Search(query, limit, env).calls
    ensures var t := TextSearch(env.store.textMatches, limit);
      t.Success? ==> Search(query, limit, env).result == Respond(t.value)
  {
  }

  /** With a query vector and a native ranking, the native tier answers
      with the ranking's first `limit` rows scored `1 - distance`, even when
      there are none; the cosine and lexical queries are never issued. */
  lemma VectorTierAnswersAsIs(query: string, limit: int, env: Env)
    requires Admitted(query, env)
    requires QueryEmbedding(query, env).0 != []
    requires env.store.vectorRanking.Success? && limit >= 0
    ensures var rows := env.store.vectorRanking.value;
      Search(query, limit, env).result
        == Respond(MapVectorRows(if limit < |rows| then rows[..limit] else rows))
    ensures ChunkScan !in Search(query, limit, env).calls
    ensures TextQuery !in Search(query, limit, env).calls
  {
  }

  /** When the native query throws, a query vector leads to the cosine tier,
      whatever the candidates: results sorted by descending score, at most
      `limit` of them. */
  lemma CosineTierOnVectorFailure(query: string, limit: int, env: Env)
    requires Admitted(query, env)
    requires QueryEmbedding(query, env).0 != []
    requires VectorSearch(env.store.vectorRanking, limit).Failure?
    requires env.store.embeddedChunks.Success?
    ensures var q := QueryEmbedding(query, env).0;
      Search(query, limit, env).result
        == Respond(CosineSearch(q, env.store.embeddedChunks.value, limit, env.parseEmbedding, env.sqrt))
    ensures TextQuery !in Search(query, limit, env).calls
  {
  }

  /** A negative limit makes the native query fail; the cosine tier's
      `slice(0, limit)` then drops the last `-limit` ranked candidates
      instead of returning nothing. */
  lemma NegativeLimitDropsTail(q: Vector, cs: seq<StoredChunk>, limit: int, parse: string -> Option<Vector>, sqrt: real -> real)
    requires limit < 0
    ensures VectorSearch(Success([]), limit).Failure?
    ensures var n := CountUsable(q, cs, parse);
      |CosineSearch(q, cs, limit, parse, sqrt)| == if n + limit < 0 then 0 else n + limit
  {
    SortFacts(ScoreCandidates(q, cs, parse, sqrt), 0.0);
  }

  /** A failed query embedding does not fail the search: with a working
      store and a non-negative limit the search succeeds through the lexical
      tier. */
  lemma EmbeddingFailureSwallowed(query: string, limit: int, env: Env)
    requires Admitted(query, env) && limit >= 0
    requires GenerateEmbeddingsSpec([query], env.cachedEmbedder, env.loadEmbedder, env.embed).0.Failure?
    requires env.store.embeddedChunks.Success? && env.store.textMatches.Success?
    ensures Search(query, limit, env).result.Success?
    ensures forall i | 0 <= i < |Search(query, limit, env).result.value.results| ::
      Search(query, limit, env).result.value.results[i].score == LexicalScore
  {
  }

  /** Classification tests "database" and "connection" before "embedding". */
  lemma DatabaseMentionWins(m: string)
    requires IsInfix("database", m) && IsInfix("embedding", m)
    ensures ClassifyError(Error(m)) == ApiError(Internal, DatabaseMessage)
  {
  }
}

=== FILE: sequences.dfy ===
/** Generic sequence operations with the semantics of the JavaScript/Node.js
    built-ins the source uses (`indexOf`, `split`, `join`, `slice`, `filter`). */
module Sequences {
  import opened Wrappers

  /** `pat` occurs in `s` starting at index `j`. */
  predicate OccursAt<T(==)>(s: seq<T>, pat: seq<T>, j: int) {
    0 <= j && j + |pat| <= |s| && s[j..j + |pat|] == pat
  }

  /** `a` is a contiguous piece of `b` (JavaScript `includes`). */
  predicate IsInfix<T(==)>(a: seq<T>, b: seq<T>) {
    exists j | 0 <= j <= |b| - |a| :: OccursAt(b, a, j)
  }

  predicate IsSuffix<T(==)>(a: seq<T>, b: seq<T>) {
    |a| <= |b| && b[|b| - |a|..] == a
  }

  /** First occurrence of `pat` in `s` at or after `from`, as `indexOf(pat, from)`
      (`None` plays the role of -1). */
  function IndexFrom<T(==)>(s: seq<T>, pat: seq<T>, from: nat): (r: Option<nat>)
    ensures r.Some? ==> from <= r.value && OccursAt(s, pat, r.value)
    ensures r.Some? ==> forall j | from <= j < r.value :: !OccursAt(s, pat, j)
    ensures r.None? ==> forall j | from <= j :: !OccursAt(s, pat, j)
    decreases |s| - from
  {
    if from + |pat| > |s| then None
    else if s[from..from + |pat|] == pat then Some(from)
    else IndexFrom(s, pat, from + 1)
  }

  lemma InfixIffIndexFound<T>(s: seq<T>, pat: seq<T>)
    ensures IsInfix(pat, s) <==> IndexFrom(s, pat, 0).Some?
  {
    if IsInfix(pat, s) {
      var j :| 0 <= j <= |s| - |pat| && OccursAt(s, pat, j);
      assert IndexFrom(s, pat, 0).Some?;
    }
  }

  /** `a` with every occurrence of the single element `sep` treated as a
      separator, as JavaScript's `split(sep)`: always at least one piece,
      empty pieces kept. */
  function SplitOn<T(==)>(s: seq<T>, sep: T): (r: seq<seq<T>>)
    ensures |r| >= 1
    ensures forall k | 0 <= k < |r| :: sep !in r[k]
  {
    if |s| == 0 then [[]]
    else
      var rest := SplitOn(s[1..], sep);
      if s[0] == sep then [[]] + rest
      else [[s[0]] + rest[0]] + rest[1..]
  }

  /** `parts.join(sep)`; the empty list joins to the empty sequence. */
  function Join<T>(parts: seq<seq<T>>, sep: seq<T>): seq<T> {
    if |parts| == 0 then []
    else if |parts| == 1 then parts[0]
    else parts[0] + sep + Join(parts[1..], sep)
  }

  /** Three pieces join as the pieces with the separator between each pair. */
  lemma JoinOfThree<T>(parts: seq<seq<T>>, sep: seq<T>)
    requires |parts| == 3
    ensures Join(parts, sep) == parts[0] + sep + parts[1] + sep + parts[2]
  {
    assert parts[1..][1..] == [parts[2]];
    assert Join(parts[1..], sep) == parts[1] + sep + parts[2];
  }

  /** Joining the pieces of a split with the separator gives the input back. */
  lemma {:induction false} JoinSplit<T>(s: seq<T>, sep: T)
    ensures Join(SplitOn(s, sep), [sep]) == s
  {
    if |s| > 0 {
      var rest := SplitOn(s[1..], sep);
      JoinSplit(s[1..], sep);
      if s[0] == sep {
        assert SplitOn(s, sep) == [[]] + rest;
        assert s == [] + [sep] + s[1..];
      } else {
        var r := SplitOn(s, sep);
        assert r == [[s[0]] + rest[0]] + rest[1..];
        if |rest| == 1 {
          assert s == [s[0]] + rest[0];
        } else {
          assert rest[1..][0] == rest[1];
          assert r[1..] == rest[1..];
          assert Join(rest, [sep]) == rest[0] + [sep] + Join(rest[1..], [sep]);
          assert Join(r, [sep]) == ([s[0]] + rest[0]) + [sep] + Join(rest[1..], [sep]);
        }
      }
    }
  }

  /** Splitting a join of separator-free pieces recovers the pieces. */
  lemma {:induction false} SplitJoin<T>(parts: seq<seq<T>>, sep: T)
    requires |parts| >= 1
    requires forall k | 0 <= k < |parts| :: sep !in parts[k]
    ensures SplitOn(Join(parts, [sep]), sep) == parts
  {
    if |parts| == 1 {
      SplitFree(parts[0], sep);
    } else {
      SplitJoin(parts[1..], sep);
      SplitPrefix(parts[0], Join(parts[1..], [sep]), sep);
      assert parts == [parts[0]] + parts[1..];
    }
  }

  /** A separator-free sequence splits into itself. */
  lemma {:induction false} SplitFree<T>(w: seq<T>, sep: T)
    requires sep !in w
    ensures SplitOn(w, sep) == [w]
  {
    if |w| > 0 {
      SplitFree(w[1..], sep);
      assert [w[0]] + w[1..] == w;
    }
  }

  /** Splitting `w + [sep] + t` for separator-free `w`. */
  lemma {:induction false} SplitPrefix<T>(w: seq<T>, t: seq<T>, sep: T)
    requires sep !in w
    ensures SplitOn(w + [sep] + t, sep) == [w] + SplitOn(t, sep)
  {
    if |w| == 0 {
      assert w + [sep] + t == [sep] + t;
      assert ([sep] + t)[1..] == t;
    } else {
      SplitPrefix(w[1..], t, sep);
      var s := w + [sep] + t;
      assert s[1..] == w[1..] + [sep] + t;
      assert [w[0]] + w[1..] == w;
    }
  }

  /** Joining a tail of the pieces gives a suffix of the whole join. */
  lemma {:induction false} JoinTailIsSuffix<T>(parts: seq<seq<T>>, sep: seq<T>, k: nat)
    requires k <= |parts|
    ensures IsSuffix(Join(parts[k..], sep), Join(parts, sep))
    decreases k
  {
    if k > 0 {
      JoinTailIsSuffix(parts[1..], sep, k - 1);
      assert parts[1..][k - 1..] == parts[k..];
      if |parts| > 1 {
        assert Join(parts, sep) == parts[0] + sep + Join(parts[1..], sep);
      } else {
        assert parts[k..] == [];
      }
    }
  }

  /** Every element of a join is an element of some piece or of the separator. */
  lemma {:induction false} JoinElements<T>(parts: seq<seq<T>>, sep: seq<T>, x: T)
    requires x in Join(parts, sep)
    ensures x in sep || exists k | 0 <= k < |parts| :: x in parts[k]
  {
    if |parts| == 1 {
      assert x in parts[0];
    } else if |parts| > 1 {
      var rest := Join(parts[1..], sep);
      assert Join(parts, sep) == parts[0] + sep + rest;
      if x in parts[0] {
      } else if x in sep {
      } else {
        assert x in rest;
        JoinElements(parts[1..], sep, x);
        if x !in sep {
          var k :| 0 <= k < |parts[1..]| && x in parts[1..][k];
          assert x in parts[k + 1];
        }
      }
    }
  }

  lemma SliceOfSlice<T>(s: seq<T>, a: nat, b: nat, i: nat, j: nat)
    requires a <= b <= |s| && i <= j <= b - a
    ensures s[a..b][i..j] == s[a + i..a + j]
  {
    var u := s[a..b][i..j];
    var v := s[a + i..a + j];
    assert |u| == |v|;
    forall k | 0 <= k < |u| ensures u[k] == v[k] {
      assert u[k] == s[a..b][i + k] == s[a + i + k];
    }
  }

  lemma ThreeWay<T>(s: seq<T>, i: nat, j: nat)
    requires i <= j <= |s|
    ensures s == s[..i] + s[i..j] + s[j..]
  {
  }

  /** A slice nested in a window occurs in that window at the shifted offset. */
  lemma InnerSlice<T>(s: seq<T>, a: nat, e: nat, p: nat, q: nat)
    requires a <= p <= q <= e <= |s|
    ensures OccursAt(s[a..e], s[p..q], p - a)
  {
    SliceOfSlice(s, a, e, p - a, q - a);
  }

  lemma InfixTransitive<T>(a: seq<T>, b: seq<T>, c: seq<T>)
    requires IsInfix(a, b) && IsInfix(b, c)
    ensures IsInfix(a, c)
  {
    var i :| 0 <= i <= |b| - |a| && OccursAt(b, a, i);
    var j :| 0 <= j <= |c| - |b| && OccursAt(c, b, j);
    SliceOfSlice(c, j, j + |b|, i, i + |a|);
    assert OccursAt(c, a, j + i);
  }

  /** Appending to a sequence keeps every infix of it. */
  lemma InfixExtendRight<T>(a: seq<T>, b: seq<T>, c: seq<T>)
    requires IsInfix(a, b)
    ensures IsInfix(a, b + c)
  {
    var i :| 0 <= i <= |b| - |a| && OccursAt(b, a, i);
    assert (b + c)[i..i + |a|] == b[i..i + |a|];
    assert OccursAt(b + c, a, i);
  }

  lemma InfixOfSuffix<T>(a: seq<T>, b: seq<T>)
    requires IsSuffix(a, b)
    ensures IsInfix(a, b)
  {
    assert OccursAt(b, a, |b| - |a|);
  }

  lemma InfixSelf<T>(a: seq<T>)
    ensures IsInfix(a, a)
  {
    assert OccursAt(a, a, 0);
  }

  /** Every element of an occurring piece is an element of the whole. */
  lemma OccursElements<T>(s: seq<T>, r: seq<T>, j: int)
    requires OccursAt(s, r, j)
    ensures forall i | 0 <= i < |r| :: r[i] == s[j + i]
  {
    forall i | 0 <= i < |r| ensures r[i] == s[j + i] {
      assert r[i] == s[j..j + |r|][i];
    }
  }

  /** Joining one more piece onto a non-empty list appends separator and piece. */
  lemma {:induction false} JoinSnoc<T>(parts: seq<seq<T>>, x: seq<T>, sep: seq<T>)
    requires |parts| >= 1
    ensures Join(parts + [x], sep) == Join(parts, sep) + sep + x
  {
    if |parts| == 1 {
      assert parts + [x] == [parts[0], x];
    } else {
      JoinSnoc(parts[1..], x, sep);
      assert (parts + [x])[1..] == parts[1..] + [x];
    }
  }

  lemma JoinStartsWithFirst<T>(parts: seq<seq<T>>, sep: seq<T>)
    requires |parts| >= 1
    ensures parts[0] <= Join(parts, sep)
  {
  }

  /** An occurrence starts with the pattern's first element. */
  lemma OccurrenceHead<T>(s: seq<T>, pat: seq<T>, j: int)
    requires OccursAt(s, pat, j) && |pat| > 0
    ensures s[j] == pat[0]
  {
    assert s[j..j + |pat|][0] == s[j];
  }

  /** An occurrence past the first part is an occurrence in the second. */
  lemma OccurrenceShift<T>(a: seq<T>, b: seq<T>, pat: seq<T>, j: int)
    requires OccursAt(a + b, pat, j) && j >= |a|
    ensures OccursAt(b, pat, j - |a|)
  {
    assert (a + b)[j..j + |pat|] == b[j - |a|..j - |a| + |pat|];
  }

  /** An occurrence that starts in `x` either ends in `x` or runs over the
      element right after `x`, which then appears in the pattern. */
  lemma OccurrenceConfined<T>(x: seq<T>, y: seq<T>, pat: seq<T>, j: int)
    requires OccursAt(x + y, pat, j) && j < |x| && |y| > 0
    ensures OccursAt(x, pat, j) || y[0] in pat
  {
    if j + |pat| > |x| {
      assert (x + y)[j..j + |pat|][|x| - j] == y[0];
    } else {
      assert (x + y)[j..j + |pat|] == x[j..j + |pat|];
    }
  }

  /** An occurrence that ends inside `x` is an occurrence in `x`. */
  lemma OccurrenceInPrefix<T>(x: seq<T>, y: seq<T>, pat: seq<T>, j: int)
    requires OccursAt(x + y, pat, j) && j + |pat| <= |x|
    ensures OccursAt(x, pat, j)
  {
    assert (x + y)[j..j + |pat|] == x[j..j + |pat|];
  }

  /** An occurrence in `x` remains one once anything is appended. */
  lemma OccurrenceExtend<T>(x: seq<T>, y: seq<T>, pat: seq<T>, j: int)
    requires OccursAt(x, pat, j)
    ensures OccursAt(x + y, pat, j)
  {
    assert (x + y)[j..j + |pat|] == x[j..j + |pat|];
  }

  /** Joining a non-empty list behind one more element puts a separator between them. */
  lemma JoinCons<T>(x: seq<T>, ys: seq<seq<T>>, sep: seq<T>)
    requires |ys| > 0
    ensures Join([x] + ys, sep) == x + sep + Join(ys, sep)
  {
    assert ([x] + ys)[1..] == ys;
  }

  /** Every piece of `parts` followed by `sep`, then `last`. */
  function Interleave<T>(parts: seq<seq<T>>, last: seq<T>, sep: seq<T>): seq<T> {
    if |parts| == 0 then last else parts[0] + sep + Interleave(parts[1..], last, sep)
  }

  /** Joining a list is interleaving all but its last piece with the separator. */
  lemma {:induction false} JoinAsInterleave<T>(parts: seq<seq<T>>, last: seq<T>, sep: seq<T>)
    ensures Join(parts + [last], sep) == Interleave(parts, last, sep)
  {
    if |parts| > 0 {
      assert (parts + [last])[1..] == parts[1..] + [last];
      JoinAsInterleave(parts[1..], last, sep);
    }
  }

  /** An occurrence of `a + b` starts with an occurrence of `a`. */
  lemma OccurrenceOfPrefix<T>(s: seq<T>, a: seq<T>, b: seq<T>, j: int)
    requires OccursAt(s, a + b, j)
    ensures OccursAt(s, a, j)
  {
    assert s[j..j + |a|] == (a + b)[..|a|];
  }

  /** An occurrence in a slice is an occurrence in the whole, shifted by the slice's start. */
  lemma OccurrenceInSlice<T>(s: seq<T>, a: nat, b: nat, pat: seq<T>, j: int)
    requires a <= b <= |s| && OccursAt(s[a..b], pat, j)
    ensures OccursAt(s, pat, a + j)
  {
    SliceOfSlice(s, a, b, j, j + |pat|);
  }

  /** A slice that ends before the first occurrence at or after its start
      holds no occurrence. */
  lemma NoOccurrenceBefore<T>(s: seq<T>, pat: seq<T>, a: nat, b: nat)
    requires a <= b <= |s| && |pat| > 0
    requires forall j | a <= j < b :: !OccursAt(s, pat, j)
    ensures !IsInfix(pat, s[a..b])
  {
    forall j | OccursAt(s[a..b], pat, j)
      ensures false
    {
      OccurrenceInSlice(s, a, b, pat, j);
    }
  }

  /** In `x + pat`, the `pat` at the end is the first occurrence: none
      starts inside `x`, overlapping or not. */
  predicate FirstOccurrenceAtEnd<T(==)>(x: seq<T>, pat: seq<T>) {
    forall j | 0 <= j < |x| :: !OccursAt(x + pat, pat, j)
  }

  /** A piece ending at the first occurrence after its start has that
      occurrence as its first one. */
  lemma FirstOccurrenceSlice<T>(s: seq<T>, pat: seq<T>, a: nat, b: nat)
    requires a <= b && OccursAt(s, pat, b)
    requires forall j | a <= j < b :: !OccursAt(s, pat, j)
    ensures FirstOccurrenceAtEnd(s[a..b], pat)
  {
    assert s[a..b] + pat == s[a..b + |pat|];
    forall j | 0 <= j < b - a && OccursAt(s[a..b] + pat, pat, j)
      ensures false
    {
      OccurrenceInSlice(s, a, b + |pat|, pat, j);
    }
  }

  /** An occurrence inside a window is an occurrence in the window's slice. */
  lemma OccurrenceInWindow<T>(s: seq<T>, a: nat, b: nat, pat: seq<T>, j: int)
    requires a <= j && j + |pat| <= b <= |s| && OccursAt(s, pat, j)
    ensures OccursAt(s[a..b], pat, j - a)
  {
    SliceOfSlice(s, a, b, j - a, j - a + |pat|);
  }

  /** `IndexFrom` finds an occurrence that no earlier one precedes. */
  lemma IndexFromFirst<T>(s: seq<T>, pat: seq<T>, from: nat, i: nat)
    requires from <= i && OccursAt(s, pat, i)
    requires forall j | from <= j < i :: !OccursAt(s, pat, j)
    ensures IndexFrom(s, pat, from) == Some(i)
  {
  }

  /** `IndexFrom` finds nothing in a tail that holds no occurrence. */
  lemma IndexFromNone<T>(s: seq<T>, pat: seq<T>, from: nat)
    requires from <= |s| && !IsInfix(pat, s[from..])
    ensures IndexFrom(s, pat, from) == None
  {
    forall j | from <= j
      ensures !OccursAt(s, pat, j)
    {
      assert !OccursAt(s[from..], pat, j - from);
      if j + |pat| <= |s| {
        assert s[from..][j - from..j - from + |pat|] == s[j..j + |pat|];
      }
    }
  }

  /** A suffix of pieces free of `sep` is free of `sep`. */
  lemma TailOfFree<T>(parts: seq<seq<T>>, sep: T, i: nat)
    requires i <= |parts|
    requires forall k | 0 <= k < |parts| :: sep !in parts[k]
    ensures forall k | 0 <= k < |parts| - i :: sep !in parts[i..][k]
  {
    forall k | 0 <= k < |parts| - i ensures sep !in parts[i..][k] {
      assert parts[i..][k] == parts[i + k];
    }
  }

  /** JavaScript `Array.prototype.slice(start)` / `Buffer.slice(start)`: a
      negative start counts from the end, and the start is clamped. */
  function SliceFrom<T>(s: seq<T>, start: int): (r: seq<T>)
    ensures IsSuffix(r, s)
    ensures 0 <= start <= |s| ==> |r| == |s| - start
    ensures -|s| <= start < 0 ==> |r| == -start
  {
    var k := if start < 0 then (if |s| + start < 0 then 0 else |s| + start)
             else (if start < |s| then start else |s|);
    s[k..]
  }

  /** JavaScript `slice(0, end)`: a negative end counts from the end, clamped. */
  function SliceTo<T>(s: seq<T>, end: int): (r: seq<T>)
    ensures r <= s
    ensures 0 <= end ==> |r| == if end < |s| then end else |s|
    ensures end < 0 ==> |r| == if |s| + end < 0 then 0 else |s| + end
  {
    var k := if end < 0 then (if |s| + end < 0 then 0 else |s| + end)
             else (if end < |s| then end else |s|);
    s[..k]
  }
}

=== FILE: similarity.dfy ===
/** `cosineSimilarity` of backend/documents/search.ts over real numbers.
    `Math.sqrt` is a parameter: the model does not fix square roots, and the
    lemmas state what they need of it. */
module Similarity {
  import opened Wrappers
  import opened Types

  const LengthMismatch: string := "Vectors must have the same length"

  /** The sum of `a[i] * b[i]`. The recursion groups it from the right,
      while the loop adds from index 0 upwards; over the reals the two
      orders give the same sum. */
  function Dot(a: Vector, b: Vector): real
    requires |a| == |b|
  {
    if |a| == 0 then 0.0 else a[0] * b[0] + Dot(a[1..], b[1..])
  }

  /** `cosineSimilarity(a, b)`: throws on a length mismatch, is 0 when either
      norm is 0, and otherwise the dot product divided by the product of the
      norms. */
  function CosineSimilarity(a: Vector, b: Vector, sqrt: real -> real): (r: Result<real, Fault>)
    ensures r.Failure? <==> |a| != |b|
    ensures r.Failure? ==> r.error == Error(LengthMismatch)
    ensures |a| == |b| && (sqrt(Dot(a, a)) == 0.0 || sqrt(Dot(b, b)) == 0.0) ==> r == Success(0.0)
    ensures |a| == |b| && sqrt(Dot(a, a)) != 0.0 && sqrt(Dot(b, b)) != 0.0 ==>
      r.Success? && r.value * (sqrt(Dot(a, a)) * sqrt(Dot(b, b))) == Dot(a, b)
  {
    if |a| != |b| then Failure(Error(LengthMismatch))
    else
      var normA := sqrt(Dot(a, a));
      var normB := sqrt(Dot(b, b));
      if normA == 0.0 || normB == 0.0 then Success(0.0)
      else Success(Dot(a, b) / (normA * normB))
  }

  lemma {:induction false} DotSymmetric(a: Vector, b: Vector)
    requires |a| == |b|
    ensures Dot(a, b) == Dot(b, a)
  {
    if |a| > 0 {
      DotSymmetric(a[1..], b[1..]);
    }
  }

  /** The similarity does not depend on the order of its arguments. */
  lemma CosineSymmetric(a: Vector, b: Vector, sqrt: real -> real)
    ensures CosineSimilarity(a, b, sqrt) == CosineSimilarity(b, a, sqrt)
  {
    if |a| == |b| {
      DotSymmetric(a, b);
    }
  }

  /** A vector with a non-zero norm is fully similar to itself, given a square
      root that squares back to the squared norm. */
  lemma SelfSimilarityIsOne(v: Vector, sqrt: real -> real)
    requires Dot(v, v) > 0.0
    requires sqrt(Dot(v, v)) * sqrt(Dot(v, v)) == Dot(v, v)
    ensures CosineSimilarity(v, v, sqrt) == Success(1.0)
  {
    var d := Dot(v, v);
    var n := sqrt(d);
    assert n != 0.0;
    assert n * n == d;
    assert d / (n * n) == 1.0;
    var r := CosineSimilarity(v, v, sqrt);
    assert r.Success?;
    assert r.value * (n * n) == d;
    assert r.value == 1.0;
  }

  predicate IsZero(v: Vector) {
    forall i | 0 <= i < |v| :: v[i] == 0.0
  }

  lemma {:induction false} DotWithZero(z: Vector, w: Vector)
    requires |z| == |w| && IsZero(z)
    ensures Dot(z, w) == 0.0
  {
    if |z| > 0 {
      DotWithZero(z[1..], w[1..]);
    }
  }

  /** The zero vector is similar to nothing: the degenerate case is 0, not an error. */
  lemma ZeroVectorScoresZero(z: Vector, w: Vector, sqrt: real -> real)
    requires |z| == |w| && IsZero(z)
    requires sqrt(0.0) == 0.0
    ensures CosineSimilarity(z, w, sqrt) == Success(0.0)
    ensures CosineSimilarity(w, z, sqrt) == Success(0.0)
  {
    DotWithZero(z, z);
    CosineSymmetric(z, w, sqrt);
  }
}

=== FILE: strings.dfy ===
/** String helpers with JavaScript semantics: whitespace as matched by `\s`
    and removed by `trim()`, `substring`, ASCII case folding. Strings are
    sequences of Unicode code points. */
module Strings {
  import opened Sequences

  /** JavaScript WhiteSpace and LineTerminator code points: exactly the
      characters matched by the regular-expression class `\s` and stripped by
      `trim()` (tab to carriage return, space, no-break space, ogham space
      mark, the spaces U+2000 to U+200A, line and paragraph separators,
      narrow no-break space, medium mathematical space, ideographic space and
      the byte-order mark). */
  predicate IsSpace(c: char) {
    c in Whitespace
  }

  const Whitespace: set<char> := {
    '\t', '\n', '\U{000B}', '\U{000C}', '\r', ' ', '\U{00A0}', '\U{1680}',
    '\U{2000}', '\U{2001}', '\U{2002}', '\U{2003}', '\U{2004}', '\U{2005}',
    '\U{2006}', '\U{2007}', '\U{2008}', '\U{2009}', '\U{200A}',
    '\U{2028}', '\U{2029}', '\U{202F}', '\U{205F}', '\U{3000}', '\U{FEFF}'
  }

  /** `s.trim().length === 0`. */
  predicate IsBlank(s: string) {
    forall i | 0 <= i < |s| :: IsSpace(s[i])
  }

  /** The end of the whitespace run of `s` starting at index `i`. */
  function SpacesFrom(s: string, i: nat): (n: nat)
    requires i <= |s|
    ensures i <= n <= |s|
    ensures forall k | i <= k < n :: IsSpace(s[k])
    ensures n < |s| ==> !IsSpace(s[n])
    decreases |s| - i
  {
    if i == |s| || !IsSpace(s[i]) then i else SpacesFrom(s, i + 1)
  }

  /** The start of the whitespace run of `s` ending just before index `j`. */
  function SpacesBefore(s: string, j: nat): (n: nat)
    requires j <= |s|
    ensures n <= j
    ensures forall k | n <= k < j :: IsSpace(s[k])
    ensures n > 0 ==> !IsSpace(s[n - 1])
  {
    if j == 0 || !IsSpace(s[j - 1]) then j else SpacesBefore(s, j - 1)
  }

  /** Number of whitespace characters at the start of `s`. */
  function LeadingSpaces(s: string): (n: nat)
    ensures n <= |s|
    ensures forall i | 0 <= i < n :: IsSpace(s[i])
    ensures n < |s| ==> !IsSpace(s[n])
  {
    SpacesFrom(s, 0)
  }

  /** Number of whitespace characters at the end of `s`. */
  function TrailingSpaces(s: string): (n: nat)
    ensures n <= |s|
    ensures forall i | |s| - n <= i < |s| :: IsSpace(s[i])
    ensures n < |s| ==> !IsSpace(s[|s| - 1 - n])
  {
    |s| - SpacesBefore(s, |s|)
  }

  /** `s.trim()`: the longest infix of `s` that neither starts nor ends with
      whitespace, obtained by removing only whitespace. */
  function Trim(s: string): (r: string)
    ensures r == [] <==> IsBlank(s)
    ensures |r| > 0 ==> !IsSpace(r[0]) && !IsSpace(r[|r| - 1])
  {
    var a := LeadingSpaces(s);
    if a == |s| then []
    else
      var b := TrailingSpaces(s);
      assert !IsSpace(s[a]);
      s[a..|s| - b]
  }

  /** The trimmed string sits in the original right after the leading whitespace. */
  lemma TrimOccurs(s: string)
    requires !IsBlank(s)
    ensures OccursAt(s, Trim(s), LeadingSpaces(s))
  {
    TrimWindow(s);
  }

  /** Trimming twice is trimming once. */
  lemma TrimIdempotent(s: string)
    ensures Trim(Trim(s)) == Trim(s)
  {
    var r := Trim(s);
    if |r| > 0 {
      assert LeadingSpaces(r) == 0;
      assert TrailingSpaces(r) == 0;
    }
  }

  lemma LeadingSpacesBound(x: string, p: nat)
    requires p < |x| && !IsSpace(x[p])
    ensures LeadingSpaces(x) <= p
  {
  }

  lemma TrailingSpacesBound(x: string, q: nat)
    requires 0 < q <= |x| && !IsSpace(x[q - 1])
    ensures q <= |x| - TrailingSpaces(x)
  {
  }

  /** Trimming keeps a prefix that neither starts nor ends with whitespace. */
  lemma TrimKeepsSolidPrefix(x: string, h: string)
    requires |h| > 0 && h <= x
    requires !IsSpace(h[0]) && !IsSpace(h[|h| - 1])
    ensures h <= Trim(x)
  {
    assert x[0] == h[0] && x[|h| - 1] == h[|h| - 1];
    LeadingSpacesBound(x, 0);
    TrailingSpacesBound(x, |h|);
    TrimWindow(x);
  }

  /** `Trim(x)` is the window of `x` between its leading and trailing whitespace. */
  lemma TrimWindow(x: string)
    requires !IsBlank(x)
    ensures LeadingSpaces(x) < |x| - TrailingSpaces(x)
    ensures Trim(x) == x[LeadingSpaces(x)..|x| - TrailingSpaces(x)]
  {
    var a := LeadingSpaces(x);
    var b := TrailingSpaces(x);
    assert a != |x|;
    assert !IsSpace(x[a]);
    TrailingSpacesBound(x, a + 1);
  }


  /** A piece of `x` that starts and ends with non-whitespace lies inside
      `Trim(x)`, at the same offset shifted by the leading whitespace. */
  lemma TrimContainsSolidPiece(x: string, p: nat, q: nat)
    requires p < q <= |x|
    requires !IsSpace(x[p]) && !IsSpace(x[q - 1])
    ensures IsInfix(x[p..q], Trim(x))
  {
    LeadingSpacesBound(x, p);
    TrailingSpacesBound(x, q);
    assert !IsBlank(x);
    TrimWindow(x);
    InnerSlice(x, LeadingSpaces(x), |x| - TrailingSpaces(x), p, q);
  }

  /** A non-blank infix keeps its trimmed form inside the trimmed whole:
      trimming the whole never cuts into a non-blank piece. */
  lemma TrimKeepsInfix(t: string, x: string, j: nat)
    requires OccursAt(x, t, j)
    requires !IsBlank(t)
    ensures IsInfix(Trim(t), Trim(x))
  {
    var rt := Trim(t);
    var at := LeadingSpaces(t);
    var p := j + at;
    var q := p + |rt|;
    assert x[p..q] == rt by {
      TrimOccurs(t);
      assert x[j..j + |t|] == t;
      assert t[at..at + |rt|] == rt;
      SliceOfSlice(x, j, j + |t|, at, at + |rt|);
    }
    assert x[p] == rt[0];
    assert x[q - 1] == rt[|rt| - 1];
    TrimContainsSolidPiece(x, p, q);
  }

  /** The leading whitespace count is the first non-whitespace index. */
  lemma LeadingSpacesExact(s: string, n: nat)
    requires n < |s| && !IsSpace(s[n])
    requires forall i | 0 <= i < n :: IsSpace(s[i])
    ensures LeadingSpaces(s) == n
  {
    LeadingSpacesBound(s, n);
  }

  /** The trailing whitespace count is measured from the last non-whitespace character. */
  lemma TrailingSpacesExact(s: string, n: nat)
    requires n < |s| && !IsSpace(s[|s| - 1 - n])
    requires forall i | |s| - n <= i < |s| :: IsSpace(s[i])
    ensures TrailingSpaces(s) == n
  {
    TrailingSpacesBound(s, |s| - n);
  }

  /** Text appended after a non-whitespace character leaves the leading whitespace alone. */
  lemma LeadingSpacesOfJoin(x: string, t: string)
    requires |x| > 0 && !IsSpace(x[|x| - 1])
    ensures LeadingSpaces(x + t) == LeadingSpaces(x) < |x|
  {
    LeadingSpacesBound(x, |x| - 1);
    var a := LeadingSpaces(x);
    assert (x + t)[a] == x[a];
    LeadingSpacesExact(x + t, a);
  }

  /** Text prepended before a non-whitespace character leaves the trailing whitespace alone. */
  lemma TrailingSpacesOfJoin(t: string, y: string)
    requires |y| > 0 && !IsSpace(y[0])
    ensures TrailingSpaces(t + y) == TrailingSpaces(y) < |y|
  {
    TrailingSpacesBound(y, 1);
    var b := TrailingSpaces(y);
    var s := t + y;
    assert s[|s| - 1 - b] == y[|y| - 1 - b];
    assert forall i | |s| - b <= i < |s| :: s[i] == y[i - |t|];
    TrailingSpacesExact(s, b);
  }

  /** Trimming a text whose middle part is framed by non-whitespace trims
      only the outer ends. */
  lemma TrimJoin(x: string, m: string, y: string)
    requires |x| > 0 && !IsSpace(x[|x| - 1])
    requires |y| > 0 && !IsSpace(y[0])
    ensures Trim(x + (m + y)) == Trim(x) + (m + Trim(y))
  {
    var s := x + (m + y);
    JoinSpaces(x, m, y);
    TrimWindow(x);
    TrimWindow(y);
    TrimWindow(s);
    CutOuterEnds(x, m, y, LeadingSpaces(x), TrailingSpaces(y));
  }

  /** The whitespace at the ends of such a join is that of its outer parts. */
  lemma JoinSpaces(x: string, m: string, y: string)
    requires |x| > 0 && !IsSpace(x[|x| - 1])
    requires |y| > 0 && !IsSpace(y[0])
    ensures LeadingSpaces(x + (m + y)) == LeadingSpaces(x) < |x|
    ensures TrailingSpaces(x + (m + y)) == TrailingSpaces(y) < |y|
    ensures !IsBlank(x) && !IsBlank(y) && !IsBlank(x + (m + y))
  {
    LeadingSpacesOfJoin(x, m + y);
    assert x + (m + y) == (x + m) + y;
    TrailingSpacesOfJoin(x + m, y);
  }

  /** `TrimJoin` around a single space. */
  lemma TrimAroundSpace(x: string, y: string)
    requires |x| > 0 && !IsSpace(x[|x| - 1])
    requires |y| > 0 && !IsSpace(y[0])
    ensures Trim(x + [' '] + y) == Trim(x) + [' '] + Trim(y)
  {
    TrimJoin(x, [' '], y);
    SpaceJoinAssoc(x, y);
    SpaceJoinAssoc(Trim(x), Trim(y));
  }

  lemma SpaceJoinAssoc(x: string, y: string)
    ensures x + [' '] + y == x + ([' '] + y)
  {
  }

  lemma CutOuterEnds(x: string, m: string, y: string, a: nat, b: nat)
    requires a <= |x| && b <= |y|
    ensures (x + (m + y))[a..|x + (m + y)| - b] == x[a..] + (m + y[..|y| - b])
  {
  }

  /** `s.substring(0, n)` for `n >= 0`. */
  function Prefix(s: string, n: nat): (r: string)
    ensures r <= s
    ensures |r| == if n < |s| then n else |s|
  {
    if n < |s| then s[..n] else s
  }

  /** `s.substring(start)` for `start >= 0`: empty once `start` passes the end. */
  function DropFrom(s: string, start: nat): (r: string)
    ensures IsSuffix(r, s)
    ensures |r| == if start < |s| then |s| - start else 0
  {
    if start < |s| then s[start..] else []
  }

  /** ASCII lower-casing of one character; every other character is unchanged. */
  function AsciiLower(c: char): (d: char)
    ensures 'A' <= c <= 'Z' ==> d as int == c as int + 32
    ensures !('A' <= c <= 'Z') ==> d == c
  {
    if 'A' <= c <= 'Z' then (c as int + 32) as char else c
  }

  /** `s.toLowerCase().endsWith(suffix)` for a lower-case ASCII `suffix`
      made of characters no non-ASCII character lower-cases to. */
  predicate EndsWithIgnoreCase(s: string, suffix: string) {
    |suffix| <= |s|
    && forall i | 0 <= i < |suffix| :: AsciiLower(s[|s| - |suffix| + i]) == suffix[i]
  }

  /** Decimal numeral of a natural number, as JavaScript's `${n}`. */
  function Numeral(n: nat): (r: string)
    ensures |r| >= 1
    ensures n < 10 ==> r == [('0' as int + n) as char]
  {
    if n < 10 then [('0' as int + n) as char]
    else Numeral(n / 10) + [('0' as int + n % 10) as char]
  }
}

=== FILE: text_chunker.dfy ===
/** Sentence-aware chunking of extracted document text
    (backend/documents/utils/text-chunker.ts). */
module TextChunker {
  import opened Sequences
  import opened Strings

  /** Defaults of `chunkText(text, chunkSize = 500, overlap = 50)`. */
  const DefaultChunkSize: int := 500
  const DefaultOverlap: int := 50

  /** The characters of the sentence-splitting class `[.!?]`. */
  predicate IsTerminator(c: char) {
    c == '.' || c == '!' || c == '?'
  }

  predicate NoTerminator(s: string) {
    forall i | 0 <= i < |s| :: !IsTerminator(s[i])
  }

  predicate AllTerminators(s: string) {
    forall i | 0 <= i < |s| :: IsTerminator(s[i])
  }

  /** Index of the first terminator in `s`, or `|s|` when there is none. */
  function FirstTerminator(s: string): (k: nat)
    ensures k <= |s|
    ensures NoTerminator(s[..k])
    ensures k < |s| ==> IsTerminator(s[k])
  {
    if |s| == 0 || IsTerminator(s[0]) then 0
    else
      var k := 1 + FirstTerminator(s[1..]);
      assert s[..k] == [s[0]] + s[1..][..k - 1];
      k
  }

  /** Length of the run of terminators that starts `s`. */
  function TerminatorRun(s: string): (n: nat)
    ensures n <= |s|
    ensures AllTerminators(s[..n])
    ensures n < |s| ==> !IsTerminator(s[n])
  {
    if |s| == 0 || !IsTerminator(s[0]) then 0
    else
      var n := 1 + TerminatorRun(s[1..]);
      assert s[..n] == [s[0]] + s[1..][..n - 1];
      n
  }

  /** `text.split(/[.!?]+/)`: the pieces between maximal runs of terminators,
      including an empty first or last piece when the text starts or ends
      with a run. */
  function SplitOnTerminators(s: string): (r: seq<string>)
    ensures |r| >= 1
    ensures forall k | 0 <= k < |r| :: NoTerminator(r[k])
    decreases |s|
  {
    var k := FirstTerminator(s);
    if k == |s| then [s]
    else
      var n := TerminatorRun(s[k..]);
      [s[..k]] + SplitOnTerminators(s[k + n..])
  }

  /** The separating runs matched by the split, in order. */
  function TerminatorRuns(s: string): (r: seq<string>)
    decreases |s|
  {
    var k := FirstTerminator(s);
    if k == |s| then []
    else
      var n := TerminatorRun(s[k..]);
      [s[k..k + n]] + TerminatorRuns(s[k + n..])
  }

  /** `pieces[0] + seps[0] + pieces[1] + ... + pieces[last]`. */
  function Weave(pieces: seq<string>, seps: seq<string>): string
    requires |pieces| == |seps| + 1
  {
    if |seps| == 0 then pieces[0]
    else pieces[0] + seps[0] + Weave(pieces[1..], seps[1..])
  }

  lemma RunsShape(s: string)
    ensures |TerminatorRuns(s)| + 1 == |SplitOnTerminators(s)|
    ensures forall k | 0 <= k < |TerminatorRuns(s)| ::
      |TerminatorRuns(s)[k]| > 0 && AllTerminators(TerminatorRuns(s)[k])
  {
    RunsCount(s);
    RunsAreTerminators(s);
  }

  lemma {:induction false} RunsCount(s: string)
    ensures |TerminatorRuns(s)| + 1 == |SplitOnTerminators(s)|
    decreases |s|
  {
    var k := FirstTerminator(s);
    if k < |s| {
      var n := TerminatorRun(s[k..]);
      var rest := s[k + n..];
      RunsCount(rest);
      assert |TerminatorRuns(s)| == 1 + |TerminatorRuns(rest)|;
      assert |SplitOnTerminators(s)| == 1 + |SplitOnTerminators(rest)|;
    }
  }

  lemma {:induction false} RunsAreTerminators(s: string)
    ensures forall k | 0 <= k < |TerminatorRuns(s)| ::
      |TerminatorRuns(s)[k]| > 0 && AllTerminators(TerminatorRuns(s)[k])
    decreases |s|
  {
    var k := FirstTerminator(s);
    if k < |s| {
      var n := TerminatorRun(s[k..]);
      RunsAreTerminators(s[k + n..]);
      var run := s[k..k + n];
      var later := TerminatorRuns(s[k + n..]);
      assert s[k..][0] == s[k];
      assert run == s[k..][..n];
      assert |run| > 0 && AllTerminators(run);
      assert TerminatorRuns(s) == [run] + later;
      forall j | 0 <= j < |TerminatorRuns(s)|
        ensures |TerminatorRuns(s)[j]| > 0 && AllTerminators(TerminatorRuns(s)[j])
      {
        if j > 0 { assert TerminatorRuns(s)[j] == later[j - 1]; }
      }
    }
  }

  /** The split loses nothing: weaving the pieces back together with the
      non-empty terminator runs between them gives the text back. Since the
      pieces hold no terminator, the runs are maximal. */
  lemma {:induction false} SplitRoundTrip(s: string)
    ensures |TerminatorRuns(s)| + 1 == |SplitOnTerminators(s)|
    ensures forall k | 0 <= k < |TerminatorRuns(s)| ::
      |TerminatorRuns(s)[k]| > 0 && AllTerminators(TerminatorRuns(s)[k])
    ensures Weave(SplitOnTerminators(s), TerminatorRuns(s)) == s
    decreases |s|
  {
    RunsShape(s);
    var k := FirstTerminator(s);
    if k < |s| {
      var n := TerminatorRun(s[k..]);
      var rest := s[k + n..];
      SplitRoundTrip(rest);
      var ps := SplitOnTerminators(s);
      var rs := TerminatorRuns(s);
      assert ps == [s[..k]] + SplitOnTerminators(rest);
      assert rs == [s[k..k + n]] + TerminatorRuns(rest);
      assert Weave(ps, rs) == s[..k] + s[k..k + n] + rest;
      ThreeWay(s, k, k + n);
    }
  }

  /** The sentences `chunkText` works on: the split pieces that are not
      whitespace-only, untrimmed (`filter(s => s.trim().length > 0)`). */
  function NonBlank(pieces: seq<string>): (r: seq<string>)
    ensures |r| <= |pieces|
    ensures forall k | 0 <= k < |r| :: !IsBlank(r[k]) && r[k] in pieces
    ensures forall k | 0 <= k < |pieces| :: !IsBlank(pieces[k]) ==> pieces[k] in r
  {
    if |pieces| == 0 then []
    else if IsBlank(pieces[0]) then NonBlank(pieces[1..])
    else [pieces[0]] + NonBlank(pieces[1..])
  }

  function Sentences(text: string): (r: seq<string>)
    ensures forall k | 0 <= k < |r| :: !IsBlank(r[k]) && NoTerminator(r[k])
  {
    NonBlank(SplitOnTerminators(text))
  }

  /** `estimateTokens`: `Math.ceil(text.length / 4)`. */
  function EstimateTokens(s: string): (n: nat)
    ensures |s| <= 4 * n < |s| + 4
  {
    (|s| + 3) / 4
  }

  /** `Math.ceil(x / 4)` for an integer `x`, negative values included. */
  function CeilQuarter(x: int): (c: int)
    ensures x <= 4 * c < x + 4
  {
    -((-x) / 4)
  }

  /** `getOverlapText`: the words of `text` split at single spaces; the last
      `min(#words, ceil(overlap/4))` of them taken by `slice(-m)` and joined
      with single spaces. */
  function OverlapText(text: string, overlap: int): (r: string)
    ensures IsSuffix(r, text)
  {
    var words := SplitOn(text, ' ');
    var c := CeilQuarter(overlap);
    var m := if |words| < c then |words| else c;
    var tail := SliceFrom(words, -m);
    JoinSplit(text, ' ');
    JoinTailIsSuffix(words, [' '], |words| - |tail|);
    assert words[|words| - |tail|..] == tail;
    Join(tail, [' '])
  }

  /** With a positive word budget the overlap is exactly the last
      `min(#words, ceil(overlap/4))` words of the text. */
  lemma OverlapIsLastWords(text: string, overlap: int)
    requires CeilQuarter(overlap) > 0
    ensures var words := SplitOn(text, ' ');
            var c := CeilQuarter(overlap);
            var m := if |words| < c then |words| else c;
            SplitOn(OverlapText(text, overlap), ' ') == words[|words| - m..]
  {
    var words := SplitOn(text, ' ');
    var c := CeilQuarter(overlap);
    var m := if |words| < c then |words| else c;
    OverlapTextIsTail(text, overlap);
    TailOfFree(words, ' ', |words| - m);
    SplitJoin(words[|words| - m..], ' ');
  }

  lemma OverlapTextIsTail(text: string, overlap: int)
    requires CeilQuarter(overlap) > 0
    ensures var words := SplitOn(text, ' ');
            var c := CeilQuarter(overlap);
            var m := if |words| < c then |words| else c;
            OverlapText(text, overlap) == Join(words[|words| - m..], [' '])
  {
    var words := SplitOn(text, ' ');
    var c := CeilQuarter(overlap);
    var m := if |words| < c then |words| else c;
    assert SliceFrom(words, -m) == words[|words| - m..];
  }

  /** `slice(-0)` is `slice(0)`: when `ceil(overlap/4)` is zero (overlap in
      -3..0) the whole previous chunk is carried over, not nothing. */
  lemma OverlapZeroCarriesWholeChunk(text: string, overlap: int)
    requires CeilQuarter(overlap) == 0
    ensures OverlapText(text, overlap) == text
  {
    var words := SplitOn(text, ' ');
    assert SliceFrom(words, 0) == words;
    JoinSplit(text, ' ');
  }

  /** The running state of the loop: pushed chunks, the running chunk and
      its running token count. */
  datatype ChunkState = ChunkState(chunks: seq<string>, current: string, tokens: int)

  const Initial := ChunkState([], "", 0)

  /** The rollover condition of the loop. */
  predicate Flushes(st: ChunkState, sentence: string, chunkSize: int) {
    st.tokens + EstimateTokens(sentence) > chunkSize && |st.current| > 0
  }

  /** One iteration of the sentence loop. The sentence is never split: it
      always ends the new running chunk. */
  function Step(st: ChunkState, sentence: string, chunkSize: int, overlap: int): (r: ChunkState)
    ensures r.chunks == st.chunks + (if Flushes(st, sentence, chunkSize) then [Trim(st.current)] else [])
    ensures IsSuffix(sentence, r.current)
    ensures Flushes(st, sentence, chunkSize) ==>
      r.current == OverlapText(st.current, overlap) + " " + sentence
      && r.tokens == EstimateTokens(r.current)
    ensures !Flushes(st, sentence, chunkSize) ==>
      st.current <= r.current && r.tokens == st.tokens + EstimateTokens(sentence)
  {
    if Flushes(st, sentence, chunkSize) then
      var cur := OverlapText(st.current, overlap) + " " + sentence;
      ChunkState(st.chunks + [Trim(st.current)], cur, EstimateTokens(cur))
    else
      var cur := st.current + (if |st.current| > 0 then " " else "") + sentence;
      ChunkState(st.chunks, cur, st.tokens + EstimateTokens(sentence))
  }

  /** Without a rollover the sentence is joined to the running chunk by
      exactly one space, or by nothing when the chunk is still empty. */
  lemma StepJoinsWithOneSpace(st: ChunkState, sentence: string, chunkSize: int, overlap: int)
    requires !Flushes(st, sentence, chunkSize)
    ensures var r := Step(st, sentence, chunkSize, overlap);
            |r.current| == |st.current| + (if |st.current| > 0 then 1 else 0) + |sentence|
            && (|st.current| > 0 ==> r.current[|st.current|] == ' ')
  {
  }

  function Fold(st: ChunkState, sentences: seq<string>, chunkSize: int, overlap: int): ChunkState
    decreases |sentences|
  {
    if |sentences| == 0 then st
    else Fold(Step(st, sentences[0], chunkSize, overlap), sentences[1..], chunkSize, overlap)
  }

  /** The final `filter(chunk => chunk.length > 0)`. */
  function NonEmpty(xs: seq<string>): (r: seq<string>)
    ensures forall k | 0 <= k < |r| :: |r[k]| > 0 && r[k] in xs
    ensures forall k | 0 <= k < |xs| :: |xs[k]| > 0 ==> xs[k] in r
  {
    if |xs| == 0 then []
    else if |xs[0]| == 0 then NonEmpty(xs[1..])
    else [xs[0]] + NonEmpty(xs[1..])
  }

  /** `filter` distributes over concatenation: the kept pieces stay in their
      original order, each kept as often as it occurs. */
  lemma {:induction false} NonBlankAppend(a: seq<string>, b: seq<string>)
    ensures NonBlank(a + b) == NonBlank(a) + NonBlank(b)
  {
    if |a| == 0 {
      assert a + b == b;
    } else {
      assert (a + b)[0] == a[0];
      assert (a + b)[1..] == a[1..] + b;
      NonBlankAppend(a[1..], b);
      if IsBlank(a[0]) {
        assert NonBlank(a + b) == NonBlank(a[1..] + b);
      } else {
        assert NonBlank(a + b) == [a[0]] + NonBlank(a[1..] + b);
        assert [a[0]] + (NonBlank(a[1..]) + NonBlank(b)) == ([a[0]] + NonBlank(a[1..])) + NonBlank(b);
      }
    }
  }

  /** The same for the final filter on chunk length. */
  lemma {:induction false} NonEmptyAppend(a: seq<string>, b: seq<string>)
    ensures NonEmpty(a + b) == NonEmpty(a) + NonEmpty(b)
  {
    if |a| == 0 {
      assert a + b == b;
    } else {
      assert (a + b)[0] == a[0];
      assert (a + b)[1..] == a[1..] + b;
      NonEmptyAppend(a[1..], b);
      if |a[0]| == 0 {
        assert NonEmpty(a + b) == NonEmpty(a[1..] + b);
      } else {
        assert NonEmpty(a + b) == [a[0]] + NonEmpty(a[1..] + b);
        assert [a[0]] + (NonEmpty(a[1..]) + NonEmpty(b)) == ([a[0]] + NonEmpty(a[1..])) + NonEmpty(b);
      }
    }
  }

  /** On a single piece each filter keeps it exactly when it passes the test;
      with the two lemmas above this determines both filters completely. */
  lemma FiltersOnOnePiece(x: string)
    ensures NonBlank([x]) == if IsBlank(x) then [] else [x]
    ensures NonEmpty([x]) == if |x| == 0 then [] else [x]
  {
    assert [x][1..] == [];
  }

  /** Chunks pushed by the loop plus the last running chunk if non-blank. */
  function Finish(st: ChunkState): seq<string> {
    if !IsBlank(st.current) then st.chunks + [Trim(st.current)] else st.chunks
  }

  /** `chunkText(text, chunkSize, overlap)`. */
  function ChunkText(text: string, chunkSize: int, overlap: int): (r: seq<string>)
    ensures forall k | 0 <= k < |r| :: |r[k]| > 0
    ensures Sentences(text) == [] ==> r == []
  {
    var st := Fold(Initial, Sentences(text), chunkSize, overlap);
    NonEmpty(Finish(st))
  }

  // ----- Every chunk is trimmed and free of terminators -----

  lemma NoTerminatorInfix(s: string, r: string)
    requires NoTerminator(s) && IsInfix(r, s)
    ensures NoTerminator(r)
  {
    var j :| 0 <= j <= |s| - |r| && OccursAt(s, r, j);
    OccursElements(s, r, j);
  }

  lemma NoTerminatorTrim(s: string)
    requires NoTerminator(s)
    ensures NoTerminator(Trim(s))
  {
    if Trim(s) != [] {
      TrimOccurs(s);
      NoTerminatorInfix(s, Trim(s));
    }
  }

  predicate WellFormed(st: ChunkState) {
    NoTerminator(st.current)
    && forall k | 0 <= k < |st.chunks| :: NoTerminator(st.chunks[k]) && Trim(st.chunks[k]) == st.chunks[k]
  }

  lemma StepWellFormed(st: ChunkState, sentence: string, chunkSize: int, overlap: int)
    requires WellFormed(st) && NoTerminator(sentence)
    ensures WellFormed(Step(st, sentence, chunkSize, overlap))
  {
    var r := Step(st, sentence, chunkSize, overlap);
    if Flushes(st, sentence, chunkSize) {
      var ov := OverlapText(st.current, overlap);
      InfixOfSuffix(ov, st.current);
      NoTerminatorInfix(st.current, ov);
      NoTerminatorConcat(ov, " ");
      NoTerminatorConcat(ov + " ", sentence);
      assert r.current == ov + " " + sentence;
      NoTerminatorTrim(st.current);
      TrimIdempotent(st.current);
      ChunksSnoc(st.chunks, Trim(st.current));
    } else {
      var sep := if |st.current| > 0 then " " else "";
      NoTerminatorConcat(st.current, sep);
      NoTerminatorConcat(st.current + sep, sentence);
      assert r.current == st.current + sep + sentence;
      assert r.chunks == st.chunks;
    }
  }

  lemma NoTerminatorConcat(a: string, b: string)
    requires NoTerminator(a) && NoTerminator(b)
    ensures NoTerminator(a + b)
  {
    forall i | 0 <= i < |a + b| ensures !IsTerminator((a + b)[i]) {
      if i < |a| { assert (a + b)[i] == a[i]; } else { assert (a + b)[i] == b[i - |a|]; }
    }
  }

  lemma ChunksSnoc(cs: seq<string>, c: string)
    requires forall k | 0 <= k < |cs| :: NoTerminator(cs[k]) && Trim(cs[k]) == cs[k]
    requires NoTerminator(c) && Trim(c) == c
    ensures forall k | 0 <= k < |cs + [c]| :: NoTerminator((cs + [c])[k]) && Trim((cs + [c])[k]) == (cs + [c])[k]
  {
  }

  lemma {:induction false} FoldWellFormed(st: ChunkState, ss: seq<string>, chunkSize: int, overlap: int)
    requires WellFormed(st)
    requires forall k | 0 <= k < |ss| :: NoTerminator(ss[k])
    ensures WellFormed(Fold(st, ss, chunkSize, overlap))
    decreases |ss|
  {
    if |ss| > 0 {
      StepWellFormed(st, ss[0], chunkSize, overlap);
      FoldWellFormed(Step(st, ss[0], chunkSize, overlap), ss[1..], chunkSize, overlap);
    }
  }

  /** Every chunk is non-empty, equal to its own trim, and contains no `.`,
      `!` or `?`: the split removed them all and nothing adds them back. */
  lemma ChunksTrimmedWithoutTerminators(text: string, chunkSize: int, overlap: int)
    ensures forall k | 0 <= k < |ChunkText(text, chunkSize, overlap)| ::
      var c := ChunkText(text, chunkSize, overlap)[k];
      |c| > 0 && Trim(c) == c && NoTerminator(c)
  {
    var st := Fold(Initial, Sentences(text), chunkSize, overlap);
    FoldWellFormed(Initial, Sentences(text), chunkSize, overlap);
    FinishClean(st);
    var all := Finish(st);
    var r := ChunkText(text, chunkSize, overlap);
    forall k | 0 <= k < |r| ensures |r[k]| > 0 && Trim(r[k]) == r[k] && NoTerminator(r[k]) {
      var j :| 0 <= j < |all| && all[j] == r[k];
    }
  }

  /** The chunks finished from a well-formed state are trimmed and free of terminators. */
  lemma FinishClean(st: ChunkState)
    requires WellFormed(st)
    ensures forall k | 0 <= k < |Finish(st)| :: NoTerminator(Finish(st)[k]) && Trim(Finish(st)[k]) == Finish(st)[k]
  {
    var all := Finish(st);
    if !IsBlank(st.current) {
      NoTerminatorTrim(st.current);
      TrimIdempotent(st.current);
      assert all[|st.chunks|] == Trim(st.current);
    }
  }

  // ----- No sentence is lost -----

  /** A processed sentence is held either, trimmed, by a pushed chunk or,
      whole, by the running chunk. */
  predicate Covered(s: string, st: ChunkState) {
    (exists k | 0 <= k < |st.chunks| :: IsInfix(Trim(s), st.chunks[k]))
    || IsInfix(s, st.current)
  }

  lemma StepKeepsCovered(st: ChunkState, sentence: string, chunkSize: int, overlap: int, s: string)
    requires Covered(s, st) && !IsBlank(s)
    ensures Covered(s, Step(st, sentence, chunkSize, overlap))
  {
    var r := Step(st, sentence, chunkSize, overlap);
    if exists k | 0 <= k < |st.chunks| :: IsInfix(Trim(s), st.chunks[k]) {
      var k :| 0 <= k < |st.chunks| && IsInfix(Trim(s), st.chunks[k]);
      assert r.chunks[k] == st.chunks[k];
    } else if Flushes(st, sentence, chunkSize) {
      var j :| 0 <= j <= |st.current| - |s| && OccursAt(st.current, s, j);
      TrimKeepsInfix(s, st.current, j);
      assert r.chunks[|st.chunks|] == Trim(st.current);
    } else {
      assert r.current == st.current + r.current[|st.current|..];
      InfixExtendRight(s, st.current, r.current[|st.current|..]);
    }
  }

  lemma StepCoversSentence(st: ChunkState, sentence: string, chunkSize: int, overlap: int)
    ensures Covered(sentence, Step(st, sentence, chunkSize, overlap))
  {
    InfixOfSuffix(sentence, Step(st, sentence, chunkSize, overlap).current);
  }

  lemma {:induction false} FoldKeepsCovered(st: ChunkState, ss: seq<string>, chunkSize: int, overlap: int, s: string)
    requires Covered(s, st) && !IsBlank(s)
    ensures Covered(s, Fold(st, ss, chunkSize, overlap))
    decreases |ss|
  {
    if |ss| > 0 {
      StepKeepsCovered(st, ss[0], chunkSize, overlap, s);
      FoldKeepsCovered(Step(st, ss[0], chunkSize, overlap), ss[1..], chunkSize, overlap, s);
    }
  }

  lemma {:induction false} FoldCovers(st: ChunkState, ss: seq<string>, chunkSize: int, overlap: int, i: nat)
    requires i < |ss| && forall k | 0 <= k < |ss| :: !IsBlank(ss[k])
    ensures Covered(ss[i], Fold(st, ss, chunkSize, overlap))
    decreases |ss|
  {
    var st' := Step(st, ss[0], chunkSize, overlap);
    if i == 0 {
      StepCoversSentence(st, ss[0], chunkSize, overlap);
      FoldKeepsCovered(st', ss[1..], chunkSize, overlap, ss[0]);
    } else {
      FoldCovers(st', ss[1..], chunkSize, overlap, i - 1);
      assert ss[1..][i - 1] == ss[i];
    }
  }

  /** A covered sentence is held, trimmed, by one of the finished chunks. */
  lemma FinishHolds(st: ChunkState, s: string)
    requires Covered(s, st) && !IsBlank(s)
    ensures exists k | 0 <= k < |Finish(st)| :: IsInfix(Trim(s), Finish(st)[k])
  {
    var all := Finish(st);
    if exists k | 0 <= k < |st.chunks| :: IsInfix(Trim(s), st.chunks[k]) {
      var k :| 0 <= k < |st.chunks| && IsInfix(Trim(s), st.chunks[k]);
      assert all[k] == st.chunks[k];
    } else {
      var j :| 0 <= j <= |st.current| - |s| && OccursAt(st.current, s, j);
      BlankInfix(st.current, s, j);
      TrimKeepsInfix(s, st.current, j);
      assert all[|st.chunks|] == Trim(st.current);
    }
  }

  lemma BlankInfix(x: string, s: string, j: nat)
    requires OccursAt(x, s, j) && !IsBlank(s)
    ensures !IsBlank(x)
  {
    OccursElements(x, s, j);
    var p :| 0 <= p < |s| && !IsSpace(s[p]);
    assert !IsSpace(x[j + p]);
  }

  /** The final filter drops nothing that holds a non-empty piece. */
  lemma NonEmptyKeepsHolders(xs: seq<string>, t: string, k: nat)
    requires k < |xs| && |t| > 0 && IsInfix(t, xs[k])
    ensures exists m | 0 <= m < |NonEmpty(xs)| :: IsInfix(t, NonEmpty(xs)[m])
  {
    var r := NonEmpty(xs);
    assert xs[k] in r;
    var m :| 0 <= m < |r| && r[m] == xs[k];
  }

  /** No sentence is lost: the trim of every sentence of the split is a
      substring of some output chunk, whole, even when it alone exceeds the
      chunk size. */
  lemma NoSentenceLost(text: string, chunkSize: int, overlap: int, i: nat)
    requires i < |Sentences(text)|
    ensures exists m | 0 <= m < |ChunkText(text, chunkSize, overlap)| ::
      IsInfix(Trim(Sentences(text)[i]), ChunkText(text, chunkSize, overlap)[m])
  {
    var ss := Sentences(text);
    var st := Fold(Initial, ss, chunkSize, overlap);
    FoldCovers(Initial, ss, chunkSize, overlap, i);
    FinishHolds(st, ss[i]);
    var all := Finish(st);
    var k :| 0 <= k < |all| && IsInfix(Trim(ss[i]), all[k]);
    var t := Trim(ss[i]);
    assert |t| > 0;
    NonEmptyKeepsHolders(all, t, k);
    assert ChunkText(text, chunkSize, overlap) == NonEmpty(all);
  }

  // ----- Text within budget becomes a single chunk -----

  /** Sum of the sentences' token estimates. */
  function SumTokens(ss: seq<string>): nat {
    if |ss| == 0 then 0 else EstimateTokens(ss[0]) + SumTokens(ss[1..])
  }

  lemma {:induction false} SumTokensAppend(a: seq<string>, b: seq<string>)
    ensures SumTokens(a + b) == SumTokens(a) + SumTokens(b)
  {
    if |a| == 0 {
      assert a + b == b;
    } else {
      SumTokensAppend(a[1..], b);
      assert (a + b)[0] == a[0];
      assert (a + b)[1..] == a[1..] + b;
    }
  }

  lemma {:induction false} FoldWithinBudget(done: seq<string>, rest: seq<string>, chunkSize: int, overlap: int)
    requires |done| >= 1 && |done[0]| > 0
    requires SumTokens(done + rest) <= chunkSize
    ensures Fold(ChunkState([], Join(done, " "), SumTokens(done)), rest, chunkSize, overlap)
         == ChunkState([], Join(done + rest, " "), SumTokens(done + rest))
    decreases |rest|
  {
    if |rest| == 0 {
      assert done + rest == done;
    } else {
      var st := ChunkState([], Join(done, " "), SumTokens(done));
      var x := rest[0];
      var done' := done + [x];
      SumTokensAppend(done', rest[1..]);
      assert done' + rest[1..] == done + rest;
      SumTokensAppend(done, [x]);
      assert SumTokens([x]) == EstimateTokens(x);
      JoinStartsWithFirst(done, " ");
      assert !Flushes(st, x, chunkSize);
      JoinSnoc(done, x, " ");
      assert Step(st, x, chunkSize, overlap) == ChunkState([], Join(done', " "), SumTokens(done'));
      assert done'[0] == done[0];
      FoldWithinBudget(done', rest[1..], chunkSize, overlap);
    }
  }

  lemma NonBlankPrefix(x: string, y: string)
    requires x <= y && !IsBlank(x)
    ensures !IsBlank(y)
  {
    var p :| 0 <= p < |x| && !IsSpace(x[p]);
    assert y[p] == x[p];
  }

  lemma FoldAllWithinBudget(ss: seq<string>, chunkSize: int, overlap: int)
    requires |ss| > 0 && |ss[0]| > 0
    requires SumTokens(ss) <= chunkSize
    ensures Fold(Initial, ss, chunkSize, overlap) == ChunkState([], Join(ss, " "), SumTokens(ss))
  {
    var first := Step(Initial, ss[0], chunkSize, overlap);
    assert first == ChunkState([], Join([ss[0]], " "), SumTokens([ss[0]]));
    assert [ss[0]] + ss[1..] == ss;
    FoldWithinBudget([ss[0]], ss[1..], chunkSize, overlap);
  }

  /** If the sentences' estimates sum to at most the chunk size, the result is
      exactly one chunk: the trimmed single-space join of the sentences. */
  lemma SingleChunkWithinBudget(text: string, chunkSize: int, overlap: int)
    requires |Sentences(text)| > 0
    requires SumTokens(Sentences(text)) <= chunkSize
    ensures ChunkText(text, chunkSize, overlap) == [Trim(Join(Sentences(text), " "))]
  {
    var ss := Sentences(text);
    assert !IsBlank(ss[0]);
    FoldAllWithinBudget(ss, chunkSize, overlap);
    var joined := Join(ss, " ");
    JoinStartsWithFirst(ss, " ");
    NonBlankPrefix(ss[0], joined);
    FinishOne(joined, SumTokens(ss));
  }

  /** A non-blank running chunk alone becomes the one chunk returned. */
  lemma FinishOne(current: string, tokens: int)
    requires !IsBlank(current)
    ensures NonEmpty(Finish(ChunkState([], current, tokens))) == [Trim(current)]
  {
    var all := Finish(ChunkState([], current, tokens));
    assert all == [Trim(current)];
    assert |Trim(current)| > 0;
    assert NonEmpty(all[1..]) == [];
  }
}

=== FILE: types.dfy ===
/** Record shapes of backend/documents/types.ts and the error values the
    handlers throw. */
module Types {
  import opened Wrappers

  /** An embedding: the model's output as numbers (IEEE doubles in the source,
      reals here). */
  type Vector = seq<real>

  newtype byte = b: int | 0 <= b < 256

  /** The columns the upload writes for a new document; its id, upload date
      and chunk count are assigned by the store. */
  datatype Document = Document(filename: string, content: string, fileSize: nat)

  /** A stored chunk as the upload writes it; its id and creation time are
      assigned by the store. */
  datatype DocumentChunk = DocumentChunk(
    documentId: string, content: string, chunkIndex: nat, embedding: Option<Vector>)

  datatype SearchResult = SearchResult(
    content: string, score: real, documentId: string, filename: string, chunkId: string)

  datatype UploadResponse = UploadResponse(id: string, filename: string, chunks: nat, processed: bool)

  datatype SearchResponse = SearchResponse(results: seq<SearchResult>, totalResults: nat)

  datatype GenerateResponse = GenerateResponse(answer: string, sources: seq<string>)

  /** The two `APIError` kinds the handlers raise. */
  datatype ErrorCode = InvalidArgument | Internal

  datatype ApiError = ApiError(code: ErrorCode, message: string)

  /** A thrown value as a `catch` block sees it: an `APIError`, another
      `Error` with its message, or something that is not an `Error`. */
  datatype Fault = Api(err: ApiError) | Error(message: string) | NonError

  /** An initialised Hugging Face pipeline, known only by identity. */
  datatype ModelHandle = ModelHandle(id: nat)
}

=== FILE: upload.dfy ===
/** The upload endpoint (`upload`): read the file field of a multipart body,
    accept only `.pdf` filenames, extract the text, refuse a blank text,
    create the document row, chunk the text, embed the chunks, store each
    chunk with its index and embedding, and finally record the chunk count.
    Every write the store receives is kept, in order, in the outcome. */
module Upload {
  import opened Wrappers
  import opened Sequences
  import opened Strings
  import opened Types
  import opened LazyHandle
  import opened TextChunker
  import opened Embeddings
  import opened PdfExtractor
  import opened Multipart

  const PdfSuffix := ".pdf"
  const NotPdf := "Only PDF files are supported"
  const NoExtractedText := "No text could be extracted from the PDF"
  const NoDocumentRecord := "Failed to create document record"
  const ProcessingFailed := "Failed to process document"

  /** A write the store performs. */
  datatype Write =
    | DocumentRow(doc: Document)
    | ChunkRow(chunk: DocumentChunk, withVector: bool)
    | ChunkCount(documentId: string, count: nat)

  /** The store's answers: the id returned by the document insert (None when
      it returns no row) or what it throws; for chunk `i`, whether the insert
      filling the vector column succeeds, and what the plain insert tried
      after it throws (None for success); what the count update throws. */
  datatype Store = Store(
    createDocument: Result<Option<string>, Fault>,
    vectorInsert: nat -> bool,
    textInsert: nat -> Option<Fault>,
    countUpdate: Option<Fault>)

  /** Everything an upload depends on: the Content-Type header, the body, the
      filename decoder, the PDF parser, the store and the embedding model. */
  datatype Env = Env(
    contentType: Option<string>,
    body: seq<byte>,
    decode: seq<byte> -> string,
    parse: PdfParser,
    store: Store,
    cachedEmbedder: Option<ModelHandle>,
    loadEmbedder: Option<ModelHandle>,
    embed: Embedder)

  datatype Outcome = Outcome(result: Result<UploadResponse, ApiError>, writes: seq<Write>, embedder: Option<ModelHandle>)

  /** The row stored for chunk `i`. */
  function RowFor(id: string, chunks: seq<string>, vs: seq<Vector>, i: nat, withVector: bool): (w: Write)
    requires i < |chunks| && i < |vs|
    ensures w.ChunkRow? && w.chunk.chunkIndex == i && w.chunk.content == chunks[i]
    ensures w.chunk.documentId == id && w.chunk.embedding == Some(vs[i])
  {
    ChunkRow(DocumentChunk(id, chunks[i], i, Some(vs[i])), withVector)
  }

  /** A chunk row that belongs to document `id` and carries the chunk and
      the embedding of its own index. */
  predicate Faithful(w: Write, id: string, chunks: seq<string>, vs: seq<Vector>) {
    w.ChunkRow? && w.chunk.documentId == id && w.chunk.chunkIndex < |chunks| && w.chunk.chunkIndex < |vs|
    && w.chunk.content == chunks[w.chunk.chunkIndex] && w.chunk.embedding == Some(vs[w.chunk.chunkIndex])
  }

  /** The inserts of chunks `from..`: every chunk is attempted, the vector
      insert first and the plain insert only when that throws. The writes
      that succeed, and the first failure by index (None when all succeed). */
  function InsertChunks(id: string, chunks: seq<string>, vs: seq<Vector>, store: Store, from: nat)
    : (r: (seq<Write>, Option<Fault>))
    requires |vs| == |chunks| && from <= |chunks|
    ensures forall k | 0 <= k < |r.0| :: Faithful(r.0[k], id, chunks, vs) && from <= r.0[k].chunk.chunkIndex
    ensures r.1.None? <==> forall i | from <= i < |chunks| :: store.vectorInsert(i) || store.textInsert(i).None?
    ensures r.1.None? ==> |r.0| == |chunks| - from
    ensures r.1.None? ==> forall k | 0 <= k < |r.0| :: r.0[k] == RowFor(id, chunks, vs, from + k, store.vectorInsert(from + k))
    decreases |chunks| - from
  {
    if from == |chunks| then ([], None)
    else
      var (rest, failure) := InsertChunks(id, chunks, vs, store, from + 1);
      if store.vectorInsert(from) then
        ([RowFor(id, chunks, vs, from, true)] + rest, failure)
      else
        match store.textInsert(from)
        case None => ([RowFor(id, chunks, vs, from, false)] + rest, failure)
        case Some(f) => (rest, Some(f))
  }

  /** The error an upload reports for a thrown value: an `APIError` as it is,
      anything else as the internal "Failed to process document". */
  function Classify(f: Fault): (e: ApiError)
    ensures f.Api? ==> e == f.err
    ensures !f.Api? ==> e == ApiError(Internal, ProcessingFailed)
  {
    if f.Api? then f.err else ApiError(Internal, ProcessingFailed)
  }

  /** The collaborators the handler calls once the file field is read: the
      PDF extractor, the chunker, the embedding of a list of chunks (with the
      embedding handle cached afterwards), the store, and the embedding
      handle cached before the request. */
  datatype Services = Services(
    extract: seq<byte> -> Result<string, string>,
    chunk: string -> seq<string>,
    embedAll: seq<string> -> (Result<seq<Vector>, string>, Option<ModelHandle>),
    store: Store,
    cachedEmbedder: Option<ModelHandle>)

  /** The services of a request: `extractTextFromPDF` with its PDF parser,
      `chunkText` with the default size and overlap, and `generateEmbeddings`
      with its embedding model. */
  function ServicesOf(env: Env): Services {
    Services(
      c => ExtractText(c, env.parse),
      t => ChunkText(t, DefaultChunkSize, DefaultOverlap),
      cs => GenerateEmbeddingsSpec(cs, env.cachedEmbedder, env.loadEmbedder, env.embed),
      env.store,
      env.cachedEmbedder)
  }

  /** The embedding service answers a list of texts with one vector per text
      whenever it succeeds, as the handler's `embeddings[index]` relies on. */
  ghost predicate OneVectorPerText(s: Services) {
    forall texts :: s.embedAll(texts).0.Success? ==> |s.embedAll(texts).0.value| == |texts|
  }

  /** `generateEmbeddings` keeps that promise. */
  lemma RequestServicesValid(env: Env)
    ensures OneVectorPerText(ServicesOf(env))
    ensures ServicesOf(env).store == env.store && ServicesOf(env).cachedEmbedder == env.cachedEmbedder
  {
    var s := ServicesOf(env);
    forall texts | s.embedAll(texts).0.Success?
      ensures |s.embedAll(texts).0.value| == |texts|
    {
      assert s.embedAll(texts) == GenerateEmbeddingsSpec(texts, env.cachedEmbedder, env.loadEmbedder, env.embed);
    }
  }

  /** Everything after the document row exists: chunking, embedding, chunk
      inserts and the count update. */
  function StoreChunks(id: string, filename: string, text: string, s: Services)
    : (r: (Result<UploadResponse, Fault>, seq<Write>, Option<ModelHandle>))
    requires OneVectorPerText(s)
    ensures r.2 == s.embedAll(s.chunk(text)).1
    ensures s.embedAll(s.chunk(text)).0.Failure? ==>
              r.0 == Failure(Error(s.embedAll(s.chunk(text)).0.error)) && r.1 == []
    ensures r.0.Success? <==>
              s.embedAll(s.chunk(text)).0.Success? && s.store.countUpdate.None?
              && forall i | 0 <= i < |s.chunk(text)| :: s.store.vectorInsert(i) || s.store.textInsert(i).None?
    ensures r.0.Success? ==>
              var chunks := s.chunk(text);
              var vs := s.embedAll(chunks).0.value;
              r.0.value == UploadResponse(id, filename, |chunks|, true)
              && |r.1| == |chunks| + 1
              && (forall i | 0 <= i < |chunks| :: r.1[i] == RowFor(id, chunks, vs, i, s.store.vectorInsert(i)))
              && r.1[|chunks|] == ChunkCount(id, |chunks|)
    ensures forall k | 0 <= k < |r.1| && r.1[k].ChunkCount? :: k == |r.1| - 1 && r.0.Success?
  {
    var chunks := s.chunk(text);
    var (embedded, handle) := s.embedAll(chunks);
    match embedded
    case Failure(message) => (Failure(Error(message)), [], handle)
    case Success(vs) =>
      var (rows, failure) := InsertChunks(id, chunks, vs, s.store, 0);
      if failure.Some? then (Failure(failure.value), rows, handle)
      else if s.store.countUpdate.Some? then (Failure(s.store.countUpdate.value), rows, handle)
      else
        var written := rows + [ChunkCount(id, |chunks|)];
        assert forall i | 0 <= i < |chunks| :: written[i] == rows[i];
        (Success(UploadResponse(id, filename, |chunks|, true)), written, handle)
  }

  /** The checks before anything is written: the file field, the `.pdf`
      ending, the extraction and a non-blank text. The file field and the
      extracted text on success. */
  function Admit(field: Result<FileField, ApiError>, extract: seq<byte> -> Result<string, string>)
    : (r: Result<(FileField, string), Fault>)
    ensures field.Failure? ==> r == Failure(Api(field.error))
    ensures field.Success? && !EndsWithIgnoreCase(field.value.filename, PdfSuffix) ==>
              r == Failure(Api(ApiError(InvalidArgument, NotPdf)))
    ensures field.Success? && EndsWithIgnoreCase(field.value.filename, PdfSuffix)
            && extract(field.value.content).Failure? ==>
              r == Failure(Error(extract(field.value.content).error))
    ensures field.Success? && EndsWithIgnoreCase(field.value.filename, PdfSuffix)
            && extract(field.value.content).Success? && IsBlank(extract(field.value.content).value) ==>
              r == Failure(Api(ApiError(InvalidArgument, NoExtractedText)))
    ensures r.Success? ==>
              field.Success? && r.value == (field.value, extract(field.value.content).value)
              && EndsWithIgnoreCase(field.value.filename, PdfSuffix)
              && extract(field.value.content).Success? && !IsBlank(r.value.1)
  {
    match field
    case Failure(e) => Failure(Api(e))
    case Success(file) =>
    if !EndsWithIgnoreCase(file.filename, PdfSuffix) then Failure(Api(ApiError(InvalidArgument, NotPdf)))
    else
      match extract(file.content)
      case Failure(message) => Failure(Error(message))
      case Success(text) =>
        if IsBlank(text) then Failure(Api(ApiError(InvalidArgument, NoExtractedText)))
        else Success((file, text))
  }

  /** The body of the handler's `try` once the file field is read, with what
      it throws as a `Fault`. */
  function Process(field: Result<FileField, ApiError>, s: Services)
    : (r: (Result<UploadResponse, Fault>, seq<Write>, Option<ModelHandle>))
    requires OneVectorPerText(s)
    ensures Admit(field, s.extract).Failure? ==> r == (Failure(Admit(field, s.extract).error), [], s.cachedEmbedder)
    ensures Admit(field, s.extract).Success? && s.store.createDocument.Failure? ==>
              r == (Failure(s.store.createDocument.error), [], s.cachedEmbedder)
    ensures Admit(field, s.extract).Success? && s.store.createDocument == Success(None) ==>
              r == (Failure(Api(ApiError(Internal, NoDocumentRecord))), [], s.cachedEmbedder)
    ensures Admit(field, s.extract).Success? && s.store.createDocument.Success? && s.store.createDocument.value.Some? ==>
              var (file, text) := Admit(field, s.extract).value;
              var id := s.store.createDocument.value.value;
              var stored := StoreChunks(id, file.filename, text, s);
              r == (stored.0, [DocumentRow(Document(file.filename, text, |file.content|))] + stored.1, stored.2)
  {
    match Admit(field, s.extract)
    case Failure(f) => (Failure(f), [], s.cachedEmbedder)
    case Success((file, text)) =>
      match s.store.createDocument
      case Failure(f) => (Failure(f), [], s.cachedEmbedder)
      case Success(None) => (Failure(Api(ApiError(Internal, NoDocumentRecord))), [], s.cachedEmbedder)
      case Success(Some(id)) =>
        var stored := StoreChunks(id, file.filename, text, s);
        (stored.0, [DocumentRow(Document(file.filename, text, |file.content|))] + stored.1, stored.2)
  }

  /** The handler once the file field is read: the outcome of the `try`,
      with a thrown value turned into the error the handler reports. The
      checks fail in order (file field, `.pdf` ending in any letter case,
      extraction, non-blank text) before anything is written; an `APIError`
      is reported as it is and anything else as the internal processing
      failure. */
  function Handle(field: Result<FileField, ApiError>, s: Services): (o: Outcome)
    requires OneVectorPerText(s)
    ensures field.Failure? ==> o == Outcome(Failure(field.error), [], s.cachedEmbedder)
    ensures field.Success? && !EndsWithIgnoreCase(field.value.filename, PdfSuffix) ==>
              o == Outcome(Failure(ApiError(InvalidArgument, NotPdf)), [], s.cachedEmbedder)
    ensures field.Success? && EndsWithIgnoreCase(field.value.filename, PdfSuffix)
            && s.extract(field.value.content).Failure? ==>
              o == Outcome(Failure(ApiError(Internal, ProcessingFailed)), [], s.cachedEmbedder)
    ensures field.Success? && EndsWithIgnoreCase(field.value.filename, PdfSuffix)
            && s.extract(field.value.content).Success? && IsBlank(s.extract(field.value.content).value) ==>
              o == Outcome(Failure(ApiError(InvalidArgument, NoExtractedText)), [], s.cachedEmbedder)
    ensures o.writes == Process(field, s).1 && o.embedder == Process(field, s).2
    ensures o.result.Success? <==> Process(field, s).0.Success?
    ensures o.result.Success? ==> o.result.value == Process(field, s).0.value
    ensures Process(field, s).0.Failure? && Process(field, s).0.error.Api? ==>
              o.result == Failure(Process(field, s).0.error.err)
    ensures Process(field, s).0.Failure? && !Process(field, s).0.error.Api? ==>
              o.result == Failure(ApiError(Internal, ProcessingFailed))
  {
    var r := Process(field, s);
    match r.0
    case Success(response) => Outcome(Success(response), r.1, r.2)
    case Failure(f) => Outcome(Failure(Classify(f)), r.1, r.2)
  }

  /** `upload(request)`: the file field is read from the request, then
      handled with the request's services. A missing boundary or a missing
      file part is reported as its invalid argument before anything is
      written. */
  function Upload(env: Env): (o: Outcome)
    ensures Boundary(env.contentType).Failure? ==>
              o == Outcome(Failure(ApiError(InvalidArgument, NoBoundary)), [], env.cachedEmbedder)
    ensures Boundary(env.contentType).Success? && ReadFileField(env.contentType, env.body, env.decode).Failure? ==>
              o == Outcome(Failure(ApiError(InvalidArgument, NoFile)), [], env.cachedEmbedder)
    ensures ReadFileField(env.contentType, env.body, env.decode).Success? ==>
              o == Handle(ReadFileField(env.contentType, env.body, env.decode), ServicesOf(env))
  {
    RequestServicesValid(env);
    Handle(ReadFileField(env.contentType, env.body, env.decode), ServicesOf(env))
  }

  /** The writes of a document whose chunks were all stored: its row, then
      chunk `i` as row `i + 1`, then the count. */
  lemma DocumentThenChunks(d: Write, id: string, filename: string, text: string, s: Services)
    requires OneVectorPerText(s)
    requires StoreChunks(id, filename, text, s).0.Success?
    ensures var stored := StoreChunks(id, filename, text, s);
            var writes := [d] + stored.1;
            var chunks := s.chunk(text);
            var vs := s.embedAll(chunks).0.value;
            |vs| == |chunks| && |writes| == |chunks| + 2 && writes[0] == d
            && (forall i | 0 <= i < |chunks| :: writes[i + 1] == RowFor(id, chunks, vs, i, s.store.vectorInsert(i)))
            && writes[|writes| - 1] == ChunkCount(id, |chunks|)
  {
    var stored := StoreChunks(id, filename, text, s);
    assert forall i | 0 <= i < |stored.1| :: ([d] + stored.1)[i + 1] == stored.1[i];
  }

  /** A successful upload wrote the document row, then chunk `i` with index
      `i`, the `i`-th chunk of the text and the `i`-th embedding, for every
      chunk, and last the chunk count, which equals the reported number of
      chunks. */
  lemma SuccessfulUploadWrites(field: Result<FileField, ApiError>, s: Services)
    requires OneVectorPerText(s)
    requires Handle(field, s).result.Success?
    ensures Admit(field, s.extract).Success? && s.store.createDocument.Success? && s.store.createDocument.value.Some?
    ensures var o := Handle(field, s);
            var file := Admit(field, s.extract).value.0;
            var text := Admit(field, s.extract).value.1;
            var chunks := s.chunk(text);
            var id := s.store.createDocument.value.value;
            var vs := s.embedAll(chunks).0.value;
            |vs| == |chunks|
            && o.result.value == UploadResponse(id, file.filename, |chunks|, true)
            && |o.writes| == |chunks| + 2
            && o.writes[0] == DocumentRow(Document(file.filename, text, |file.content|))
            && (forall i | 0 <= i < |chunks| ::
                 o.writes[i + 1] == RowFor(id, chunks, vs, i, s.store.vectorInsert(i)))
            && o.writes[|o.writes| - 1] == ChunkCount(id, o.result.value.chunks)
  {
    var o := Handle(field, s);
    var p := Process(field, s);
    assert p.0.Success?;
    assert Admit(field, s.extract).Success?;
    assert s.store.createDocument.Success? && s.store.createDocument.value.Some?;
    var file := Admit(field, s.extract).value.0;
    var text := Admit(field, s.extract).value.1;
    var id := s.store.createDocument.value.value;
    var d := DocumentRow(Document(file.filename, text, |file.content|));
    var stored := StoreChunks(id, file.filename, text, s);
    assert p == (stored.0, [d] + stored.1, stored.2);
    assert o.writes == [d] + stored.1;
    assert o.result.value == stored.0.value;
    DocumentThenChunks(d, id, file.filename, text, s);
  }

  /** The chunk count is written only after every chunk insert has
      succeeded, and only as the last write. */
  lemma CountWrittenLast(field: Result<FileField, ApiError>, s: Services, k: nat)
    requires OneVectorPerText(s)
    requires k < |Handle(field, s).writes| && Handle(field, s).writes[k].ChunkCount?
    ensures k == |Handle(field, s).writes| - 1
    ensures Handle(field, s).result.Success?
  {
    var file := Admit(field, s.extract).value.0;
    var text := Admit(field, s.extract).value.1;
    var id := s.store.createDocument.value.value;
    var stored := StoreChunks(id, file.filename, text, s);
    assert Handle(field, s).writes[k] == stored.1[k - 1];
  }

  /** An empty file part gets past "No file provided" (an empty buffer is
      still a file), and the extractor's empty-buffer error then surfaces as
      the internal processing failure rather than an invalid argument. */
  lemma EmptyFileIsInternalError(field: Result<FileField, ApiError>, env: Env)
    requires field.Success? && EndsWithIgnoreCase(field.value.filename, PdfSuffix) && field.value.content == []
    ensures OneVectorPerText(ServicesOf(env))
    ensures Handle(field, ServicesOf(env)).result == Failure(ApiError(Internal, ProcessingFailed))
    ensures Handle(field, ServicesOf(env)).writes == []
  {
    RequestServicesValid(env);
    assert ServicesOf(env).extract(field.value.content).Failure?;
  }

  /** An embedding failure leaves the document row written without chunks
      or count, and is reported as the internal processing failure. */
  lemma EmbeddingFailureLeavesDocumentOnly(field: Result<FileField, ApiError>, s: Services)
    requires OneVectorPerText(s)
    requires Admit(field, s.extract).Success?
    requires s.store.createDocument.Success? && s.store.createDocument.value.Some?
    requires s.embedAll(s.chunk(Admit(field, s.extract).value.1)).0.Failure?
    ensures |Handle(field, s).writes| == 1 && Handle(field, s).writes[0].DocumentRow?
    ensures Handle(field, s).result == Failure(ApiError(Internal, ProcessingFailed))
  {
    var file := Admit(field, s.extract).value.0;
    var text := Admit(field, s.extract).value.1;
    var id := s.store.createDocument.value.value;
    var stored := StoreChunks(id, file.filename, text, s);
    assert stored.1 == [];
    var d := DocumentRow(Document(file.filename, text, |file.content|));
    assert Process(field, s) == (stored.0, [d] + stored.1, stored.2);
  }
}

=== FILE: wrappers.dfy ===
/** Failure-compatible wrappers used throughout the model in place of thrown exceptions. */
module Wrappers {

  /** A value that may be absent: JavaScript's `null`/`undefined` or a failed lookup. */
  datatype Option<+T> = None | Some(value: T) {
    function GetOr(default: T): T {
      match this
      case Some(v) => v
      case None => default
    }
  }

  /** Either a successful value or the error the source would throw. */
  datatype Result<+R, +E> = Success(value: R) | Failure(error: E) {
    predicate IsFailure() {
      Failure?
    }

    function PropagateFailure<U>(): Result<U, E>
      requires Failure?
    {
      Failure(error)
    }

    function Extract(): R
      requires Success?
    {
      value
    }
  }
}
